=== FILE: README.md ===
# glyph — a verified model of the editor core

glyph is a modal terminal text editor written in Rust. This project models the parts of it that turn state into screen content, and the parts that turn keys into actions:

- **Gutters.** The absolute, relative and no-op line gutters compute one label per visible row.
- **Scrolling.** `maybe_scroll` is the scrolling rule shared by the TUI view and the legacy buffer view. `draw_cursor` places the terminal cursor.
- **Key resolution.** `TuiEventHandler` resolves keys through per-mode binding tables and a pending-chord slot.
- **Dispatch.** `flatten_actions` feeds the editors' action loop. The loop updates the mode and size, and forwards window actions to the active window.
- **The TUI view.** It lays the gutter and the highlighted text out on a grid of cells, and emits only the cells that changed since the previous frame.
- **Windows.** Both windows highlight the visible slice, fix up the cursor after an edit and re-render. The legacy window also keeps a hover popup fed by LSP hover responses.
- **The statusline.** It shows the mode, the file name, padding, the cursor and a position percentage.
- **The legacy pane.** It has a scroll rule per cursor command, a cursor target and a buffer drawing loop. Its absolute line drawer is modelled too.

Each imperative piece is a Dafny `class` whose fields the methods update in place: the event handler, the two editors, the view, the statusline, the windows and the pane. Each method is proved against a specification function. Pure pieces are functions over datatypes, and lemmas relate them. The terminal is modelled as a sequence of writes. The viewport (a grid of styled cells with `set_cell`, `set_text` and a row-major diff) is a value type in `viewport.dfy`. Its source is not part of this model, so it follows the behaviour the editor relies on.

Rust `usize` values are `nat`. Where a `u16` or `usize` subtraction in the source would underflow, a `u16` sum would overflow, or an `unwrap` would fail, the model requires that it does not. This is a general admission: the model says nothing about those inputs, on which the source panics or wraps. The predicates that carry it are `ResizeFits` and `AllResizesFit`, `ScreenFits`, `RenderFits`, `CursorFits`, `AbsoluteFits`, `RelativeFits` and `Gutter.Fits`, `DrawFits`, `BufferFits`, `Statusline.Fits` and `HoverDecodable`, plus explicit `0x1_0000` bounds and the `Some?` of an unwrapped mark. "## Left out" names each member that requires one of them. `saturating_sub` is `Text.Sat` and `as u16` is `Text.Trunc16`. `len()` of a string counts UTF-8 bytes (`Text.ByteLen`).

Three behaviours of the code a reader may not expect:

- In the pending-chord step, a key that does not complete the chord is not swallowed. It is handled as a fresh key in the current mode.
- The relative gutter adds a single filler row when the file is shorter than the view, not one filler per missing row.
- A key's `A-`, `C-` or `S-` prefix is added only when the modifiers are exactly Alt, exactly Control or exactly Shift. Combined modifiers give no prefix.

## Model

| member | source | states |
|---|---|---|
| EditorTypes.Display | glyph_core/src/editor.rs:11-20 | each mode's name is ASCII and 6 or 7 characters long |
| EditorTypes.DisplayInjective | src/editor.rs:28-37 | distinct modes print distinct names |
| EditorTypes.SizeDefault | glyph_core/src/editor.rs:22-26 | the default size is 0 by 0 |
| EditorTypes.SizeFrom | src/editor.rs:45-52 | a `(width, height)` pair becomes a size with those fields, in that order |
| EditorTypes.RectFromSize | src/window/mod.rs:35-44 | a size becomes a rectangle at the origin with the same width and height |
| EditorTypes.Get | glyph_tui/src/event_handler.rs:146 | a key's binding is found if and only if some binding has that key, and the result is the action bound to it |
| EditorTypes.Resolve | glyph_tui/src/view.rs:150-162 | a cell's colours fall back to the theme's default foreground and background only when unset |
| Text.DecimalRoundTrip | glyph_core/src/gutter/absolute_line_gutter.rs:32-35 | the decimal text of a line number is all digits and reads back as that number |
| Text.DecimalLengthMonotone | crates/glyph/src/pane/line_drawer/absolute_line_drawer.rs:33-41 | larger numbers never have shorter decimal text, so the last label is the widest |
| Text.Utf8Len | glyph_core/src/window.rs:116 | a character takes 1 to 4 bytes, and exactly 1 when it is ASCII |
| Text.ByteLenAppend | glyph_core/src/window.rs:104-117 | the byte length of a concatenation is the sum of the byte lengths |
| Text.LastComponent | glyph_tui/src/statusline.rs:76 | the file name shown is the longest suffix without `/`, preceded by `/` when shorter than the path |
| Viewport.New | glyph_tui/src/view.rs:138 | a new viewport has the requested size and is blank everywhere |
| Viewport.DiffCovers | glyph_tui/src/view.rs:142-165 | every cell that differs from the previous frame appears in the diff |
| Viewport.DiffSelfEmpty | glyph_tui/src/view.rs:142 | diffing a frame against itself yields no changes |
| Viewport.DiffComplete | glyph_tui/src/view.rs:142-169 | applying the diff's changes to the previous frame reproduces the new frame |
| Viewport.RowMajorLayout | glyph_tui/src/statusline.rs:38-40 | the flat cell list has width × height cells, and its first row is the grid's row 0 |
| Gutter.NumberLabelLayout | glyph_core/src/gutter/absolute_line_gutter.rs:32-35 | a numbered label is the number right-aligned in `offset - 1` columns, followed by one space |
| Gutter.FillerLabel | glyph_core/src/gutter/absolute_line_gutter.rs:38-45 | a filler label is spaces, then the empty-line character, then one space, `offset` wide |
| Gutter.AbsoluteRowShows | glyph_core/src/gutter/absolute_line_gutter.rs:19-48 | row i shows line `scroll + i + 1` while rows remain in the file, and a filler after that |
| Gutter.AbsoluteGetLines | glyph_core/src/gutter/absolute_line_gutter.rs:19-48 | the loops produce exactly the absolute labels: one per row of the view |
| Gutter.RelativeNumber | glyph_core/src/gutter/relative_line_gutter.rs:34-43 | away from the cursor row, a row shows its distance from the cursor line |
| Gutter.RelativeLabels | glyph_core/src/gutter/relative_line_gutter.rs:22-58 | there is one label per file row in view, plus a single filler when the file is shorter than the view |
| Gutter.RelativeNumberLines | glyph_core/src/gutter/relative_line_gutter.rs:29-48 | one label per visible line, each the relative number (or the absolute number on the cursor line in relative-numbered mode) right-aligned in `offset - 1` columns and followed by a space |
| Gutter.RelativeGetLines | glyph_core/src/gutter/relative_line_gutter.rs:22-58 | the numbered labels, then one filler row when the file is shorter than the view |
| Gutter.RelativeLabelWidth | glyph_core/src/gutter/relative_line_gutter.rs:44-55 | every relative label is exactly `offset` characters wide |
| Gutter.RelativeCursorRowShowsZero | glyph_core/src/gutter/relative_line_gutter.rs:36-43 | in relative mode a row shows 0 if and only if it is the cursor's row |
| Gutter.RelativeNumberedCursorRow | glyph_core/src/gutter/relative_line_gutter.rs:38-43 | in relative-numbered mode the cursor row shows its absolute line number, and other rows their distance |
| Gutter.OtherModesAsRelative | glyph_core/src/gutter/relative_line_gutter.rs:36-43 | any mode other than relative-numbered labels rows exactly as relative mode does |
| Gutter.RelativeShortOfHeight | glyph_core/src/gutter/relative_line_gutter.rs:50-55 | a file two or more lines shorter than the view leaves rows without any label |
| Gutter.ZeroHeightNoLabels | glyph_core/src/gutter/relative_line_gutter.rs:29-33 | a view of height 0 gets no labels from either gutter |
| Gutter.NoopGetLines | glyph_core/src/gutter/noop_line_gutter.rs:7-15 | the no-op gutter has no labels |
| Gutter.Lines | glyph_core/src/gutter/mod.rs:1-14 | the absolute gutter fills the height; the relative gutter never exceeds it; the no-op gutter is empty |
| Gutter.GetLines | glyph_core/src/gutter/mod.rs:1-14 | dispatching on the gutter kind returns that gutter's labels |
| Scrollable.NextScroll | glyph_core/src/ui.rs:6-31 | for a non-zero height, after the step the cursor row is in view; only one axis moves; a visible cursor leaves the scroll alone; horizontal scrolling happens only above the last row |
| Scrollable.LastRowBlocksHorizontal | src/tui/mod.rs:19-44 | with the cursor on the last visible row, the scroll does not move, whatever the column |
| Scrollable.StuckOnLastRow | glyph_core/src/ui.rs:12-26 | repeating the step from the last visible row never changes the scroll |
| Scrollable.ScrollDownThenStuck | glyph_core/src/ui.rs:12-26 | scrolling down puts the cursor on the last row, where horizontal scrolling is then blocked |
| Scrollable.NoConvergenceExample | glyph_core/src/ui.rs:12-26 | a cursor at row 10, column 100 in an 80×5 view ends at scroll (6, 0) and stays there, off screen |
| Scrollable.SecondCallShowsCursor | glyph_core/src/ui.rs:12-26 | once the cursor row is above the last visible row, a second step brings the cursor fully into view |
| Scrollable.CursorColumn | src/tui/mod.rs:56-65 | the drawn column is the cursor column when it is within the line, and otherwise the line's last column (the last but one in Normal mode); 0 on a missing line |
| Scrollable.CursorScreenPosition | src/tui/mod.rs:46-72 | the cursor is placed right of the gutter, at the row relative to the scroll, in u16 coordinates; when nothing is truncated, the column is exactly the drawn column past the scroll plus the gutter width |
| EventHandler.KeyLabel | glyph_tui/src/event_handler.rs:134-144 | the label is the key's text, prefixed with `A-`, `C-` or `S-` exactly when the modifier set is that single modifier |
| EventHandler.CombinedModifiersNoPrefix | glyph_tui/src/event_handler.rs:139-144 | two or more modifiers give the bare key label |
| EventHandler.MapEventToKeyAction | glyph_tui/src/event_handler.rs:125-150 | a key event gives the label of its code and modifiers (other events none), and the action is that label's binding in the table |
| EventHandler.ChordKey | glyph_tui/src/event_handler.rs:23-27 | a chord continues with the typed character, or a space for other keys |
| EventHandler.HandleInsertEvent | glyph_tui/src/event_handler.rs:84-101 | a bound key gives its binding; an unbound character inserts itself; otherwise nothing |
| EventHandler.HandleCommandEvent | glyph_tui/src/event_handler.rs:103-119 | a bound key gives its binding; an unbound character goes to the command line; otherwise nothing |
| EventHandler.HandleSearchEvent | glyph_tui/src/event_handler.rs:121-123 | search mode yields no action |
| EventHandler.NormalStep | glyph_tui/src/event_handler.rs:70-83 | with no binding the pending slot is kept; a simple or multiple binding is returned and the slot kept; a chord binding returns nothing and makes the key label pending |
| EventHandler.PollStep | glyph_tui/src/event_handler.rs:17-59 | a completed chord wins and clears the slot; a resize is passed through; the pending slot only holds chord starts |
| EventHandler.ChordMissFallsThrough | glyph_tui/src/event_handler.rs:18-47 | a key that does not complete the pending chord behaves as if nothing were pending |
| EventHandler.ChordCompletes | glyph_tui/src/event_handler.rs:18-37 | a character bound in the pending chord table gives its action, whatever the modifiers |
| EventHandler.ChordNamedKeyIsSpace | glyph_tui/src/event_handler.rs:23-27 | a non-character key continues a chord as a space |
| EventHandler.SearchYieldsNothing | glyph_tui/src/event_handler.rs:53-58 | outside chords and resizes, search mode yields nothing and clears the slot |
| EventHandler.InsertFallbackIgnoresModifiers | glyph_tui/src/event_handler.rs:91-98 | an unbound character in insert mode is inserted even with modifiers held |
| EventHandler.ChordExample | glyph_tui/src/event_handler.rs:17-59 | with `d` bound to a chord table holding `d`, pressing `d` twice gives the bound action |
| EventHandler.TuiEventHandler.constructor | glyph_tui/src/event_handler.rs:63-68 | a new handler has no pending chord |
| EventHandler.TuiEventHandler.HandleNormalEvent | glyph_tui/src/event_handler.rs:70-83 | the result and the new pending slot are `NormalStep` of the old slot |
| EventHandler.TuiEventHandler.Poll | glyph_tui/src/event_handler.rs:17-59 | the result and the new pending slot are `PollStep` of the old slot |
| Dispatch.FlattenActions | glyph_tui/src/editor.rs:205-214 | flattening appends a simple action, the list of a multiple one, and each chord entry's flattening in table order |
| Dispatch.FlattenBindingsAppend | src/editor.rs:243-252 | flattening two tables in sequence is flattening their concatenation |
| Dispatch.FlattenBindingsPermutation | src/editor.rs:248-250 | the actions of a chord table are the same multiset in any iteration order of the map |
| Dispatch.FlattenBindingsContains | glyph_tui/src/editor.rs:209-212 | every entry's actions are among the flattened actions |
| Dispatch.WindowArea | glyph_tui/src/editor.rs:178-189 | the window takes the full width and the height minus two rows, at the origin |
| Dispatch.Step | glyph_tui/src/editor.rs:134-195 | only EnterMode changes the mode, and never to Search; only Resize changes the size and window area; Hover records one hover request; window actions are forwarded with the current mode; EnterMode of any mode but Search sets that mode |
| Dispatch.ApplyBatchPrefix | glyph_tui/src/editor.rs:139-192 | running the first `i + 1` actions of a batch is running the first `i`, then action `i` |
| Dispatch.ApplyBatchAppend | glyph_tui/src/editor.rs:137-192 | running two action lists in turn is running their concatenation |
| Dispatch.IgnoredActions | src/editor.rs:228 | entering Search, command-line characters and a nested Quit change nothing |
| Dispatch.ModeKeptWithoutEnterMode | src/editor.rs:195-208 | a batch without a mode switch keeps the mode |
| Dispatch.ModeSwitchAppliesToRest | glyph_tui/src/editor.rs:157-171 | an action after a mode switch in the same batch is forwarded with the new mode |
| Dispatch.LoopQuits | glyph_tui/src/editor.rs:118-125 | the loop stops exactly on a simple Quit |
| Dispatch.NestedQuitIgnored | src/editor.rs:156-161 | a Quit anywhere in a flattened batch changes nothing: the batch with it ends in the same state as the batch without it; only a polled top-level `Simple(Quit)` stops the loop |
| TuiEditor.TuiEditor.constructor | glyph_tui/src/editor.rs:48-84 | the editor starts in Normal mode with the given size and a window two rows shorter |
| TuiEditor.TuiEditor.ApplyAction | glyph_tui/src/editor.rs:140-191 | one pass of the loop changes the editor exactly as `Step` does for that action |
| TuiEditor.TuiEditor.HandleAction | glyph_tui/src/editor.rs:134-195 | the new state is the batch of flattened actions applied to the old state |
| TuiEditor.TuiEditor.OnPolled | glyph_tui/src/editor.rs:101-132 | a simple Quit stops the loop with the state unchanged; otherwise a polled action is handled |
| LegacyEditor.Editor.constructor | src/editor.rs:84-122 | the editor starts in Normal mode with the given size and a window two rows shorter |
| LegacyEditor.Editor.ApplyAction | src/editor.rs:178-229 | one pass of the loop changes the editor exactly as `Step` does for that action |
| LegacyEditor.Editor.HandleAction | src/editor.rs:172-233 | the new state is the batch of flattened actions applied to the old state |
| LegacyEditor.Editor.OnPolled | src/editor.rs:139-170 | a simple Quit stops the loop with the state unchanged; otherwise a polled action is handled |
| View.SelectGutter | glyph_tui/src/view.rs:30-46 | absolute, relative (both relative modes) or no-op gutter, exactly as configured, with the configured width and empty-line character |
| View.SelectedGutterLabels | glyph_tui/src/view.rs:59-70 | every label is as wide as the configured gutter; absolute numbering fills the height, the other numberings never exceed it, and no numbering gives no labels |
| View.Drawn | glyph_tui/src/view.rs:109-114 | a newline is drawn as a space in its own style; other cells are drawn as they are |
| View.PenClosedForm | glyph_tui/src/view.rs:105-123 | while the scroll column is at most the gutter width, after any prefix of cells the pen's row counts the newlines, and its column is the gutter width plus the cells since the last newline, stopping at the area's right edge |
| View.ScrolledPastGutterDrawsNothing | glyph_tui/src/view.rs:109-116 | scrolled horizontally past the gutter width, the column never advances and nothing is drawn |
| View.DrawWritesInArea | glyph_tui/src/view.rs:105-123 | every write lands inside the view's width, on a row no greater than the number of newlines |
| View.SidebarLastWrite | glyph_tui/src/view.rs:65-69 | each gutter label is written at column 0 of its row |
| View.FrameCell | glyph_tui/src/view.rs:138-141 | the sidebar is drawn after the text, so a frame cell shows the gutter label's character where a label covers it, else the text's last write there, else a blank |
| View.EmitOne | glyph_tui/src/view.rs:144-165 | a changed cell is written at the area's offset, with its colours resolved against the theme |
| View.UnchangedFrameEmitsNothing | glyph_tui/src/view.rs:142-165 | rendering an unchanged frame writes nothing |
| View.EmitExactlyChanges | glyph_tui/src/view.rs:142-165 | each write lies inside the area, and every differing cell is written |
| View.TuiView.constructor | glyph_tui/src/view.rs:29-57 | a new view keeps its area, config and theme, selects the configured gutter, and starts at scroll origin with an empty previous frame |
| View.TuiView.Draw | glyph_tui/src/view.rs:105-123 | the loop applies exactly the writes of the draw specification |
| View.TuiView.DrawSidebar | glyph_tui/src/view.rs:59-70 | the gutter labels for the current scroll are written onto the grid |
| View.TuiView.Render | glyph_tui/src/view.rs:129-172 | the new frame is gutter and text on a blank grid; the writes are exactly the diff against the previous frame; the cursor goes where `draw_cursor` puts it |
| View.TuiView.Resize | glyph_tui/src/view.rs:174-176 | the view takes the new area |
| View.TuiView.MaybeScroll | glyph_tui/src/view.rs:186-188 | the scroll becomes the scrolling rule applied to the old scroll |
| Window.FirstToken | glyph_core/src/window.rs:105-108 | the chosen token is the first that covers the byte offset, or none if none does |
| Window.EarlierTokenWins | glyph_core/src/window.rs:105-114 | where tokens overlap, the earliest one's style is used |
| Window.HighlightedKeepsText | glyph_core/src/window.rs:104-117 | highlighting keeps every character, in order |
| Window.ByteOffsetVsIndex | glyph_core/src/window.rs:116 | a byte offset equals the character index exactly on ASCII prefixes, and exceeds it otherwise |
| Window.HighlightedAscii | glyph_core/src/window.rs:104-117 | on ASCII text, a character's style is the first token covering its index |
| Window.HighlightText | glyph_core/src/window.rs:91-120 | the loop produces the highlighted cells of the text |
| Window.FixUp | glyph_core/src/window.rs:68-73 | after a backspace at column 0 below the first row, the cursor keeps the moved row and lands on the last column of the line the mark found, with a matching absolute position; otherwise it is the moved cursor |
| Window.Window.constructor | glyph_core/src/window.rs:23-39 | a new window starts with the cursor at the origin and keeps its collaborators |
| Window.Window.GetHighlight | glyph_core/src/window.rs:91-120 | one cell per character of the visible slice, carrying that character |
| Window.Window.Render | glyph_core/src/window.rs:79-89 | the view scrolls to the cursor, the frame is rebuilt, and only changed cells are written |
| Window.Window.Resize | glyph_core/src/window.rs:46-51 | the window and view take the new size, then re-render; the terminal cursor is placed by `draw_cursor` at the new scroll |
| Window.Window.HandleAction | glyph_core/src/window.rs:53-77 | the buffer is the edited one, the cursor is fixed up, then the window re-renders; the terminal cursor is placed by `draw_cursor` at the new scroll |
| Statusline.CursorSegment | glyph_tui/src/statusline.rs:69 | the cursor segment is ASCII, at least 4 characters, and ends in a space |
| Statusline.CursorSegmentReadsBack | glyph_tui/src/statusline.rs:69 | the segment reads back as the row, a colon, the column and a space |
| Statusline.PercentSegment | glyph_tui/src/statusline.rs:70-74 | TOP on row 1, BOT on the last row, otherwise the decimal digits of the percentage followed by `% ` |
| Statusline.FileSegment | glyph_tui/src/statusline.rs:76-77 | a space, then the path's last component |
| Statusline.ModeSegment | glyph_tui/src/statusline.rs:79 | a space, then the mode name |
| Statusline.SegmentsOf | glyph_tui/src/statusline.rs:62-79 | the segments are ASCII whenever the file name is |
| Statusline.LineAt | glyph_tui/src/statusline.rs:81-114 | the line is as wide as the area and reads mode, file, padding, percentage, then cursor |
| Statusline.LayoutTop | glyph_tui/src/statusline.rs:84-114 | at each column, the last of the six texts covering it decides the character |
| Statusline.WritesAt | glyph_tui/src/statusline.rs:84-114 | only row 0 is written, and each column gets the line's character |
| Statusline.DrawLayout | glyph_tui/src/statusline.rs:62-115 | drawing writes the statusline's line on row 0 and nothing else: the first cursor text is entirely overwritten by the percentage and the second cursor text, which ends at the right edge |
| Statusline.EmitCell | glyph_tui/src/statusline.rs:40-53 | each cell is written at its column, with colours resolved against the theme |
| Statusline.EmitAll | glyph_tui/src/statusline.rs:41-55 | one write per cell |
| Statusline.TuiStatusline.constructor | glyph_tui/src/statusline.rs:25-32 | a new statusline holds a blank grid of its area's size |
| Statusline.TuiStatusline.Draw | glyph_tui/src/statusline.rs:62-115 | the grid receives exactly the writes of the layout for this update |
| Statusline.TuiStatusline.DrawSegments | glyph_tui/src/statusline.rs:84-114 | the six `set_text` calls apply the layout's runs in order |
| Statusline.EmitCells | glyph_tui/src/statusline.rs:38-56 | one write per cell of the flat grid, in order, at its index as the column and the area's row, unset colours taken from the theme's default style |
| Statusline.TuiStatusline.Render | glyph_tui/src/statusline.rs:36-58 | the grid is redrawn, and every cell is emitted in row-major order |
| Statusline.RenderShowsLine | glyph_tui/src/statusline.rs:36-115 | the first row on screen shows the statusline's line, column by column |
| PaneTypes.DimensionsFrom | crates/glyph/src/pane/mod.rs:32-41 | a `(width, height)` pair gives a pane at the origin with those dimensions |
| LineDrawer.RowWrite | crates/glyph/src/pane/line_drawer/absolute_line_drawer.rs:23-53 | rows in the file show `scroll + i + 1`, dark grey, right-aligned at the sidebar edge; later rows show the empty-line marker one column left of the edge |
| LineDrawer.DrawLines | crates/glyph/src/pane/line_drawer/absolute_line_drawer.rs:23-53 | the two loops write one label per row, exactly as specified row by row |
| LineDrawer.OneWritePerRow | crates/glyph/src/pane/line_drawer/absolute_line_drawer.rs:30-50 | rows are distinct, and a row is uncoloured exactly when it lies past the file's end |
| Pane.ColorAtFirst | crates/glyph/src/pane/mod.rs:290-293 | a glyph's colour is that of the first span containing it |
| Pane.ColorAtNone | crates/glyph/src/pane/mod.rs:290-293 | a glyph no span contains is white |
| Pane.BreaksMonotone | crates/glyph/src/pane/mod.rs:280-287 | the row counter never decreases along the text |
| Pane.Advance | crates/glyph/src/pane/mod.rs:279-299 | a newline moves to column 0 of the next row; any other character moves one column right |
| Pane.GlyphsStopped | crates/glyph/src/pane/mod.rs:283-286 | once the row counter passes the height, no further glyph is written |
| Pane.GlyphsInArea | crates/glyph/src/pane/mod.rs:279-299 | every glyph lies right of the sidebar, inside the width, on a row no greater than the height, and is not a newline |
| Pane.GlyphPrinted | crates/glyph/src/pane/mod.rs:279-299 | every character that is not a newline, within the rows and left of the width, is written at its row and column in its colour |
| Pane.BottomRowOverrun | crates/glyph/src/pane/mod.rs:283-286 | with height 1, the text "a\nb" writes `b` on row 1, one row past the pane |
| Pane.NextScrollRow | crates/glyph/src/pane/mod.rs:97-117 | moving above the view scrolls up one row (saturating), past the bottom scrolls down one row, and otherwise the scroll is kept |
| Pane.MoveDownKeepsCursorVisible | crates/glyph/src/pane/mod.rs:106-117 | moving down by at most one row from a visible cursor keeps it visible |
| Pane.MoveUpFollowsCursor | crates/glyph/src/pane/mod.rs:97-105 | moving up one row past the top makes the cursor's row the first visible row |
| Pane.Pane.constructor | crates/glyph/src/pane/mod.rs:56-68 | a new pane keeps its id, dimensions and config, and starts unscrolled |
| Pane.Pane.HandleCursorCommand | crates/glyph/src/pane/mod.rs:94-128 | the cursor is moved and the scroll row follows it; the redraw log gains exactly: clear and redraw the buffer when it scrolls, the sidebar for each move, and the cursor last |
| Pane.Pane.CursorTarget | crates/glyph/src/pane/mod.rs:194-214 | the cursor is placed only on an existing line: at its row minus the scroll, and right of the sidebar and gap at its column, or at the line's last column when it is past the end |
| Pane.Pane.DrawBuffer | crates/glyph/src/pane/mod.rs:260-303 | the loop writes exactly the glyphs of the visible text, stopping once it passes the last row |
| LegacyWindow.Member | src/window/mod.rs:241-246 | a member lookup finds a member with that key, or reports that none has it |
| LegacyWindow.ResultObject | src/window/mod.rs:236-240 | the result object is the members of the first array element, or of the object itself; any other result has none |
| LegacyWindow.HoverContent | src/window/mod.rs:227-252 | content is found only for a hover response whose `contents.value` is a string |
| LegacyWindow.HoverContentComplete | src/window/mod.rs:227-252 | conversely, every hover response whose result object has an object `contents` with a string `value` gives that string |
| LegacyWindow.HoverReadsValue | src/window/mod.rs:236-246 | an object or an array whose first element holds `contents.value` gives that string |
| LegacyWindow.HoverArrayUsesFirst | src/window/mod.rs:236-240 | an array response is read through its first element only |
| LegacyWindow.HoverIgnored | src/window/mod.rs:232-246 | other methods, other messages, non-object results and non-string values give no popup |
| LegacyWindow.SelectGutter | src/window/mod.rs:69-80 | absolute, relative (both relative modes) or no-op gutter, exactly as configured |
| LegacyWindow.LegacyWindow.constructor | src/window/mod.rs:62-100 | the window has two blank layers of its size, no popup, the configured gutter, and the cursor and scroll at the origin |
| LegacyWindow.LegacyWindow.RenderBuffer | src/window/mod.rs:153-165 | the view scrolls to the cursor first; then the buffer layer is the gutter and the highlighted slice at the new scroll |
| LegacyWindow.LegacyWindow.RenderPopup | src/window/mod.rs:167-176 | the popup layer becomes the rendered popup when there is one, and is kept otherwise |
| LegacyWindow.LegacyWindow.Render | src/window/mod.rs:141-151 | the buffer layer is rebuilt; the popup layer is re-rendered only when a popup exists; the cursor is placed by `draw_cursor` |
| LegacyWindow.LegacyWindow.Resize | src/window/mod.rs:107-112 | the window takes the new size and re-renders: scroll and buffer layer at the new size, the popup layer re-rendered when there is a popup, and the cursor placed by `draw_cursor` |
| LegacyWindow.LegacyWindow.ApplyEdit | src/window/mod.rs:115-135 | any action closes the popup; the buffer is the edited one; a backspace at column 0 below the first row puts the cursor on the last column of the mark it was on |
| LegacyWindow.LegacyWindow.HandleAction | src/window/mod.rs:114-139 | the edit of `ApplyEdit`, then a render: the view scrolls to the fixed-up cursor and the buffer layer is rebuilt there |
| LegacyWindow.LegacyWindow.PopupAt | src/window/mod.rs:254-260 | the popup holds the content, its column is the gutter width plus the cursor's column past the scroll, and its row plus the scroll row is the cursor row |
| LegacyWindow.LegacyWindow.CreatePopup | src/window/mod.rs:254-265 | the popup holds the content, anchored at the cursor's screen cell right of the gutter, and is rendered |
| LegacyWindow.LegacyWindow.HandleLspMessage | src/window/mod.rs:227-252 | a popup is created exactly when the message is a hover response with string content, anchored at the cursor and rendered, and the window re-renders; otherwise nothing changes |

## Left out

- Terminal output is a list of writes. Hiding and showing the cursor, `SetCursorStyle`, `EnterAlternateScreen`, raw mode and flushing stdout are not modelled. Neither is any I/O error path (`anyhow::Result`).
- The async event loop, the 30 ms timer, the LSP client's requests and reads, and logging are not modelled. The editors' `handle_lsp_message` (glyph_tui/src/editor.rs:197-203, src/editor.rs:235-241) ignores its message and is not modelled. A Hover action is recorded as an effect rather than sent.
- The viewport crate is not part of this model. Its `set_cell`, `set_text`, `diff` and flat `cells` are modelled as the editor uses them: writes outside the grid are ignored, text is a run of cell writes, the diff is row-major, and cells are laid out row-major.
- The buffer, its marker and file name, the syntax highlighter, and the cursor's movement and readable position are inputs. They appear as a datatype of functions and as parameters (`colorize`, `moved`, `readableRow`), because their sources are not part of this model.
- The legacy window's `gutter.draw`, `TuiView.draw`, `render_diff` and `HoverPopup.render` are not part of this model. They are function-typed fields, and the legacy buffer layer's terminal writes are not modelled. The legacy view (src/tui/mod.rs) is not part of this model either: the window scrolls with its own `size` and places the cursor with `config.gutterWidth`, which assumes that the view's `get_area()` is the window's size and its `get_offset()` is the gutter width, as the window sets them up (src/window/mod.rs:92, 109).
- `initialize` of both windows is `render`, and of the editors raw mode plus `initialize` of each window. Only the render is modelled.
- Pane `handle` (hide and show the cursor around a dispatch), `initialize`, `handle_buffer_command`, `redraw_line`, `clear_sidebar`, `clear_buffer` and `maybe_redraw_sidebar` are not modelled. A pane's redraws are recorded as a log of steps.
- HashMap iteration order is unspecified in the source. A chord table is a list in some order, and order independence is stated as a multiset lemma.
- Dispatch.Step: a Resize is recorded only in the final size and window area, not in the effect log. The source calls `window.resize` at that point in the batch (glyph_tui/src/editor.rs:178-189, src/editor.rs:216-227), so the order of a resize among the forwarded window actions, and a second resize in the same batch, are not captured.
- Loading the configuration and theme is not modelled. They are values.
- The statusline's `resize` is an empty function, so it is not modelled.
- Statusline.SegmentsOf: the percentage is a parameter. The source computes `row / lines * 100` in floating point and truncates it.
- Rust `usize` overflow is not modelled: `usize` is an unbounded `nat`.
- View.TuiView.Render: requires the theme's default foreground and background to be set. The source unwraps them only for cells that have no colour of their own.
- Statusline.TuiStatusline.Render: requires the theme's default foreground and background to be set. The source unwraps them only for cells that have no colour of their own.
- Gutter.AbsoluteGetLines: requires `AbsoluteFits`: each label fits in `offset - 1` columns and `offset >= 2` when filler rows are drawn. The source subtracts `offset - 1 - len` and `offset - 2` in `usize` (glyph_core/src/gutter/absolute_line_gutter.rs:33,40) and panics otherwise.
- Gutter.AbsoluteRowShows: requires `AbsoluteFits`, for the reason given for `Gutter.AbsoluteGetLines`.
- Gutter.RelativeNumberLines: requires `RelativeFits`: each label fits in `offset - 1` columns and `offset >= 2` when the filler row is drawn. The source subtracts in `usize` (glyph_core/src/gutter/relative_line_gutter.rs:45,51) and panics otherwise.
- Gutter.RelativeGetLines: requires `RelativeFits`, for the reason given for `Gutter.RelativeNumberLines`.
- Gutter.RelativeLabels: requires `RelativeFits`, for the reason given for `Gutter.RelativeNumberLines`.
- Gutter.RelativeLabelWidth: requires `RelativeFits`, for the reason given for `Gutter.RelativeNumberLines`.
- Gutter.OtherModesAsRelative: requires `RelativeFits`, for the reason given for `Gutter.RelativeNumberLines`.
- Gutter.RelativeShortOfHeight: requires `RelativeFits`, for the reason given for `Gutter.RelativeNumberLines`.
- Gutter.Lines: requires `Gutter.Fits`, which is `AbsoluteFits` or `RelativeFits` for the gutter's kind.
- Gutter.GetLines: requires `Gutter.Fits`, which is `AbsoluteFits` or `RelativeFits` for the gutter's kind.
- View.SelectedGutterLabels: requires `Gutter.Fits` for the selected gutter.
- View.TuiView.DrawSidebar: requires `Gutter.Fits` for the view's gutter, because it calls `get_lines`.
- View.TuiView.Render: requires `Gutter.Fits` and `ScreenFits`: the gutter labels must not underflow, and the `u16` column sum in `draw_cursor` (src/tui/mod.rs:67) must not overflow.
- View.EmitExactlyChanges: requires the area offset plus the grid size to fit in `u16`, so that no `as u16` coordinate wraps onto another cell.
- Scrollable.CursorScreenPosition: requires `ScreenFits`: the `u16` sum of the scrolled column and the gutter width (src/tui/mod.rs:67) does not overflow. The source would panic in a debug build and wrap in a release build.
- Dispatch.WindowArea: the height is `rows - 2` in `u16` (glyph_tui/src/editor.rs:184, src/editor.rs:222). Below 2 rows the source underflows; callers require `rows >= 2` through `ResizeFits`.
- Dispatch.Step: requires `ResizeFits`: a Resize action has at least 2 rows, for the reason given for `Dispatch.WindowArea`.
- Dispatch.ApplyBatchPrefix: requires `AllResizesFit`, which is `ResizeFits` for every action.
- Dispatch.ApplyBatchAppend: requires `AllResizesFit`, which is `ResizeFits` for every action.
- Dispatch.ModeKeptWithoutEnterMode: requires `AllResizesFit`, which is `ResizeFits` for every action.
- Dispatch.ModeSwitchAppliesToRest: requires `AllResizesFit`, which is `ResizeFits` for every action.
- Dispatch.NestedQuitIgnored: requires `AllResizesFit`, which is `ResizeFits` for every action.
- TuiEditor.TuiEditor.constructor: requires `rows >= 2`, because the window height is `rows - 2` in `u16`.
- TuiEditor.TuiEditor.ApplyAction: requires `ResizeFits`, for the reason given for `Dispatch.WindowArea`.
- TuiEditor.TuiEditor.HandleAction: requires `AllResizesFit` of the flattened actions.
- TuiEditor.TuiEditor.OnPolled: requires `AllResizesFit` of the flattened actions.
- LegacyEditor.Editor.constructor: requires `rows >= 2`, because the window height is `rows - 2` in `u16`.
- LegacyEditor.Editor.ApplyAction: requires `ResizeFits`, for the reason given for `Dispatch.WindowArea`.
- LegacyEditor.Editor.HandleAction: requires `AllResizesFit` of the flattened actions.
- LegacyEditor.Editor.OnPolled: requires `AllResizesFit` of the flattened actions.
- Window.Window.Render: requires `RenderFits`: the theme colours are set, and at the new scroll position the gutter fits (`Gutter.Fits`) and the cursor's `u16` column sum fits (`ScreenFits`).
- Window.Window.Resize: requires `RenderFits` for the new area, for the reason given for `Window.Window.Render`.
- Window.Window.HandleAction: requires the mark at the cursor to exist, because the source unwraps it (glyph_core/src/window.rs:56-59). It also requires `RenderFits` for the fixed-up cursor.
- LegacyWindow.LegacyWindow.Render: requires `CursorFits`: the cursor's `u16` column sum at the new scroll position does not overflow (`ScreenFits`).
- LegacyWindow.LegacyWindow.Resize: requires `CursorFits` for the new size, for the reason given for `LegacyWindow.LegacyWindow.Render`.
- LegacyWindow.LegacyWindow.ApplyEdit: requires the mark at the cursor to exist, because the source unwraps it (src/window/mod.rs:121).
- LegacyWindow.LegacyWindow.HandleAction: requires the mark at the cursor to exist (src/window/mod.rs:121). It also requires `CursorFits` for the fixed-up cursor.
- Pane.Pane.HandleCursorCommand: requires that a scroll down does not overflow the `u16` scroll row (`scroll.row += 1`, crates/glyph/src/pane/mod.rs:108).
- Pane.Pane.CursorTarget: requires the `u16` sums of the sidebar width, the gap and the column (crates/glyph/src/pane/mod.rs:201-206) not to overflow.
- LineDrawer.RowWrite: requires `DrawFits`: the `u16` sums `dims.col + sidebar_width` and `scroll_row + i` do not overflow, and the subtractions `- len` and `- 1` (crates/glyph/src/pane/line_drawer/absolute_line_drawer.rs:33,36,45) do not underflow.
- LineDrawer.DrawLines: requires `DrawFits`, for the reason given for `LineDrawer.RowWrite`.
- LineDrawer.OneWritePerRow: requires `DrawFits`, for the reason given for `LineDrawer.RowWrite`.
- Window.Window.Render: the window's optional buffer is modelled as always present. The source unwraps it.
- LegacyWindow.LegacyWindow.CreatePopup: requires the cursor not to be above or left of the scroll. The source subtracts `usize` positions (src/window/mod.rs:258-259), which would panic there.
- LegacyWindow.LegacyWindow.HandleLspMessage: requires `HoverDecodable`, which excludes hover replies on which the source panics: an empty result array (`arr[0]`) or a first element that is not an object (`unwrap`, src/window/mod.rs:237). It also requires what `CreatePopup` and `render` require when a popup is created.
- Statusline.TuiStatusline.Draw: requires `Fits`, which excludes widths at which the source's `usize` subtractions underflow and panic (glyph_tui/src/statusline.rs:81-83, 96, 103, 110).
- Statusline.TuiStatusline.Render: requires `Fits` for the same reason as `Draw`.
- Viewport.Diff: a coordinate that the previous frame does not have counts as changed. This is an assumption about the viewport crate, whose source is not part of this model; it is how the first frame, diffed against an empty grid, emits every cell.
- Pane.Pane.DrawBuffer: glyph coordinates are unbounded. The precondition `BufferFits` requires that the `u16` column and row counters do not overflow before the loop stops; the source would panic or wrap there.

=== FILE: dispatch.dfy ===
/** Action flattening and batch dispatch, shared by both editor front ends: a
    resolved `KeyAction` is flattened to a list of actions, which then run in
    order against the editor's mode, size and active window. */
module Dispatch {
  import opened EditorTypes

  /** The actions a binding stands for: one action, a list in order, or the
      flattening of every value of a chord table in the table's iteration order. */
  function Flatten(ka: KeyAction): seq<Action>
    decreases ka
  {
    match ka
    case Simple(a) => [a]
    case Multiple(actions) => actions
    case Complex(bindings) => FlattenBindings(bindings)
  }

  function FlattenBindings(bindings: seq<Binding>): seq<Action>
    decreases bindings
  {
    if bindings == [] then [] else Flatten(bindings[0].value) + FlattenBindings(bindings[1..])
  }

  lemma {:induction false} FlattenBindingsAppend(a: seq<Binding>, b: seq<Binding>)
    ensures FlattenBindings(a + b) == FlattenBindings(a) + FlattenBindings(b)
    decreases |a|
  {
    if a == [] {
      assert a + b == b;
    } else {
      assert (a + b)[1..] == a[1..] + b;
      FlattenBindingsAppend(a[1..], b);
    }
  }

  /** `flatten_actions(actions, action)`: appends the flattening of `action` to
      `actions`, keeping what was there as a prefix. */
  method FlattenActions(actions: seq<Action>, action: KeyAction) returns (out: seq<Action>)
    ensures out == actions + Flatten(action)
    decreases action
  {
    match action {
      case Multiple(a) => out := actions + a;
      case Simple(a) => out := actions + [a];
      case Complex(table) =>
        out := actions;
        for i := 0 to |table|
          invariant out == actions + FlattenBindings(table[..i])
        {
          assert table[i] in table;
          out := FlattenActions(out, table[i].value);
          assert table[..i + 1] == table[..i] + [table[i]];
          FlattenBindingsAppend(table[..i], [table[i]]);
        }
        assert table[..|table|] == table;
    }
  }

  /** Taking one binding out of a table takes exactly its actions out of the
      flattening. */
  lemma {:induction false} FlattenBindingsRemove(b: seq<Binding>, j: nat)
    requires j < |b|
    ensures multiset(FlattenBindings(b)) ==
      multiset(Flatten(b[j].value)) + multiset(FlattenBindings(b[..j] + b[j + 1..]))
    decreases j
  {
    if j == 0 {
      assert b[..0] + b[1..] == b[1..];
    } else {
      var rest := b[1..];
      FlattenBindingsRemove(rest, j - 1);
      assert rest[j - 1] == b[j];
      assert b[..j] + b[j + 1..] == [b[0]] + (rest[..j - 1] + rest[j..]);
      var fr := FlattenBindings(rest[..j - 1] + rest[j..]);
      assert FlattenBindings(b[..j] + b[j + 1..]) == Flatten(b[0].value) + fr;
    }
  }

  /** The table's iteration order does not matter to what runs, only to the order
      it runs in: two orders of the same bindings flatten to the same multiset. */
  lemma {:induction false} FlattenBindingsPermutation(a: seq<Binding>, b: seq<Binding>)
    requires multiset(a) == multiset(b)
    ensures multiset(FlattenBindings(a)) == multiset(FlattenBindings(b))
    decreases |a|
  {
    if a != [] {
      var x := a[0];
      assert x in multiset(b);
      var j :| 0 <= j < |b| && b[j] == x;
      var rest := b[..j] + b[j + 1..];
      assert multiset(a[1..]) == multiset(rest) by {
        assert a == [x] + a[1..];
        assert multiset(a) == multiset{x} + multiset(a[1..]);
        assert b == b[..j] + [x] + b[j + 1..];
        assert multiset(b) == multiset(b[..j]) + multiset{x} + multiset(b[j + 1..]);
        assert multiset(rest) == multiset(b[..j]) + multiset(b[j + 1..]);
        forall y ensures multiset(a[1..])[y] == multiset(rest)[y] {
          assert multiset(a)[y] == multiset(b)[y];
        }
      }
      FlattenBindingsPermutation(a[1..], rest);
      FlattenBindingsRemove(b, j);
    }
  }

  /** Every value of a chord table contributes all its actions. */
  lemma {:induction false} FlattenBindingsContains(bindings: seq<Binding>, i: nat)
    requires i < |bindings|
    ensures multiset(Flatten(bindings[i].value)) <= multiset(FlattenBindings(bindings))
    decreases i
  {
    if i > 0 {
      FlattenBindingsContains(bindings[1..], i - 1);
    }
  }

  /** Actions the editor forwards to the active window. */
  predicate IsWindowAction(a: Action)
  {
    a.MoveToLineStart? || a.MoveToLineEnd? || a.DeletePreviousChar? || a.DeleteCurrentChar? ||
    a.NextWord? || a.MoveLeft? || a.MoveDown? || a.MoveUp? || a.MoveRight? || a.MoveToTop? ||
    a.SaveBuffer? || a.MoveToBottom? || a.InsertLine? || a.InsertLineBelow? || a.InsertLineAbove? ||
    a.InsertChar?
  }

  /** What the editor asks of its collaborators: the window handling an action in
      the mode current at that moment, or the language server for a hover. */
  datatype Effect = WindowAction(action: Action, mode: Mode) | HoverRequest

  /** The editor state `handle_action` reads and writes; `windowArea` is the
      area last given to the active window. */
  datatype EditorState = EditorState(mode: Mode, size: Size, windowArea: Rect, effects: seq<Effect>)

  /** A resize leaves room for the status and command lines: `rows - 2` must not
      underflow. */
  predicate ResizeFits(a: Action)
  {
    a.Resize? ==> a.rows >= 2
  }

  /** The window area for a terminal of `size`: the whole width, two rows fewer. */
  function WindowArea(size: Size): (r: Rect)
    requires size.height >= 2
    ensures r.row == 0 && r.col == 0 && r.width == size.width && r.height + 2 == size.height
  {
    Rect(0, 0, size.height - 2, size.width)
  }

  /** One iteration of `handle_action`'s loop. */
  function Step(s: EditorState, a: Action): (r: EditorState)
    requires ResizeFits(a)
    ensures r.mode != s.mode ==> a == EnterMode(r.mode) && r.mode != Search
    ensures a.EnterMode? && a.mode != Search ==> r.mode == a.mode
    ensures r.size != s.size ==> a.Resize?
    ensures !a.Resize? ==> r.windowArea == s.windowArea
    ensures a.Resize? ==> r.size == SizeFrom(a.cols, a.rows) && r.windowArea == WindowArea(r.size)
    ensures IsWindowAction(a) ==> r.effects == s.effects + [WindowAction(a, s.mode)]
    ensures a.Hover? ==> r.effects == s.effects + [HoverRequest]
    ensures !IsWindowAction(a) && !a.Hover? ==> r.effects == s.effects
  {
    if IsWindowAction(a) then s.(effects := s.effects + [WindowAction(a, s.mode)])
    else match a
      case EnterMode(Insert) => s.(mode := Insert)
      case EnterMode(Normal) => s.(mode := Normal)
      case EnterMode(Command) => s.(mode := Command)
      case Hover => s.(effects := s.effects + [HoverRequest])
      case Resize(cols, rows) =>
        var size := SizeFrom(cols, rows);
        s.(size := size, windowArea := WindowArea(size))
      case _ => s
  }

  predicate AllResizesFit(actions: seq<Action>)
  {
    forall i :: 0 <= i < |actions| ==> ResizeFits(actions[i])
  }

  /** The whole batch, in order. */
  function ApplyBatch(s: EditorState, actions: seq<Action>): EditorState
    requires AllResizesFit(actions)
  {
    if actions == [] then s else Step(ApplyBatch(s, actions[..|actions| - 1]), actions[|actions| - 1])
  }

  lemma {:induction false} ApplyBatchAppend(s: EditorState, a: seq<Action>, b: seq<Action>)
    requires AllResizesFit(a) && AllResizesFit(b)
    ensures AllResizesFit(a + b)
    ensures ApplyBatch(s, a + b) == ApplyBatch(ApplyBatch(s, a), b)
    decreases |b|
  {
    if b == [] {
      assert a + b == a;
    } else {
      assert (a + b)[..|a + b| - 1] == a + b[..|b| - 1];
      ApplyBatchAppend(s, a, b[..|b| - 1]);
    }
  }

  /** The loop over a batch: running the first `i + 1` actions is running the
      first `i`, then action `i`. */
  lemma ApplyBatchPrefix(s: EditorState, actions: seq<Action>, i: nat)
    requires AllResizesFit(actions) && i < |actions|
    ensures AllResizesFit(actions[..i]) && AllResizesFit(actions[..i + 1])
    ensures ApplyBatch(s, actions[..i + 1]) == Step(ApplyBatch(s, actions[..i]), actions[i])
  {
    assert actions[..i + 1][..i] == actions[..i];
  }

  /** `EnterMode(Search)`, `InsertCommand`, a nested `Quit` and the other actions
      the loop does not name change nothing. */
  lemma IgnoredActions(s: EditorState, c: char)
    ensures Step(s, EnterMode(Search)) == s
    ensures Step(s, InsertCommand(c)) == s
    ensures Step(s, Quit) == s
  {
  }

  /** Without an `EnterMode` other than Search, a batch keeps the mode. */
  lemma {:induction false} ModeKeptWithoutEnterMode(s: EditorState, actions: seq<Action>)
    requires AllResizesFit(actions)
    requires forall i :: 0 <= i < |actions| ==> !actions[i].EnterMode? || actions[i].mode == Search
    ensures ApplyBatch(s, actions).mode == s.mode
    decreases |actions|
  {
    if actions != [] {
      ModeKeptWithoutEnterMode(s, actions[..|actions| - 1]);
    }
  }

  /** A mode switch applies to the window actions after it in the same batch. */
  lemma ModeSwitchAppliesToRest(s: EditorState, before: seq<Action>, m: Mode, a: Action)
    requires AllResizesFit(before) && m != Search && IsWindowAction(a)
    ensures AllResizesFit(before + [EnterMode(m), a])
    ensures var r := ApplyBatch(s, before + [EnterMode(m), a]);
      r.mode == m && r.effects[|r.effects| - 1] == WindowAction(a, m)
  {
    ApplyBatchAppend(s, before, [EnterMode(m), a]);
    assert [EnterMode(m), a][..1] == [EnterMode(m)];
    assert [EnterMode(m)][..0] == [];
  }

  /** What the event loop does with a polled result: only a top-level
      `Simple(Quit)` ends the session. */
  function LoopQuits(polled: Option<KeyAction>): (quit: bool)
    ensures quit <==> polled == Some(Simple(Quit))
  {
    match polled
    case Some(Simple(Quit)) => true
    case _ => false
  }

  /** A `Quit` inside a list or a chord does not end the session: the loop
      quits only on a top-level `Simple(Quit)`, and once flattened the `Quit`
      runs like any other action and does nothing, wherever it sits in the
      batch. */
  lemma {:induction false} NestedQuitIgnored(s: EditorState, polled: KeyAction, xs: seq<Action>, ys: seq<Action>)
    requires polled != Simple(Quit)
    requires AllResizesFit(xs) && AllResizesFit(ys)
    ensures !LoopQuits(Some(polled))
    ensures AllResizesFit(xs + [Quit] + ys)
    ensures ApplyBatch(s, xs + [Quit] + ys) == ApplyBatch(s, xs + ys)
  {
    ApplyBatchAppend(s, xs, [Quit]);
    assert [Quit][..0] == [];
    assert ApplyBatch(s, xs + [Quit]) == ApplyBatch(s, xs);
    ApplyBatchAppend(s, xs + [Quit], ys);
    ApplyBatchAppend(s, xs, ys);
  }
}

=== FILE: editor_types.dfy ===
/** Value types shared by the editor: modes, sizes, positions, styles, cells,
    actions and key bindings, and the narrow views of the external buffer. */
module EditorTypes {
  import opened Text

  datatype Option<T> = None | Some(value: T)

  /** Unsigned 16-bit quantities (terminal sizes, crossterm coordinates). */
  type u16 = x: nat | x < 0x1_0000

  datatype Mode = Normal | Insert | Command | Search

  /** `impl Display for Mode`. */
  function Display(m: Mode): (s: string)
    ensures IsAscii(s) && 6 <= |s| <= 7
  {
    match m
    case Search => "SEARCH"
    case Insert => "INSERT"
    case Normal => "NORMAL"
    case Command => "COMMAND"
  }

  /** Distinct modes never display alike. */
  lemma DisplayInjective(a: Mode, b: Mode)
    requires Display(a) == Display(b)
    ensures a == b
  {
  }

  datatype Size = Size(height: nat, width: nat)

  /** `Size::default()`. */
  function SizeDefault(): (s: Size)
    ensures s.height == 0 && s.width == 0
  {
    Size(0, 0)
  }

  /** `Size::from((width, height))`: the first component is the width. */
  function SizeFrom(width: u16, height: u16): (s: Size)
    ensures s.width == width && s.height == height
  {
    Size(height, width)
  }

  datatype Position = Position(row: nat, col: nat)

  function PositionDefault(): Position { Position(0, 0) }

  datatype Rect = Rect(row: nat, col: nat, height: nat, width: nat)

  /** `Rect::from(Size)`: placed at the origin with the size's extent. */
  function RectFromSize(size: Size): (r: Rect)
    ensures r.row == 0 && r.col == 0
    ensures r.width == size.width && r.height == size.height
  {
    Rect(0, 0, size.height, size.width)
  }

  /** Terminal colours; only their identity matters to this model. */
  datatype Color = White | DarkGrey | Rgb(r: nat, g: nat, b: nat) | AnsiValue(code: nat)

  /** A style whose unset colours are resolved against the theme at render time. */
  datatype Style = Style(fg: Option<Color>, bg: Option<Color>)

  datatype Cell = Cell(c: char, style: Style)

  /** Editor actions named by the event handler and the dispatch loop. */
  datatype Action =
    | MoveToLineStart | MoveToLineEnd | DeletePreviousChar | DeleteCurrentChar | NextWord
    | MoveLeft | MoveDown | MoveUp | MoveRight | MoveToTop | SaveBuffer | MoveToBottom
    | InsertLine | InsertLineBelow | InsertLineAbove | InsertChar(ch: char)
    | InsertCommand(cmd: char) | EnterMode(mode: Mode) | Hover | Resize(cols: u16, rows: u16)
    | Quit

  /** A key binding: one action, an ordered list, or a chord continuation table.
      A table (`HashMap<String, KeyAction>`) is a sequence of bindings in the map's
      iteration order, which the source leaves unspecified. */
  datatype KeyAction =
    | Simple(action: Action)
    | Multiple(actions: seq<Action>)
    | Complex(bindings: seq<Binding>)

  datatype Binding = Binding(key: string, value: KeyAction)

  /** `HashMap::get`: the value bound to `key`, if any. */
  function Get(table: seq<Binding>, key: string): (r: Option<KeyAction>)
    ensures r.Some? <==> exists i :: 0 <= i < |table| && table[i].key == key
    ensures r.Some? ==> exists i :: 0 <= i < |table| && table[i] == Binding(key, r.value)
  {
    if table == [] then None
    else if table[0].key == key then Some(table[0].value)
    else Get(table[1..], key)
  }

  /** A line of the buffer as the marker reports it: its start offset and length. */
  datatype Mark = Mark(start: nat, size: nat)

  /** A highlighted byte span produced by the highlighter. */
  datatype Token = Token(start: nat, end: nat, style: Style)

  /** The editing cursor: its line, its column and its absolute offset in the buffer. */
  datatype Cursor = Cursor(row: nat, col: nat, absolutePosition: nat)

  /** The narrow view of the external buffer the renderer consumes: the number of
      lines, the text of `count` lines from a first row, and the marker lookups. */
  datatype Buffer = Buffer(
    lineCount: nat,
    contentFrom: (nat, nat) -> string,
    getByLine: nat -> Option<Mark>,
    getByCursor: nat -> Option<Mark>,
    fileName: string)

  /** A character written to the terminal with both colours resolved. */
  datatype TermWrite = TermWrite(col: nat, row: nat, c: char, fg: Color, bg: Color)

  /** The theme's default style, used for every colour a cell leaves unset. */
  function Resolve(style: Style, default: Style): (r: (Color, Color))
    requires style.fg.Some? || default.fg.Some?
    requires style.bg.Some? || default.bg.Some?
    ensures r.0 == (if style.fg.Some? then style.fg.value else default.fg.value)
    ensures r.1 == (if style.bg.Some? then style.bg.value else default.bg.value)
  {
    (if style.fg.Some? then style.fg.value else default.fg.value,
     if style.bg.Some? then style.bg.value else default.bg.value)
  }
}

/** Configuration and theme records (only the fields the core reads). */
module Config {
  import opened EditorTypes

  datatype LineNumbers = Absolute | Relative | RelativeNumbered | None

  datatype Keys = Keys(normal: seq<Binding>, insert: seq<Binding>, command: seq<Binding>)

  datatype Config = Config(
    keys: Keys,
    gutterWidth: nat,
    lineNumbers: LineNumbers,
    emptyLineChar: char)

  datatype Theme = Theme(style: Style, gutter: Style, statusline: Style)
}

=== FILE: event_handler.dfy ===
/** Key resolution of the terminal front end (`TuiEventHandler`): terminal events
    are turned into key labels, looked up in the per-mode binding tables, and a
    single pending slot remembers the first key of a two-key chord. */
module EventHandler {
  import opened EditorTypes
  import Config

  /** A key code: a character, or any other key, known by its debug name
      (`Enter`, `Esc`, `F(1)`, ...). */
  datatype KeyCode = Char(c: char) | Named(name: string)

  datatype Modifier = Shift | Control | Alt | Super | Hyper | Meta

  /** Terminal events; everything other than keys and resizes is `Other`. */
  datatype Event = Key(code: KeyCode, modifiers: set<Modifier>) | Resize(cols: u16, rows: u16) | Other

  /** The label of a key without modifiers: the character itself, or the debug name. */
  function BaseLabel(code: KeyCode): (s: string)
    ensures code.Char? ==> s == [code.c]
  {
    match code
    case Char(c) => [c]
    case Named(name) => name
  }

  /** The canonical label of a key: prefixed by `A-`, `C-` or `S-` only when the
      modifiers are exactly Alt, exactly Control or exactly Shift. */
  function KeyLabel(code: KeyCode, modifiers: set<Modifier>): (s: string)
    ensures modifiers == {Alt} ==> s == "A-" + BaseLabel(code)
    ensures modifiers == {Control} ==> s == "C-" + BaseLabel(code)
    ensures modifiers == {Shift} ==> s == "S-" + BaseLabel(code)
    ensures modifiers != {Alt} && modifiers != {Control} && modifiers != {Shift} ==> s == BaseLabel(code)
  {
    if modifiers == {Alt} then "A-" + BaseLabel(code)
    else if modifiers == {Control} then "C-" + BaseLabel(code)
    else if modifiers == {Shift} then "S-" + BaseLabel(code)
    else BaseLabel(code)
  }

  /** Modifiers combined (Control together with Shift, say) give no prefix at all. */
  lemma CombinedModifiersNoPrefix(code: KeyCode, modifiers: set<Modifier>)
    requires |modifiers| >= 2
    ensures KeyLabel(code, modifiers) == BaseLabel(code)
  {
  }

  /** `map_event_to_key_action`: a key event gives its label and the binding of that
      label in `table`; any other event gives neither. */
  function MapEventToKeyAction(table: seq<Binding>, event: Event): (r: (Option<string>, Option<KeyAction>))
    ensures r.0.None? <==> !event.Key?
    ensures event.Key? ==> r.0 == Some(KeyLabel(event.code, event.modifiers)) && r.1 == Get(table, r.0.value)
    ensures r.1.Some? ==> r.0.Some? && exists i :: 0 <= i < |table| && table[i] == Binding(r.0.value, r.1.value)
    ensures r.0.Some? && r.1.None? ==> forall i :: 0 <= i < |table| ==> table[i].key != r.0.value
  {
    match event
    case Key(code, modifiers) =>
      var key := KeyLabel(code, modifiers);
      (Some(key), Get(table, key))
    case _ => (None, None)
  }

  /** The character a chord continuation is looked up by: the typed character,
      or a space for any other key; modifiers are ignored. */
  function ChordKey(code: KeyCode): (c: char)
    ensures code.Char? ==> c == code.c
  {
    match code
    case Char(c) => c
    case Named(_) => ' '
  }

  /** `handle_insert_event`: any binding of the label is returned as it is (a chord
      table too); an unbound character key inserts that character, whatever the
      modifiers; anything else yields nothing. */
  function HandleInsertEvent(insert: seq<Binding>, event: Event): (r: Option<KeyAction>)
    ensures MapEventToKeyAction(insert, event).1.Some? ==> r == MapEventToKeyAction(insert, event).1
    ensures MapEventToKeyAction(insert, event).1.None? && event.Key? && event.code.Char? ==>
      r == Some(Simple(InsertChar(event.code.c)))
    ensures r.None? <==> MapEventToKeyAction(insert, event).1.None? && !(event.Key? && event.code.Char?)
  {
    var (_, action) := MapEventToKeyAction(insert, event);
    if action.Some? then action
    else if event.Key? && event.code.Char? then Some(Simple(InsertChar(event.code.c)))
    else None
  }

  /** `handle_command_event`: as in Insert mode, with the command line's table and
      `InsertCommand` for unbound characters. */
  function HandleCommandEvent(command: seq<Binding>, event: Event): (r: Option<KeyAction>)
    ensures MapEventToKeyAction(command, event).1.Some? ==> r == MapEventToKeyAction(command, event).1
    ensures MapEventToKeyAction(command, event).1.None? && event.Key? && event.code.Char? ==>
      r == Some(Simple(InsertCommand(event.code.c)))
    ensures r.None? <==> MapEventToKeyAction(command, event).1.None? && !(event.Key? && event.code.Char?)
  {
    var (_, action) := MapEventToKeyAction(command, event);
    if action.Some? then action
    else if event.Key? && event.code.Char? then Some(Simple(InsertCommand(event.code.c)))
    else None
  }

  /** `handle_search_event`: Search mode binds nothing. */
  function HandleSearchEvent(event: Event): (r: Option<KeyAction>)
    ensures r.None?
  {
    None
  }

  /** A label bound to a chord table in the Normal table. */
  predicate IsChordStart(normal: seq<Binding>, key: string)
  {
    Get(normal, key).Some? && Get(normal, key).value.Complex?
  }

  /** `handle_normal_event` as a step: the result and the new pending label.
      Single actions and lists are returned; a chord table is not returned but
      its label becomes pending; an unbound key yields nothing. */
  function NormalStep(normal: seq<Binding>, pending: Option<string>, event: Event): (r: (Option<KeyAction>, Option<string>))
    ensures r.0.Some? ==> !r.0.value.Complex? && r.1 == pending
    ensures r.1 != pending ==> r.0.None? && r.1.Some? && IsChordStart(normal, r.1.value)
    ensures r.0.Some? <==> MapEventToKeyAction(normal, event).1.Some? && !MapEventToKeyAction(normal, event).1.value.Complex?
    ensures var b := MapEventToKeyAction(normal, event).1;
      (b.None? ==> r == (None, pending)) &&
      (b.Some? && !b.value.Complex? ==> r == (b, pending)) &&
      (b.Some? && b.value.Complex? ==> r == (None, Some(KeyLabel(event.code, event.modifiers))))
  {
    var (key, action) := MapEventToKeyAction(normal, event);
    if action.Some? then
      if action.value.Complex? then (None, key) else (action, pending)
    else (None, pending)
  }

  /** Mode dispatch after the chord slot has been dealt with: a resize wins in every
      mode, then each mode's handler runs. */
  function DispatchStep(keys: Config.Keys, pending: Option<string>, event: Event, mode: Mode): (r: (Option<KeyAction>, Option<string>))
  {
    if event.Resize? then (Some(Simple(Action.Resize(event.cols, event.rows))), pending)
    else
      match mode
      case Normal => NormalStep(keys.normal, pending, event)
      case Insert => (HandleInsertEvent(keys.insert, event), pending)
      case Command => (HandleCommandEvent(keys.command, event), pending)
      case Search => (HandleSearchEvent(event), pending)
  }

  /** The continuation a key event selects from the pending chord, if any. */
  function ChordHit(normal: seq<Binding>, pending: Option<string>, event: Event): Option<KeyAction>
    requires pending.Some? ==> Get(normal, pending.value).Some?
  {
    if pending.Some? && event.Key? && Get(normal, pending.value).value.Complex? then
      Get(Get(normal, pending.value).value.bindings, [ChordKey(event.code)])
    else None
  }

  /** `poll` as a step: the result and the new pending label. A pending chord is
      completed by a key whose character is bound in its table; otherwise the slot
      is cleared and the event is dispatched as if no chord had been pending. The
      pending label, when there is one, always starts a chord in the Normal table. */
  function PollStep(keys: Config.Keys, pending: Option<string>, event: Event, mode: Mode): (r: (Option<KeyAction>, Option<string>))
    requires pending.Some? ==> Get(keys.normal, pending.value).Some?
    ensures r.1.Some? ==> IsChordStart(keys.normal, r.1.value)
    ensures ChordHit(keys.normal, pending, event).Some? ==> r == (ChordHit(keys.normal, pending, event), None)
    ensures event.Resize? ==> r == (Some(Simple(Action.Resize(event.cols, event.rows))), None)
  {
    var hit := ChordHit(keys.normal, pending, event);
    if hit.Some? then (hit, None)
    else DispatchStep(keys, None, event, mode)
  }

  /** A chord that misses does not swallow the key: the event is handled exactly as
      it would have been with nothing pending. */
  lemma ChordMissFallsThrough(keys: Config.Keys, p: string, event: Event, mode: Mode)
    requires Get(keys.normal, p).Some?
    requires ChordHit(keys.normal, Some(p), event).None?
    ensures PollStep(keys, Some(p), event, mode) == PollStep(keys, None, event, mode)
  {
  }

  /** A chord completes on the bare character: with `p` pending and bound to table
      `m`, a key whose character `c` is bound in `m` yields that binding and clears
      the slot, whatever the modifiers and the mode. */
  lemma ChordCompletes(keys: Config.Keys, p: string, m: seq<Binding>, c: char, modifiers: set<Modifier>, mode: Mode, a: KeyAction)
    requires Get(keys.normal, p) == Some(Complex(m))
    requires Get(m, [c]) == Some(a)
    ensures PollStep(keys, Some(p), Key(Char(c), modifiers), mode) == (Some(a), None)
  {
  }

  /** A key other than a character looks a pending chord up under " ". */
  lemma ChordNamedKeyIsSpace(keys: Config.Keys, p: string, m: seq<Binding>, name: string, modifiers: set<Modifier>)
    requires Get(keys.normal, p) == Some(Complex(m))
    ensures ChordHit(keys.normal, Some(p), Key(Named(name), modifiers)) == Get(m, " ")
  {
  }

  /** Search mode yields nothing except a resize or a completed chord. */
  lemma SearchYieldsNothing(keys: Config.Keys, pending: Option<string>, event: Event)
    requires pending.Some? ==> Get(keys.normal, pending.value).Some?
    requires !event.Resize? && ChordHit(keys.normal, pending, event).None?
    ensures PollStep(keys, pending, event, Search) == (None, None)
  {
  }

  /** In Insert mode an unbound character key inserts its character even when
      modifiers are held. */
  lemma InsertFallbackIgnoresModifiers(keys: Config.Keys, c: char, modifiers: set<Modifier>)
    requires Get(keys.insert, KeyLabel(Char(c), modifiers)).None?
    ensures PollStep(keys, None, Key(Char(c), modifiers), Insert) == (Some(Simple(InsertChar(c))), None)
  {
  }

  /** `d` then `d` with `d` bound to a chord table holding `d`: the first key
      only records the chord, the second returns the bound action. */
  lemma ChordExample(a: KeyAction)
    ensures var keys := Config.Keys([Binding("d", Complex([Binding("d", a)]))], [], []);
      PollStep(keys, None, Key(Char('d'), {}), Normal) == (None, Some("d")) &&
      PollStep(keys, Some("d"), Key(Char('d'), {}), Normal) == (Some(a), None)
  {
    var keys := Config.Keys([Binding("d", Complex([Binding("d", a)]))], [], []);
    assert KeyLabel(Char('d'), {}) == "d";
    assert [ChordKey(Char('d'))] == "d";
  }

  /** `TuiEventHandler`: the pending chord label and the configuration it reads. */
  class TuiEventHandler {
    var actionBeingComposed: Option<string>
    const config: Config.Config

    /** The pending label always starts a chord in the Normal table, so looking it
        up again cannot fail. */
    ghost predicate Valid()
      reads this
    {
      actionBeingComposed.Some? ==> IsChordStart(config.keys.normal, actionBeingComposed.value)
    }

    constructor(config: Config.Config)
      ensures Valid() && this.config == config && actionBeingComposed.None?
    {
      this.config := config;
      actionBeingComposed := None;
    }

    method HandleNormalEvent(event: Event) returns (r: Option<KeyAction>)
      requires Valid()
      modifies this
      ensures Valid()
      ensures (r, actionBeingComposed) == NormalStep(config.keys.normal, old(actionBeingComposed), event)
    {
      var (key, action) := MapEventToKeyAction(config.keys.normal, event);
      if action.Some? {
        match action.value {
          case Simple(_) => return action;
          case Multiple(_) => return action;
          case Complex(_) =>
            actionBeingComposed := key;
            return None;
        }
      }
      return None;
    }

    method Poll(event: Event, mode: Mode) returns (r: Option<KeyAction>)
      requires Valid()
      modifies this
      ensures Valid()
      ensures (r, actionBeingComposed) == PollStep(config.keys, old(actionBeingComposed), event, mode)
    {
      if actionBeingComposed.Some? {
        match event {
          case Key(code, _) =>
            var action := Get(config.keys.normal, actionBeingComposed.value).value;
            var key := match code { case Char(c) => c case Named(_) => ' ' };
            match action {
              case Complex(complex) =>
                var hit := Get(complex, [key]);
                if hit.Some? {
                  actionBeingComposed := None;
                  return hit;
                }
                actionBeingComposed := None;
              case _ =>
                // The source clears the slot here; Valid() rules this case out.
                assert false;
            }
          case _ =>
            actionBeingComposed := None;
        }
      }

      if event.Resize? {
        return Some(Simple(Action.Resize(event.cols, event.rows)));
      }

      match mode {
        case Normal => r := HandleNormalEvent(event);
        case Insert => r := HandleInsertEvent(config.keys.insert, event);
        case Command => r := HandleCommandEvent(config.keys.command, event);
        case Search => r := HandleSearchEvent(event);
      }
    }
  }
}

=== FILE: gutter.dfy ===
/** The line-number gutters: per visible row, the label drawn to the left of the
    text (absolute numbers, distances from the cursor line, or nothing). */
module Gutter {
  import opened Text
  import Config

  /** The three `Gutter` implementations; `offset` is the gutter width. */
  datatype Gutter =
    | AbsoluteLineGutter(emptyLineChar: char, offset: nat)
    | RelativeLineGutter(emptyLineChar: char, offset: nat, lineNumbers: Config.LineNumbers)
    | NoopLineGutter

  /** A numbered label: the number right-aligned in `offset - 1` columns, then one
      space. Rust's `offset - 1 - len` must not underflow. */
  function NumberLabel(offset: nat, n: nat): (s: string)
    requires |Decimal(n)| < offset
    ensures |s| == offset
  {
    Spaces(offset - 1 - |Decimal(n)|) + Decimal(n) + " "
  }

  /** A numbered label is blank up to the digits of `n`, which end just before
      the final space; the digits read back as `n`. */
  lemma NumberLabelLayout(offset: nat, n: nat)
    requires |Decimal(n)| < offset
    ensures var s := NumberLabel(offset, n); var pad := offset - 1 - |Decimal(n)|;
      s[offset - 1] == ' ' &&
      (forall k :: 0 <= k < pad ==> s[k] == ' ') &&
      s[pad .. offset - 1] == Decimal(n) &&
      AllDigits(s[pad .. offset - 1]) && DecimalValue(s[pad .. offset - 1]) == n
  {
    var s := NumberLabel(offset, n);
    var pad := offset - 1 - |Decimal(n)|;
    assert s[pad .. offset - 1] == Decimal(n);
    DecimalRoundTrip(n);
  }

  /** The label of a row past the end of the buffer: `empty_line_char` in the
      column before the trailing space, blanks before it. */
  function FillerLabel(offset: nat, emptyLineChar: char): (s: string)
    requires offset >= 2
    ensures |s| == offset && s[offset - 2] == emptyLineChar && s[offset - 1] == ' '
    ensures forall k :: 0 <= k < offset - 2 ==> s[k] == ' '
  {
    Spaces(offset - 2) + [emptyLineChar, ' ']
  }

  /** Absolute numbering does not underflow: the largest number shown fits in
      `offset - 1` columns, and filler rows have room for their character. */
  predicate AbsoluteFits(offset: nat, totalLines: nat, scroll: nat, height: nat)
  {
    (Min(height, totalLines) == 0 || |Decimal(scroll + Min(height, totalLines))| < offset) &&
    (totalLines < height ==> offset >= 2)
  }

  /** The numbered rows of the absolute gutter: `scroll + 1, scroll + 2, ...`, one
      per row up to `min(height, total_lines)`. */
  function AbsoluteNumberedRows(offset: nat, totalLines: nat, scroll: nat, height: nat): (ls: seq<string>)
    requires AbsoluteFits(offset, totalLines, scroll, height)
    ensures |ls| == Min(height, totalLines)
  {
    seq(Min(height, totalLines), i requires 0 <= i < Min(height, totalLines) =>
      DecimalLengthMonotone(scroll + i + 1, scroll + Min(height, totalLines));
      NumberLabel(offset, scroll + i + 1))
  }

  /** Numbered row `k` of the absolute gutter shows `scroll + k + 1`, which fits. */
  lemma NumberedRowAt(offset: nat, totalLines: nat, scroll: nat, height: nat, k: nat)
    requires AbsoluteFits(offset, totalLines, scroll, height) && k < Min(height, totalLines)
    ensures |Decimal(scroll + k + 1)| < offset
    ensures AbsoluteNumberedRows(offset, totalLines, scroll, height)[k] == NumberLabel(offset, scroll + k + 1)
  {
    DecimalLengthMonotone(scroll + k + 1, scroll + Min(height, totalLines));
  }

  /** `count` filler labels. */
  function FillerRows(offset: nat, emptyLineChar: char, count: nat): (ls: seq<string>)
    requires count > 0 ==> offset >= 2
    ensures |ls| == count
  {
    seq(count, _ requires offset >= 2 => FillerLabel(offset, emptyLineChar))
  }

  /** The labels of `AbsoluteLineGutter::get_lines`: exactly `height` rows, the first
      `min(height, total_lines)` numbered, the rest filler. */
  function AbsoluteLabels(offset: nat, emptyLineChar: char, totalLines: nat, scroll: nat, height: nat): (ls: seq<string>)
    requires AbsoluteFits(offset, totalLines, scroll, height)
    ensures |ls| == height
  {
    AbsoluteNumberedRows(offset, totalLines, scroll, height)
    + FillerRows(offset, emptyLineChar, height - Min(height, totalLines))
  }

  /** Row `i` of the absolute gutter is `offset` wide and shows the number
      `scroll + i + 1` when `i < total_lines`, whatever `scroll` is (so numbers past
      the end of the buffer can appear), and the filler label otherwise. */
  lemma AbsoluteRowShows(offset: nat, emptyLineChar: char, totalLines: nat, scroll: nat, height: nat, i: nat)
    requires AbsoluteFits(offset, totalLines, scroll, height) && i < height
    ensures var l := AbsoluteLabels(offset, emptyLineChar, totalLines, scroll, height)[i];
      |l| == offset &&
      if i < totalLines then
        |Decimal(scroll + i + 1)| < offset && l == NumberLabel(offset, scroll + i + 1)
      else
        l == FillerLabel(offset, emptyLineChar)
  {
    var m := Min(height, totalLines);
    if i < totalLines {
      NumberedRowAt(offset, totalLines, scroll, height, i);
      assert AbsoluteLabels(offset, emptyLineChar, totalLines, scroll, height)[i]
          == AbsoluteNumberedRows(offset, totalLines, scroll, height)[i];
    } else {
      assert AbsoluteLabels(offset, emptyLineChar, totalLines, scroll, height)[i]
          == FillerRows(offset, emptyLineChar, height - m)[i - m];
    }
  }

  /** `AbsoluteLineGutter::get_lines`; the current line is accepted and ignored. */
  method AbsoluteGetLines(emptyLineChar: char, offset: nat, totalLines: nat, currentLine: nat, scroll: nat, height: nat)
    returns (lines: seq<string>)
    requires AbsoluteFits(offset, totalLines, scroll, height)
    ensures lines == AbsoluteLabels(offset, emptyLineChar, totalLines, scroll, height)
  {
    var total := Min(height, totalLines);
    var row := scroll;
    lines := [];
    for k := 0 to total
      invariant row == scroll + k
      invariant |lines| == k
      invariant forall j :: 0 <= j < k ==> lines[j] == AbsoluteNumberedRows(offset, totalLines, scroll, height)[j]
    {
      row := row + 1;
      NumberedRowAt(offset, totalLines, scroll, height, k);
      var text := Decimal(row);
      assert ByteLen(text) == |Decimal(row)| by {
        DecimalAscii(row);
        AsciiByteLen(text);
      }
      text := Spaces(offset - 1 - ByteLen(text)) + text;
      text := text + [' '];
      assert text == NumberLabel(offset, row);
      lines := lines + [text];
    }
    ghost var numbered := lines;
    assert numbered == AbsoluteNumberedRows(offset, totalLines, scroll, height);
    if total < height {
      for k := total to height
        invariant |lines| == k
        invariant lines[..total] == numbered
        invariant forall j :: total <= j < k ==> lines[j] == FillerLabel(offset, emptyLineChar)
      {
        var text := Spaces(offset - 2);
        text := text + [emptyLineChar];
        text := text + [' '];
        lines := lines + [text];
      }
      assert lines == numbered + FillerRows(offset, emptyLineChar, height - total);
    } else {
      assert lines == numbered + FillerRows(offset, emptyLineChar, 0);
    }
  }

  /** The number shown on row `i` of the relative gutter: the distance of line
      `scroll + i + 1` from the cursor line `line + 1`, except that in
      RelativeNumbered mode the cursor line shows its own number. */
  function RelativeNumber(lineNumbers: Config.LineNumbers, line: nat, scroll: nat, i: nat): (n: nat)
    ensures scroll + i + 1 != line + 1 ==> n == AbsDiff(scroll + i + 1, line + 1)
  {
    if lineNumbers == Config.RelativeNumbered && scroll + i + 1 == line + 1 then scroll + i + 1
    else AbsDiff(scroll + i + 1, line + 1)
  }

  /** Relative numbering does not underflow. */
  predicate RelativeFits(offset: nat, lineNumbers: Config.LineNumbers, totalLines: nat, line: nat, scroll: nat, height: nat)
  {
    (forall i :: 0 <= i < Min(height, totalLines) ==> |Decimal(RelativeNumber(lineNumbers, line, scroll, i))| < offset) &&
    (totalLines < height ==> offset >= 2)
  }

  /** The numbered rows of the relative gutter, one per visible buffer line. */
  function RelativeNumberedRows(offset: nat, lineNumbers: Config.LineNumbers,
                                totalLines: nat, line: nat, scroll: nat, height: nat): (ls: seq<string>)
    requires RelativeFits(offset, lineNumbers, totalLines, line, scroll, height)
    ensures |ls| == Min(height, totalLines)
  {
    seq(Min(height, totalLines), i requires 0 <= i < Min(height, totalLines) =>
      NumberLabel(offset, RelativeNumber(lineNumbers, line, scroll, i)))
  }

  /** Numbered row `k` of the relative gutter is the label `get_lines` builds
      for it: the relative number, padded to `offset - 1` columns, then a space. */
  lemma RelativeRowAt(offset: nat, lineNumbers: Config.LineNumbers,
                      totalLines: nat, line: nat, scroll: nat, height: nat, k: nat, text: string)
    requires RelativeFits(offset, lineNumbers, totalLines, line, scroll, height) && k < Min(height, totalLines)
    requires text == Decimal(RelativeNumber(lineNumbers, line, scroll, k))
    ensures ByteLen(text) < offset
    ensures RelativeNumberedRows(offset, lineNumbers, totalLines, line, scroll, height)[k]
      == Spaces(offset - 1 - ByteLen(text)) + text + [' ']
  {
    DecimalAscii(RelativeNumber(lineNumbers, line, scroll, k));
    AsciiByteLen(text);
  }


  /** The labels of `RelativeLineGutter::get_lines`: `min(height, total_lines)`
      numbered rows followed by a single filler row when the buffer is shorter than
      the area; the result is not padded to `height`. */
  function RelativeLabels(offset: nat, emptyLineChar: char, lineNumbers: Config.LineNumbers,
                          totalLines: nat, line: nat, scroll: nat, height: nat): (ls: seq<string>)
    requires RelativeFits(offset, lineNumbers, totalLines, line, scroll, height)
    ensures |ls| == Min(height, totalLines) + (if totalLines < height then 1 else 0)
    ensures totalLines < height ==> ls[|ls| - 1] == FillerLabel(offset, emptyLineChar)
  {
    RelativeNumberedRows(offset, lineNumbers, totalLines, line, scroll, height)
    + (if totalLines < height then [FillerLabel(offset, emptyLineChar)] else [])
  }

  /** The first loop of `RelativeLineGutter::get_lines`: one padded label per
      visible buffer line, numbered relative to the cursor line. */
  method RelativeNumberLines(offset: nat, lineNumbers: Config.LineNumbers,
                             totalLines: nat, line: nat, scroll: nat, height: nat)
    returns (lines: seq<string>)
    requires RelativeFits(offset, lineNumbers, totalLines, line, scroll, height)
    ensures lines == RelativeNumberedRows(offset, lineNumbers, totalLines, line, scroll, height)
  {
    var total := Min(height, totalLines);
    var normalizedLine := line + 1;
    var scrollRow := scroll;
    lines := [];
    ghost var rows := RelativeNumberedRows(offset, lineNumbers, totalLines, line, scroll, height);
    for k := 0 to total
      invariant scrollRow == scroll + k
      invariant |lines| == k
      invariant forall j :: 0 <= j < k ==> lines[j] == rows[j]
    {
      scrollRow := scrollRow + 1;
      var text := Decimal(AbsDiff(scrollRow, normalizedLine));
      if lineNumbers == Config.RelativeNumbered {
        if normalizedLine == scrollRow {
          text := Decimal(scrollRow);
        }
      }
      RelativeRowAt(offset, lineNumbers, totalLines, line, scroll, height, k, text);
      text := Spaces(offset - 1 - ByteLen(text)) + text;
      text := text + [' '];
      lines := lines + [text];
    }
  }

  /** `RelativeLineGutter::get_lines`: the numbered rows, then a single filler
      row when the file is shorter than the gutter. */
  method RelativeGetLines(emptyLineChar: char, offset: nat, lineNumbers: Config.LineNumbers,
                          totalLines: nat, line: nat, scroll: nat, height: nat)
    returns (lines: seq<string>)
    requires RelativeFits(offset, lineNumbers, totalLines, line, scroll, height)
    ensures lines == RelativeLabels(offset, emptyLineChar, lineNumbers, totalLines, line, scroll, height)
  {
    var total := Min(height, totalLines);
    lines := RelativeNumberLines(offset, lineNumbers, totalLines, line, scroll, height);
    if total < height {
      var filler := Spaces(offset - 2);
      filler := filler + [emptyLineChar];
      filler := filler + [' '];
      assert filler == FillerLabel(offset, emptyLineChar);
      lines := lines + [filler];
    }
  }


  /** Every relative label is `offset` characters wide and ends in a space. */
  lemma RelativeLabelWidth(offset: nat, emptyLineChar: char, lineNumbers: Config.LineNumbers,
                           totalLines: nat, line: nat, scroll: nat, height: nat, i: nat)
    requires RelativeFits(offset, lineNumbers, totalLines, line, scroll, height)
    requires i < |RelativeLabels(offset, emptyLineChar, lineNumbers, totalLines, line, scroll, height)|
    ensures var l := RelativeLabels(offset, emptyLineChar, lineNumbers, totalLines, line, scroll, height)[i];
      |l| == offset > 0 && l[offset - 1] == ' '
  {
    if i < Min(height, totalLines) {
      NumberLabelLayout(offset, RelativeNumber(lineNumbers, line, scroll, i));
    }
  }

  /** In Relative mode the cursor's row is labelled 0, and every other row its
      distance from the cursor line. */
  lemma RelativeCursorRowShowsZero(line: nat, scroll: nat, i: nat)
    ensures RelativeNumber(Config.Relative, line, scroll, i) == 0 <==> scroll + i == line
  {
  }

  /** In RelativeNumbered mode the cursor's row shows its own line number
      `line + 1`; every other row shows its distance. */
  lemma RelativeNumberedCursorRow(line: nat, scroll: nat, i: nat)
    ensures scroll + i == line ==> RelativeNumber(Config.RelativeNumbered, line, scroll, i) == line + 1
    ensures scroll + i != line ==> RelativeNumber(Config.RelativeNumbered, line, scroll, i) == AbsDiff(scroll + i + 1, line + 1)
  {
  }

  /** Any `line_numbers` other than RelativeNumbered labels rows as Relative does. */
  lemma OtherModesAsRelative(offset: nat, emptyLineChar: char, lineNumbers: Config.LineNumbers,
                             totalLines: nat, line: nat, scroll: nat, height: nat)
    requires lineNumbers != Config.RelativeNumbered
    requires RelativeFits(offset, lineNumbers, totalLines, line, scroll, height)
    ensures RelativeFits(offset, Config.Relative, totalLines, line, scroll, height)
    ensures RelativeLabels(offset, emptyLineChar, lineNumbers, totalLines, line, scroll, height)
         == RelativeLabels(offset, emptyLineChar, Config.Relative, totalLines, line, scroll, height)
  {
    assert forall i :: RelativeNumber(lineNumbers, line, scroll, i) == RelativeNumber(Config.Relative, line, scroll, i);
  }

  /** Unlike the absolute gutter, the relative gutter leaves rows unlabelled when
      the buffer ends more than one row before the bottom of the area. */
  lemma RelativeShortOfHeight(offset: nat, emptyLineChar: char, lineNumbers: Config.LineNumbers,
                              totalLines: nat, line: nat, scroll: nat, height: nat)
    requires RelativeFits(offset, lineNumbers, totalLines, line, scroll, height)
    requires totalLines + 1 < height
    ensures |RelativeLabels(offset, emptyLineChar, lineNumbers, totalLines, line, scroll, height)| == totalLines + 1 < height
  {
  }

  /** A zero-height area gets no labels from either gutter. */
  lemma ZeroHeightNoLabels(offset: nat, emptyLineChar: char, lineNumbers: Config.LineNumbers,
                           totalLines: nat, line: nat, scroll: nat)
    ensures AbsoluteFits(offset, totalLines, scroll, 0) && RelativeFits(offset, lineNumbers, totalLines, line, scroll, 0)
    ensures AbsoluteLabels(offset, emptyLineChar, totalLines, scroll, 0) == []
    ensures RelativeLabels(offset, emptyLineChar, lineNumbers, totalLines, line, scroll, 0) == []
  {
  }

  /** `NoopLineGutter::get_lines`: no labels, whatever the arguments. */
  function NoopGetLines(totalLines: nat, line: nat, scroll: nat, height: nat): (lines: seq<string>)
    ensures |lines| == 0
  {
    []
  }

  /** Whether `get_lines` completes for this gutter and these arguments. */
  predicate Fits(g: Gutter, totalLines: nat, line: nat, scroll: nat, height: nat)
  {
    match g
    case AbsoluteLineGutter(_, offset) => AbsoluteFits(offset, totalLines, scroll, height)
    case RelativeLineGutter(_, offset, ln) => RelativeFits(offset, ln, totalLines, line, scroll, height)
    case NoopLineGutter => true
  }

  /** The labels a gutter produces. */
  function Lines(g: Gutter, totalLines: nat, line: nat, scroll: nat, height: nat): (ls: seq<string>)
    requires Fits(g, totalLines, line, scroll, height)
    ensures g.AbsoluteLineGutter? ==> |ls| == height
    ensures g.RelativeLineGutter? ==> |ls| <= height
    ensures g.NoopLineGutter? ==> ls == []
  {
    match g
    case AbsoluteLineGutter(c, offset) => AbsoluteLabels(offset, c, totalLines, scroll, height)
    case RelativeLineGutter(c, offset, ln) => RelativeLabels(offset, c, ln, totalLines, line, scroll, height)
    case NoopLineGutter => NoopGetLines(totalLines, line, scroll, height)
  }

  /** Dynamic dispatch of `Gutter::get_lines`. */
  method GetLines(g: Gutter, totalLines: nat, line: nat, scroll: nat, height: nat) returns (lines: seq<string>)
    requires Fits(g, totalLines, line, scroll, height)
    ensures lines == Lines(g, totalLines, line, scroll, height)
  {
    match g
    case AbsoluteLineGutter(c, offset) =>
      lines := AbsoluteGetLines(c, offset, totalLines, line, scroll, height);
    case RelativeLineGutter(c, offset, ln) =>
      lines := RelativeGetLines(c, offset, ln, totalLines, line, scroll, height);
    case NoopLineGutter =>
      lines := NoopGetLines(totalLines, line, scroll, height);
  }
}

=== FILE: legacy_editor.dfy ===
/** The editor of the original single-crate front end (`Editor`). Its dispatch
    loop is a copy of the terminal front end's. */
module LegacyEditor {
  import opened EditorTypes
  import opened Dispatch

  class Editor {
    var mode: Mode
    var size: Size
    var windowArea: Rect
    var effects: seq<Effect>

    function State(): EditorState
      reads this
    {
      EditorState(mode, size, windowArea, effects)
    }

    /** `new`: Normal mode, the terminal's size, and a window two rows shorter
        than the terminal (room for the status and command lines). */
    constructor(cols: u16, rows: u16)
      requires rows >= 2
      ensures mode == Normal && size == SizeFrom(cols, rows) && effects == []
      ensures windowArea == WindowArea(size)
    {
      var terminalSize := SizeFrom(cols, rows);
      mode := Normal;
      size := terminalSize;
      var windowSize := RectFromSize(terminalSize);
      windowSize := windowSize.(height := windowSize.height - 2);
      windowArea := windowSize;
      effects := [];
    }

    /** One iteration of `handle_action`'s loop: a window action is forwarded
        with the current mode; otherwise the action's own case runs. */
    method ApplyAction(a: Action)
      requires ResizeFits(a)
      modifies this
      ensures State() == Step(old(State()), a)
    {
      if IsWindowAction(a) {
        effects := effects + [WindowAction(a, mode)];
      } else {
        match a {
          case EnterMode(Insert) => mode := Insert;
          case EnterMode(Normal) => mode := Normal;
          case EnterMode(Command) => mode := Command;
          case Hover => effects := effects + [HoverRequest];
          case Resize(cols, rows) =>
            size := SizeFrom(cols, rows);
            windowArea := Rect(0, 0, size.height - 2, size.width);
          case _ =>
        }
      }
    }

    /** `handle_action`: flatten, then run each action in order. */
    method HandleAction(action: KeyAction)
      requires AllResizesFit(Flatten(action))
      modifies this
      ensures State() == ApplyBatch(old(State()), Flatten(action))
    {
      var actions := FlattenActions([], action);
      assert actions == Flatten(action);
      for i := 0 to |actions|
        invariant AllResizesFit(actions[..i])
        invariant State() == ApplyBatch(old(State()), actions[..i])
      {
        ApplyBatchPrefix(old(State()), actions, i);
        ApplyAction(actions[i]);
      }
      assert actions[..|actions|] == actions;
    }

    /** One event delivered by the loop in `start`: a top-level `Simple(Quit)`
        ends the session; any other result is handled; nothing polled, nothing done. */
    method OnPolled(polled: Option<KeyAction>) returns (quit: bool)
      requires polled.Some? ==> AllResizesFit(Flatten(polled.value))
      modifies this
      ensures quit == LoopQuits(polled)
      ensures quit || polled.None? ==> State() == old(State())
      ensures !quit && polled.Some? ==> State() == ApplyBatch(old(State()), Flatten(polled.value))
    {
      quit := false;
      if polled.Some? {
        match polled.value {
          case Simple(Quit) =>
            quit := true;
          case _ =>
            HandleAction(polled.value);
        }
      }
    }
  }
}

=== FILE: legacy_window.dfy ===
/** The older editor's window: a buffer layer and a popup layer, a hover popup
    built from a language server's reply, the same line-join fix-up and
    highlighting as the newer window, and a render that scrolls before it draws. */
module LegacyWindow {
  import opened Text
  import opened EditorTypes
  import Config
  import V = Viewport
  import S = Scrollable
  import W = Window

  /** A JSON value as the language server sends it; an object is its list of
      (key, value) members. */
  datatype Json =
    | Null
    | Bool(b: bool)
    | Number(n: int)
    | String(s: string)
    | Array(items: seq<Json>)
    | Object(members: seq<(string, Json)>)

  /** A message read from the language server: a response carrying a `result`,
      or anything else. */
  datatype Incoming = Message(result: Json) | OtherIncoming

  /** The value of member `key` of an object. */
  function Member(members: seq<(string, Json)>, key: string): (r: Option<Json>)
    ensures r.Some? ==> exists i :: 0 <= i < |members| && members[i] == (key, r.value)
    ensures r.None? ==> forall i :: 0 <= i < |members| ==> members[i].0 != key
  {
    if members == [] then None
    else if members[0].0 == key then Some(members[0].1)
    else
      var rest := Member(members[1..], key);
      assert forall i :: 1 <= i < |members| ==> members[i] == members[1..][i - 1];
      rest
  }

  const HoverMethod: string := "textDocument/hover"

  /** What the hover handler needs so as not to panic: an array result has a
      first element and that element is an object. */
  predicate HoverDecodable(message: Incoming, methodName: Option<string>)
  {
    methodName == Some(HoverMethod) && message.Message? && message.result.Array? ==>
      |message.result.items| > 0 && message.result.items[0].Object?
  }

  /** The object the hover handler reads `contents` from: element 0 of an array
      result, an object result itself, nothing for any other result. */
  function ResultObject(result: Json): (r: Option<seq<(string, Json)>>)
    requires result.Array? ==> |result.items| > 0 && result.items[0].Object?
    ensures r.Some? <==> result.Array? || result.Object?
    ensures result.Array? ==> r == Some(result.items[0].members)
    ensures result.Object? ==> r == Some(result.members)
  {
    match result
    case Array(items) => Some(items[0].members)
    case Object(members) => Some(members)
    case _ => None
  }

  /** The text of the popup `handle_lsp_message` creates, if it creates one:
      only for a hover reply whose object has a `contents` object whose
      `value` is a string. */
  function HoverContent(message: Incoming, methodName: Option<string>): (r: Option<string>)
    requires HoverDecodable(message, methodName)
    ensures r.Some? ==> methodName == Some(HoverMethod) && message.Message?
    ensures r.Some? ==> (ResultObject(message.result).Some? &&
      Member(ResultObject(message.result).value, "contents").Some? &&
      Member(ResultObject(message.result).value, "contents").value.Object? &&
      Member(Member(ResultObject(message.result).value, "contents").value.members, "value") == Some(String(r.value)))
  {
    if methodName != Some(HoverMethod) || !message.Message? then None
    else match ResultObject(message.result)
      case None => None
      case Some(obj) =>
        match Member(obj, "contents")
        case Some(Object(contents)) =>
          (match Member(contents, "value")
           case Some(String(value)) => Some(value)
           case _ => None)
        case _ => None
  }

  /** Conversely, every hover reply whose result object has a `contents`
      object with a string `value` yields a popup showing that string. */
  lemma HoverContentComplete(message: Incoming, methodName: Option<string>)
    requires HoverDecodable(message, methodName)
    requires methodName == Some(HoverMethod) && message.Message? && ResultObject(message.result).Some?
    ensures var contents := Member(ResultObject(message.result).value, "contents");
      contents.Some? && contents.value.Object? ==>
        var value := Member(contents.value.members, "value");
        value.Some? && value.value.String? ==> HoverContent(message, methodName) == Some(value.value.s)
  {
  }

  /** A reply `{"contents": {"value": v}}` to a hover request yields a popup
      showing `v`, whether it comes alone or first in an array. */
  lemma HoverReadsValue(v: string, rest: seq<Json>)
    ensures HoverContent(Message(Object([("contents", Object([("value", String(v))]))])), Some(HoverMethod)) == Some(v)
    ensures HoverContent(Message(Array([Object([("contents", Object([("value", String(v))]))])] + rest)), Some(HoverMethod)) == Some(v)
  {
  }

  /** An array reply is read through its first element only. */
  lemma HoverArrayUsesFirst(first: seq<(string, Json)>, rest: seq<Json>, methodName: Option<string>)
    ensures HoverContent(Message(Array([Object(first)] + rest)), methodName) == HoverContent(Message(Object(first)), methodName)
  {
  }

  /** Replies to other methods, other messages, results that are neither an
      array nor an object, and `value`s that are not strings create no popup. */
  lemma HoverIgnored(message: Incoming, methodName: Option<string>, contents: seq<(string, Json)>, value: Json)
    requires HoverDecodable(message, methodName)
    requires !value.String?
    ensures methodName != Some(HoverMethod) ==> HoverContent(message, methodName) == None
    ensures !message.Message? ==> HoverContent(message, methodName) == None
    ensures message.Message? && !message.result.Array? && !message.result.Object? ==> HoverContent(message, methodName) == None
    ensures HoverContent(Message(Object([("contents", Object([("value", value)]))])), methodName) == None
  {
  }

  /** The gutters the older window chooses between. */
  datatype GutterKind = AbsoluteGutter | RelativeGutter | NoopGutter

  /** Gutter selection in `Window::new`: both relative settings share one
      drawer. */
  function SelectGutter(lineNumbers: Config.LineNumbers): (g: GutterKind)
    ensures g == AbsoluteGutter <==> lineNumbers == Config.Absolute
    ensures g == RelativeGutter <==> lineNumbers == Config.Relative || lineNumbers == Config.RelativeNumbered
    ensures g == NoopGutter <==> lineNumbers == Config.None
  {
    match lineNumbers
    case Absolute => AbsoluteGutter
    case Relative => RelativeGutter
    case RelativeNumbered => RelativeGutter
    case None => NoopGutter
  }

  /** A hover popup anchored at a screen cell. */
  datatype Popup = Popup(col: nat, row: nat, content: string)

  class LegacyWindow {
    const id: nat
    var cursor: Cursor
    var buffer: Buffer
    var size: Rect
    /** The buffer view's scroll position. */
    var scroll: Position
    /** `layers[0]`, the buffer layer, and `layers[1]`, the popup layer. */
    var bufferLayer: V.Viewport
    var popupLayer: V.Viewport
    var popup: Option<Popup>
    const gutter: GutterKind
    const config: Config.Config
    const theme: Config.Theme
    /** The highlighter: the tokens of a piece of text. */
    const colorize: string -> seq<Token>
    /** The drawing done by collaborators outside this model: the gutter drawing
        its labels (from the line count, the cursor row and the scroll row), the
        buffer view drawing cells at a scroll position, a popup rendering itself. */
    const drawSidebar: (GutterKind, V.Viewport, nat, nat, nat) -> V.Viewport
    const drawCells: (V.Viewport, seq<Cell>, Position) -> V.Viewport
    const renderPopup: Popup -> V.Viewport

    /** `Window::new`: the gutter chosen from the configuration, two blank
        layers of the window's size, no popup. */
    constructor(id: nat, buffer: Buffer, theme: Config.Theme, config: Config.Config, size: Rect,
                colorize: string -> seq<Token>, drawSidebar: (GutterKind, V.Viewport, nat, nat, nat) -> V.Viewport,
                drawCells: (V.Viewport, seq<Cell>, Position) -> V.Viewport, renderPopup: Popup -> V.Viewport)
      ensures this.id == id && this.buffer == buffer && this.theme == theme && this.config == config && this.size == size
      ensures this.colorize == colorize && this.drawSidebar == drawSidebar && this.drawCells == drawCells
      ensures this.renderPopup == renderPopup
      ensures gutter == SelectGutter(config.lineNumbers)
      ensures bufferLayer == V.New(size.width, size.height) && popupLayer == V.New(size.width, size.height)
      ensures popup == None && cursor == Cursor(0, 0, 0) && scroll == PositionDefault()
    {
      this.id := id;
      this.buffer := buffer;
      this.theme := theme;
      this.config := config;
      this.size := size;
      this.colorize := colorize;
      this.drawSidebar := drawSidebar;
      this.drawCells := drawCells;
      this.renderPopup := renderPopup;
      gutter := SelectGutter(config.lineNumbers);
      bufferLayer := V.New(size.width, size.height);
      popupLayer := V.New(size.width, size.height);
      popup := None;
      cursor := Cursor(0, 0, 0);
      scroll := PositionDefault();
    }

    /** The buffer layer a render produces for a window of size `size` showing
        `buffer` with the cursor on `cursorRow` at scroll position `scroll`: a
        blank grid, the gutter, then the highlighted slice of the buffer. */
    function BufferFrame(size: Rect, buffer: Buffer, cursorRow: nat, scroll: Position): V.Viewport
    {
      var slice := buffer.contentFrom(scroll.row, size.height);
      var sidebar := drawSidebar(gutter, V.New(size.width, size.height), buffer.lineCount, cursorRow, scroll.row);
      drawCells(sidebar, W.Highlighted(slice, colorize(slice), theme.style), scroll)
    }

    /** `render_buffer`: scrolls to the cursor first, so the gutter and the
        content are drawn at the new scroll position, and keeps the new grid
        as the buffer layer. */
    method RenderBuffer()
      modifies this`scroll, this`bufferLayer
      ensures scroll == S.NextScroll(cursor, size.width, size.height, old(scroll))
      ensures bufferLayer == BufferFrame(size, buffer, cursor.row, scroll)
    {
      scroll := S.NextScroll(cursor, size.width, size.height, scroll);
      var viewport := V.New(size.width, size.height);
      viewport := drawSidebar(gutter, viewport, buffer.lineCount, cursor.row, scroll.row);
      var text := buffer.contentFrom(scroll.row, size.height);
      var cells := W.HighlightText(text, colorize(text), theme.style);
      viewport := drawCells(viewport, cells, scroll);
      bufferLayer := viewport;
    }

    /** The popup layer of `render`, drawn only when there is a popup. */
    method RenderPopup()
      modifies this`popupLayer
      ensures popupLayer == (if popup.Some? then renderPopup(popup.value) else old(popupLayer))
    {
      if popup.Some? {
        popupLayer := renderPopup(popup.value);
      }
    }

    /** What `render` needs of the cursor position: the column sum fits `u16`. */
    predicate CursorFits(c: Cursor, mode: Mode, s: Position, b: Buffer)
    {
      S.ScreenFits(mode, b.getByLine(c.row + 1), c, s, config.gutterWidth)
    }

    /** `render`: the buffer layer and the popup layer when there is a popup,
        then the terminal cursor at the new scroll position. The two layers are
        separate fields and the popup does not depend on the scroll, so they are
        drawn popup first here; the final state is the same in either order. */
    method Render(mode: Mode) returns (cursorAt: (nat, nat))
      requires CursorFits(cursor, mode, S.NextScroll(cursor, size.width, size.height, scroll), buffer)
      modifies this`scroll, this`bufferLayer, this`popupLayer
      ensures scroll == S.NextScroll(cursor, size.width, size.height, old(scroll))
      ensures bufferLayer == BufferFrame(size, buffer, cursor.row, scroll)
      ensures popupLayer == (if popup.Some? then renderPopup(popup.value) else old(popupLayer))
      ensures CursorFits(cursor, mode, scroll, buffer)
      ensures cursorAt == S.CursorScreenPosition(mode, buffer.getByLine(cursor.row + 1), cursor, scroll, config.gutterWidth)
    {
      RenderPopup();
      RenderBuffer();
      cursorAt := S.CursorScreenPosition(mode, buffer.getByLine(cursor.row + 1), cursor, scroll, config.gutterWidth);
    }

    /** `resize`: the window and its view take the new size, then re-render. */
    method Resize(newSize: Rect, mode: Mode) returns (cursorAt: (nat, nat))
      requires CursorFits(cursor, mode, S.NextScroll(cursor, newSize.width, newSize.height, scroll), buffer)
      modifies this`size, this`scroll, this`bufferLayer, this`popupLayer
      ensures size == newSize
      ensures scroll == S.NextScroll(cursor, newSize.width, newSize.height, old(scroll))
      ensures bufferLayer == BufferFrame(size, buffer, cursor.row, scroll)
      ensures popupLayer == (if popup.Some? then renderPopup(popup.value) else old(popupLayer))
      ensures CursorFits(cursor, mode, scroll, buffer)
      ensures cursorAt == S.CursorScreenPosition(mode, buffer.getByLine(cursor.row + 1), cursor, scroll, config.gutterWidth)
    {
      size := newSize;
      cursorAt := Render(mode);
    }

    /** The first part of `handle_action`: the popup is dismissed, the buffer
        applies the edit and the cursor logic moves the cursor (`edited` and
        `moved`, outside this model), then a backspace that joined a line onto
        the one above puts the cursor at the end of the mark it was on. The
        mark at the cursor must exist (`unwrap`). */
    method ApplyEdit(action: Action, edited: Buffer, moved: Cursor)
      requires buffer.getByCursor(cursor.absolutePosition).Some?
      modifies this`popup, this`cursor, this`buffer
      ensures popup == None && buffer == edited
      ensures cursor == W.FixUp(action, old(cursor.col), old(cursor.row),
                                old(buffer.getByCursor(cursor.absolutePosition)).value, moved)
    {
      var col := cursor.col;
      var row := cursor.row;
      var mark := buffer.getByCursor(cursor.absolutePosition).value;
      var c := moved;
      if action == DeletePreviousChar {
        if col == 0 && row >= 1 {
          c := c.(col := Sat(mark.size, 1), absolutePosition := mark.start + Sat(mark.size, 1));
        }
      }
      popup, buffer, cursor := None, edited, c;
    }

    /** `handle_action`: the popup is dismissed, the buffer applies the edit and
        the cursor logic moves the cursor (`edited` and `moved`, outside this
        model), the line-join fix-up is applied and the window re-renders. The
        mark at the cursor must exist (`unwrap`). */
    method HandleAction(action: Action, mode: Mode, edited: Buffer, moved: Cursor) returns (cursorAt: (nat, nat))
      requires buffer.getByCursor(cursor.absolutePosition).Some?
      requires var c := W.FixUp(action, cursor.col, cursor.row, buffer.getByCursor(cursor.absolutePosition).value, moved);
        CursorFits(c, mode, S.NextScroll(c, size.width, size.height, scroll), edited)
      modifies this`popup, this`cursor, this`buffer, this`scroll, this`bufferLayer, this`popupLayer
      ensures popup == None && popupLayer == old(popupLayer)
      ensures buffer == edited
      ensures cursor == W.FixUp(action, old(cursor.col), old(cursor.row),
                                old(buffer.getByCursor(cursor.absolutePosition)).value, moved)
      ensures scroll == S.NextScroll(cursor, size.width, size.height, old(scroll))
      ensures bufferLayer == BufferFrame(size, buffer, cursor.row, scroll)
      ensures CursorFits(cursor, mode, scroll, buffer)
      ensures cursorAt == S.CursorScreenPosition(mode, buffer.getByLine(cursor.row + 1), cursor, scroll, config.gutterWidth)
    {
      ApplyEdit(action, edited, moved);
      cursorAt := Render(mode);
    }

    /** The popup `create_popup` makes for `content`: anchored at the cursor's
        cell relative to the scroll position, right of the gutter. */
    function PopupAt(content: string): (p: Popup)
      reads this
      requires cursor.col >= scroll.col && cursor.row >= scroll.row
      ensures p.content == content
      ensures p.col == config.gutterWidth + (cursor.col - scroll.col) && p.row + scroll.row == cursor.row
    {
      Popup(cursor.col - scroll.col + config.gutterWidth, cursor.row - scroll.row, content)
    }

    /** `create_popup`: the popup is anchored at the cursor's cell relative to
        the scroll position before the render, right of the gutter; the
        subtractions are not saturating, so the cursor must not be left of or
        above the scroll origin. */
    method CreatePopup(content: string, mode: Mode) returns (cursorAt: (nat, nat))
      requires cursor.col >= scroll.col && cursor.row >= scroll.row
      requires CursorFits(cursor, mode, S.NextScroll(cursor, size.width, size.height, scroll), buffer)
      modifies this`popup, this`scroll, this`bufferLayer, this`popupLayer
      ensures popup == Some(old(PopupAt(content)))
      ensures popupLayer == renderPopup(popup.value)
      ensures scroll == S.NextScroll(cursor, size.width, size.height, old(scroll))
      ensures bufferLayer == BufferFrame(size, buffer, cursor.row, scroll)
      ensures CursorFits(cursor, mode, scroll, buffer)
      ensures cursorAt == S.CursorScreenPosition(mode, buffer.getByLine(cursor.row + 1), cursor, scroll, config.gutterWidth)
    {
      popup := Some(PopupAt(content));
      cursorAt := Render(mode);
    }

    /** `handle_lsp_message`: a popup for a hover reply that carries a string
        value, nothing at all otherwise. */
    method HandleLspMessage(message: Incoming, methodName: Option<string>, mode: Mode) returns (cursorAt: Option<(nat, nat)>)
      requires HoverDecodable(message, methodName)
      requires HoverContent(message, methodName).Some? ==>
        cursor.col >= scroll.col && cursor.row >= scroll.row &&
        CursorFits(cursor, mode, S.NextScroll(cursor, size.width, size.height, scroll), buffer)
      modifies this`popup, this`scroll, this`bufferLayer, this`popupLayer
      ensures cursorAt.Some? <==> HoverContent(message, methodName).Some?
      ensures HoverContent(message, methodName).None? ==>
        popup == old(popup) && scroll == old(scroll) && bufferLayer == old(bufferLayer) && popupLayer == old(popupLayer)
      ensures HoverContent(message, methodName).Some? ==>
        popup == Some(old(PopupAt(HoverContent(message, methodName).value)))
      ensures HoverContent(message, methodName).Some? ==>
        popupLayer == renderPopup(popup.value) &&
        scroll == S.NextScroll(cursor, size.width, size.height, old(scroll)) &&
        bufferLayer == BufferFrame(size, buffer, cursor.row, scroll)
      ensures cursorAt.Some? ==>
        CursorFits(cursor, mode, scroll, buffer) &&
        cursorAt.value == S.CursorScreenPosition(mode, buffer.getByLine(cursor.row + 1), cursor, scroll, config.gutterWidth)
    {
      var content := HoverContent(message, methodName);
      if content.Some? {
        var at := CreatePopup(content.value, mode);
        cursorAt := Some(at);
      } else {
        cursorAt := None;
      }
    }
  }
}

=== FILE: line_drawer.dfy ===
/** The legacy pane's absolute line drawer: for each row of the pane, either the
    line number shown there, right-aligned against the sidebar's right edge, or
    the empty-line marker once the file has run out. */
module LineDrawer {
  import opened EditorTypes
  import opened Text
  import opened PaneTypes

  /** A string printed at (col, row); numbered labels are dark grey, the
      empty-line marker carries no colour. */
  datatype LabelWrite = LabelWrite(col: nat, row: nat, text: string, color: Option<Color>)

  /** What `draw_lines` needs to stay within `u16` arithmetic: the sidebar edge,
      every incremented line number and the last (longest) label fit, and the
      filler column `col + sidebar_width - 1` does not underflow. */
  predicate DrawFits(dims: PaneDimensions, config: PaneConfig, totalLines: u16, scrollRow: u16)
  {
    var n := Min(dims.height, totalLines);
    dims.col + config.sidebarWidth < 0x1_0000 &&
    scrollRow + n < 0x1_0000 &&
    (n > 0 ==> |Decimal(scrollRow + n)| <= dims.col + config.sidebarWidth) &&
    (n < dims.height ==> dims.col + config.sidebarWidth >= 1)
  }

  /** The write for pane row `i`. */
  function RowWrite(dims: PaneDimensions, config: PaneConfig, totalLines: u16, scrollRow: u16, i: nat): (w: LabelWrite)
    requires DrawFits(dims, config, totalLines, scrollRow) && i < dims.height
    ensures w.row == i
    ensures i < Min(dims.height, totalLines) ==>
      AllDigits(w.text) && DecimalValue(w.text) == scrollRow + i + 1 &&
      w.col + |w.text| == dims.col + config.sidebarWidth && w.color == Some(DarkGrey)
    ensures i >= Min(dims.height, totalLines) ==>
      w.text == [config.emptyLineChar] && w.col + 1 == dims.col + config.sidebarWidth && w.color == None
  {
    var edge := dims.col + config.sidebarWidth;
    if i < Min(dims.height, totalLines) then
      var digits := Decimal(scrollRow + i + 1);
      DecimalRoundTrip(scrollRow + i + 1);
      DecimalLengthMonotone(scrollRow + i + 1, scrollRow + Min(dims.height, totalLines));
      LabelWrite(edge - |digits|, i, digits, Some(DarkGrey))
    else
      LabelWrite(edge - 1, i, [config.emptyLineChar], None)
  }

  /** `AbsoluteLineDrawer::draw_lines`: the numbered rows, then the filler rows.
      The current line is accepted and ignored. */
  method DrawLines(dims: PaneDimensions, config: PaneConfig, totalLines: u16, currentLine: u16, scrollRow: u16)
    returns (writes: seq<LabelWrite>)
    requires DrawFits(dims, config, totalLines, scrollRow)
    ensures |writes| == dims.height
    ensures forall i :: 0 <= i < dims.height ==> writes[i] == RowWrite(dims, config, totalLines, scrollRow, i)
  {
    var n := Min(dims.height, totalLines);
    var scroll: nat := scrollRow;
    writes := [];
    for i := 0 to n
      invariant scroll == scrollRow + i
      invariant |writes| == i
      invariant forall k :: 0 <= k < i ==> writes[k] == RowWrite(dims, config, totalLines, scrollRow, k)
    {
      scroll := scroll + 1;
      var line := Decimal(scroll);
      DecimalLengthMonotone(scroll, scrollRow + n);
      var offset := dims.col + config.sidebarWidth - |line|;
      writes := writes + [LabelWrite(offset, i, line, Some(DarkGrey))];
    }
    if n < dims.height {
      for i := n to dims.height
        invariant |writes| == i
        invariant forall k :: 0 <= k < i ==> writes[k] == RowWrite(dims, config, totalLines, scrollRow, k)
      {
        var offset := dims.col + config.sidebarWidth - 1;
        writes := writes + [LabelWrite(offset, i, [config.emptyLineChar], None)];
      }
    }
  }

  /** Each row of the pane receives exactly one write, numbered rows first, and
      filler rows appear exactly when the file is shorter than the pane. */
  lemma OneWritePerRow(dims: PaneDimensions, config: PaneConfig, totalLines: u16, scrollRow: u16, i: nat, j: nat)
    requires DrawFits(dims, config, totalLines, scrollRow) && i < dims.height && j < dims.height
    ensures RowWrite(dims, config, totalLines, scrollRow, i).row == RowWrite(dims, config, totalLines, scrollRow, j).row <==> i == j
    ensures RowWrite(dims, config, totalLines, scrollRow, i).color.None? <==> totalLines <= i
  {
  }
}

=== FILE: pane.dfy ===
/** The legacy pane: a scroll offset moved one row at a time as the cursor
    leaves the visible rows, the buffer's text drawn after the sidebar one glyph
    at a time, and the cursor placed on its (clamped) column. */
module Pane {
  import opened EditorTypes
  import opened Text
  import opened PaneTypes

  /** A colour for the characters whose index lies in `start..end`. */
  datatype Span = Span(start: nat, end: nat, color: Color)

  /** One glyph printed at (x, y) in its colour. */
  datatype GlyphWrite = GlyphWrite(x: nat, y: nat, c: char, color: Color)

  predicate InSpan(s: Span, p: nat)
  {
    s.start <= p < s.end
  }

  /** The colour of character `p`: the first span containing it decides. */
  function ColorAt(spans: seq<Span>, p: nat): Color
  {
    if spans == [] then White
    else if InSpan(spans[0], p) then spans[0].color
    else ColorAt(spans[1..], p)
  }

  /** A character takes the colour of the first span containing it. */
  lemma {:induction false} ColorAtFirst(spans: seq<Span>, p: nat, i: nat)
    requires i < |spans| && InSpan(spans[i], p)
    requires forall j :: 0 <= j < i ==> !InSpan(spans[j], p)
    ensures ColorAt(spans, p) == spans[i].color
    decreases i
  {
    if i > 0 {
      assert !InSpan(spans[0], p);
      assert forall j :: 0 <= j < i - 1 ==> spans[1..][j] == spans[j + 1];
      ColorAtFirst(spans[1..], p, i - 1);
    }
  }

  /** A character no span contains is white. */
  lemma {:induction false} ColorAtNone(spans: seq<Span>, p: nat)
    requires forall i :: 0 <= i < |spans| ==> !InSpan(spans[i], p)
    ensures ColorAt(spans, p) == White
    decreases |spans|
  {
    if spans != [] {
      assert !InSpan(spans[0], p);
      assert forall i :: 0 <= i < |spans| - 1 ==> spans[1..][i] == spans[i + 1];
      ColorAtNone(spans[1..], p);
    }
  }

  /** How many newlines `s` holds: the row the next character goes to. */
  function Breaks(s: string): nat
  {
    if s == [] then 0 else Breaks(s[..|s| - 1]) + (if s[|s| - 1] == '\n' then 1 else 0)
  }

  /** How many characters follow the last newline of `s`: the column the next
      character goes to, counted from the text's left edge. */
  function Column(s: string): nat
  {
    if s == [] then 0 else if s[|s| - 1] == '\n' then 0 else Column(s[..|s| - 1]) + 1
  }

  lemma {:induction false} BreaksMonotone(s: string, i: nat, j: nat)
    requires i <= j <= |s|
    ensures Breaks(s[..i]) <= Breaks(s[..j])
    decreases j - i
  {
    if i < j {
      assert s[..j][..j - 1] == s[..j - 1];
      BreaksMonotone(s, i, j - 1);
    }
  }

  /** Reading one more character: a newline moves to the start of the next
      row, anything else one column right. */
  lemma Advance(lines: string, p: nat)
    requires p < |lines|
    ensures Breaks(lines[..p + 1]) == Breaks(lines[..p]) + (if lines[p] == '\n' then 1 else 0)
    ensures Column(lines[..p + 1]) == (if lines[p] == '\n' then 0 else Column(lines[..p]) + 1)
  {
    assert lines[..p + 1][..p] == lines[..p];
  }

  /** The glyphs `draw_buffer` prints for the first `k` characters of `lines`:
      character `p` is printed when it is not a newline, no more than `height`
      newlines precede it and its column is left of `width`. */
  function Glyphs(lines: string, k: nat, offset: nat, width: nat, height: nat, spans: seq<Span>): seq<GlyphWrite>
    requires k <= |lines|
  {
    if k == 0 then []
    else
      var p := k - 1;
      var before := lines[..p];
      Glyphs(lines, p, offset, width, height, spans) +
        (if lines[p] != '\n' && Breaks(before) <= height && offset + Column(before) < width
         then [GlyphWrite(offset + Column(before), Breaks(before), lines[p], ColorAt(spans, p))]
         else [])
  }

  /** One more character: the glyphs so far, and this character's glyph when it is printed. */
  lemma GlyphsNext(lines: string, p: nat, offset: nat, width: nat, height: nat, spans: seq<Span>)
    requires p < |lines|
    ensures Glyphs(lines, p + 1, offset, width, height, spans) == Glyphs(lines, p, offset, width, height, spans) +
      (if lines[p] != '\n' && Breaks(lines[..p]) <= height && offset + Column(lines[..p]) < width
       then [GlyphWrite(offset + Column(lines[..p]), Breaks(lines[..p]), lines[p], ColorAt(spans, p))]
       else [])
  {
  }

  /** Once more than `height` newlines have gone by nothing more is printed. */
  lemma {:induction false} GlyphsStopped(lines: string, k: nat, k': nat, offset: nat, width: nat, height: nat, spans: seq<Span>)
    requires k <= k' <= |lines| && Breaks(lines[..k]) > height
    ensures Glyphs(lines, k', offset, width, height, spans) == Glyphs(lines, k, offset, width, height, spans)
    decreases k' - k
  {
    if k < k' {
      BreaksMonotone(lines, k, k' - 1);
      GlyphsStopped(lines, k, k' - 1, offset, width, height, spans);
    }
  }

  /** Every glyph lands right of the sidebar and left of the pane's width, on
      one of the rows `0..=height`, and no newline is printed. */
  lemma {:induction false} GlyphsInArea(lines: string, k: nat, offset: nat, width: nat, height: nat, spans: seq<Span>)
    requires k <= |lines|
    ensures forall w <- Glyphs(lines, k, offset, width, height, spans) ::
      offset <= w.x < width && w.y <= height && w.c != '\n'
    decreases k
  {
    if k > 0 {
      GlyphsInArea(lines, k - 1, offset, width, height, spans);
    }
  }

  /** Every printable character before the stop whose column fits is printed,
      at its column and row, in its colour. */
  lemma {:induction false} GlyphPrinted(lines: string, k: nat, offset: nat, width: nat, height: nat, spans: seq<Span>, p: nat)
    requires p < k <= |lines|
    requires lines[p] != '\n' && Breaks(lines[..p]) <= height && offset + Column(lines[..p]) < width
    ensures GlyphWrite(offset + Column(lines[..p]), Breaks(lines[..p]), lines[p], ColorAt(spans, p))
      in Glyphs(lines, k, offset, width, height, spans)
    decreases k
  {
    if p < k - 1 {
      GlyphPrinted(lines, k - 1, offset, width, height, spans, p);
    }
  }

  /** The loop stops only once the row count passes `height`, so a pane of
      height 1 still receives a glyph on row 1, below its last row. */
  lemma BottomRowOverrun()
    ensures GlyphWrite(0, 1, 'b', White) in Glyphs("a\nb", 3, 0, 1, 1, [])
  {
    var lines := "a\nb";
    assert lines[..2] == "a\n" && lines[..2][..1] == "a" && lines[..2][..1][..0] == [];
    assert Breaks("a") == 0;
    assert Breaks(lines[..2]) == 1 && Column(lines[..2]) == 0;
    GlyphPrinted(lines, 3, 0, 1, 1, [], 2);
  }

  /** What `draw_buffer` needs to stay within `u16` arithmetic: the start
      column fits, and neither `x += 1` nor `y += 1` is ever taken from 65535
      before the loop stops. */
  predicate BufferFits(lines: string, offset: nat, height: nat)
  {
    offset < 0x1_0000 && forall p :: 0 <= p < |lines| ==> StepFits(lines, p, offset, height)
  }

  /** The step at character `p`, if the loop reaches it, stays within `u16`. */
  predicate StepFits(lines: string, p: nat, offset: nat, height: nat)
    requires p < |lines|
  {
    Breaks(lines[..p]) <= height ==>
      if lines[p] == '\n' then Breaks(lines[..p]) < 0xFFFF else offset + Column(lines[..p]) < 0xFFFF
  }

  /** The cursor commands the pane reacts to; the others only move the cursor. */
  datatype CursorCommand = MoveUp | MoveDown | MoveLeft | MoveRight | OtherCursorCommand

  /** The drawing steps a command triggers, in order. */
  datatype Redraw = ClearedBuffer | DrewBuffer | DrewSidebar | DrewCursor

  /** Whether a command scrolls the pane by one row: up when the cursor's
      readable row is at or above the first visible row, down when the cursor's
      row is `height` or more rows below it. */
  predicate ScrollsUp(command: CursorCommand, readableRow: nat, scrollRow: nat)
  {
    command.MoveUp? && Sat(readableRow, scrollRow) == 0
  }

  predicate ScrollsDown(command: CursorCommand, cursorRow: nat, scrollRow: nat, height: nat)
  {
    command.MoveDown? && Sat(cursorRow, scrollRow) >= height
  }

  /** The redraws of `handle_cursor_command`, in order: the buffer is cleared
      and redrawn when the pane scrolls, the sidebar after any of the four
      moves, and the cursor last. */
  function RedrawSteps(command: CursorCommand, scrolls: bool): seq<Redraw>
  {
    (if scrolls then [ClearedBuffer, DrewBuffer] else [])
    + (if command.OtherCursorCommand? then [] else [DrewSidebar])
    + [DrewCursor]
  }

  /** The first visible row after a command. */
  function NextScrollRow(command: CursorCommand, cursorRow: nat, readableRow: nat, scrollRow: nat, height: nat): (r: nat)
    ensures ScrollsUp(command, readableRow, scrollRow) ==> r == Sat(scrollRow, 1)
    ensures ScrollsDown(command, cursorRow, scrollRow, height) ==> r == scrollRow + 1
    ensures !ScrollsUp(command, readableRow, scrollRow) && !ScrollsDown(command, cursorRow, scrollRow, height) ==> r == scrollRow
  {
    if ScrollsUp(command, readableRow, scrollRow) then Sat(scrollRow, 1)
    else if ScrollsDown(command, cursorRow, scrollRow, height) then scrollRow + 1
    else scrollRow
  }

  /** A cursor that was on a visible row and moves down by at most one row is
      on a visible row again once the pane has scrolled. */
  lemma MoveDownKeepsCursorVisible(row: nat, movedRow: nat, scrollRow: nat, height: nat)
    requires height >= 1 && scrollRow <= row < scrollRow + height
    requires row <= movedRow <= row + 1
    ensures var s := NextScrollRow(CursorCommand.MoveDown, movedRow, 0, scrollRow, height);
      s <= movedRow < s + height && s <= scrollRow + 1
  {
  }

  /** A cursor that moves up past the first visible row brings the pane up one
      row with it, except at the top of the file. */
  lemma MoveUpFollowsCursor(movedRow: nat, scrollRow: nat, height: nat)
    requires movedRow + 1 == scrollRow
    ensures NextScrollRow(CursorCommand.MoveUp, movedRow, movedRow + 1, scrollRow, height) == movedRow
  {
  }

  class Pane {
    const id: u16
    var cursor: Cursor
    /** The first visible row and column of the buffer. */
    var scroll: Position
    const dimensions: PaneDimensions
    const config: PaneConfig

    /** `Pane::new`: no scroll; the cursor is the cursor module's initial one. */
    constructor(id: u16, dimensions: PaneDimensions, config: PaneConfig, initial: Cursor)
      ensures this.id == id && this.dimensions == dimensions && this.config == config
      ensures cursor == initial && scroll == PositionDefault()
    {
      this.id := id;
      this.dimensions := dimensions;
      this.config := config;
      cursor := initial;
      scroll := PositionDefault();
    }

    /** The column the text starts at: after the sidebar and the gap. */
    function TextOffset(): nat
      reads this
    {
      dimensions.col + config.sidebarWidth + config.sidebarGap
    }

    /** `handle_cursor_command`: the cursor moves first (`moved`, with
        `readableRow` its readable row), then the pane scrolls by at most one
        row and redraws. */
    method HandleCursorCommand(command: CursorCommand, moved: Cursor, readableRow: nat) returns (steps: seq<Redraw>)
      requires ScrollsDown(command, moved.row, scroll.row, dimensions.height) ==> scroll.row + 1 < 0x1_0000
      modifies this`cursor, this`scroll
      ensures cursor == moved
      ensures scroll.col == old(scroll.col)
      ensures scroll.row == NextScrollRow(command, moved.row, readableRow, old(scroll.row), dimensions.height)
      ensures steps == RedrawSteps(command, ScrollsUp(command, readableRow, old(scroll.row))
                                     || ScrollsDown(command, moved.row, old(scroll.row), dimensions.height))
      ensures |steps| >= 1 && steps[|steps| - 1] == DrewCursor
      ensures ClearedBuffer in steps <==>
        ScrollsUp(command, readableRow, old(scroll.row)) || ScrollsDown(command, moved.row, old(scroll.row), dimensions.height)
      ensures scroll != old(scroll) ==> steps[..2] == [ClearedBuffer, DrewBuffer]
      ensures DrewSidebar in steps <==> !command.OtherCursorCommand?
    {
      cursor := moved;
      steps := [];
      match command {
        case MoveUp =>
          if Sat(readableRow, scroll.row) == 0 {
            scroll := scroll.(row := Sat(scroll.row, 1));
            steps := steps + [ClearedBuffer, DrewBuffer];
          }
          steps := steps + [DrewSidebar];
        case MoveDown =>
          if Sat(cursor.row, scroll.row) >= dimensions.height {
            scroll := scroll.(row := scroll.row + 1);
            steps := steps + [ClearedBuffer, DrewBuffer];
          }
          steps := steps + [DrewSidebar];
        case MoveLeft =>
          steps := steps + [DrewSidebar];
        case MoveRight =>
          steps := steps + [DrewSidebar];
        case OtherCursorCommand =>
      }
      steps := steps + [DrewCursor];
    }

    /** `draw_cursor`: where the terminal cursor goes, if line `cursor.row + 1`
        has a mark; the column is clamped to the mark's last character and
        never exceeds the cursor's own column. */
    function CursorTarget(buffer: Buffer): (at: Option<Position>)
      reads this
      requires config.sidebarWidth + config.sidebarGap < 0x1_0000
      requires buffer.getByLine(cursor.row + 1).Some? ==>
        config.sidebarWidth + config.sidebarGap + Min(cursor.col, Trunc16(Sat(buffer.getByLine(cursor.row + 1).value.size, 1))) < 0x1_0000
      ensures at.Some? <==> buffer.getByLine(cursor.row + 1).Some?
      ensures at.Some? ==> at.value.row == Sat(cursor.row, scroll.row)
      ensures at.Some? ==> at.value.col <= config.sidebarWidth + config.sidebarGap + cursor.col
      ensures at.Some? ==> var last := Sat(buffer.getByLine(cursor.row + 1).value.size, 1);
        last < 0x1_0000 ==> (at.value.col <= config.sidebarWidth + config.sidebarGap + last &&
          (cursor.col <= last ==> at.value.col == config.sidebarWidth + config.sidebarGap + cursor.col) &&
          (cursor.col > last ==> at.value.col == config.sidebarWidth + config.sidebarGap + last))
    {
      match buffer.getByLine(cursor.row + 1)
      case None => None
      case Some(mark) =>
        var col := config.sidebarWidth + config.sidebarGap;
        var last := Trunc16(Sat(mark.size, 1));
        Some(Position(Sat(cursor.row, scroll.row), if cursor.col > last then col + last else col + cursor.col))
    }

    /** `draw_buffer`: the visible lines, one glyph per printable character,
        `x` advancing for every character whether printed or not, `y` for
        every newline, stopping once `y` passes `height`. */
    method DrawBuffer(buffer: Buffer, colors: string -> seq<Span>) returns (writes: seq<GlyphWrite>)
      requires BufferFits(buffer.contentFrom(scroll.row, dimensions.height), TextOffset(), dimensions.height)
      ensures writes == Glyphs(buffer.contentFrom(scroll.row, dimensions.height), |buffer.contentFrom(scroll.row, dimensions.height)|,
        TextOffset(), dimensions.width, dimensions.height, colors(buffer.contentFrom(scroll.row, dimensions.height)))
    {
      var height := dimensions.height;
      var offset := TextOffset();
      var lines := buffer.contentFrom(scroll.row, height);
      var spans := colors(lines);
      var x, y := offset, 0;
      writes := [];
      for p := 0 to |lines|
        invariant x == offset + Column(lines[..p]) && y == Breaks(lines[..p]) && y <= height
        invariant writes == Glyphs(lines, p, offset, dimensions.width, height, spans)
      {
        Advance(lines, p);
        GlyphsNext(lines, p, offset, dimensions.width, height, spans);
        assert StepFits(lines, p, offset, height);
        var c := lines[p];
        if c == '\n' {
          x := offset;
          y := y + 1;
          if y > height {
            GlyphsStopped(lines, p + 1, |lines|, offset, dimensions.width, height, spans);
            assert lines[..|lines|] == lines;
            return;
          }
          continue;
        }
        if x < dimensions.width {
          writes := writes + [GlyphWrite(x, y, c, ColorAt(spans, p))];
        }
        x := x + 1;
      }
      assert lines[..|lines|] == lines;
    }
  }
}

=== FILE: pane_types.dfy ===
/** The values the legacy pane and its line drawer share: the pane's rectangle
    and the settings it reads from its configuration. */
module PaneTypes {
  import opened EditorTypes

  /** Where the pane sits on the terminal and how large it is, in cells. */
  datatype PaneDimensions = PaneDimensions(row: u16, col: u16, height: u16, width: u16)

  /** `PaneDimensions::from((width, height))`: the pane starts at the origin and
      takes the pair in (width, height) order. */
  function DimensionsFrom(width: u16, height: u16): (d: PaneDimensions)
    ensures d.row == 0 && d.col == 0
    ensures d.width == width && d.height == height
  {
    PaneDimensions(0, 0, height, width)
  }

  /** The configuration fields the pane reads: the sidebar's width, the gap
      between sidebar and text, and the marker for rows past the end of file. */
  datatype PaneConfig = PaneConfig(sidebarWidth: u16, sidebarGap: u16, emptyLineChar: char)
}

=== FILE: scrollable.dfy ===
/** The scroll policy shared by every scrollable view (`Scrollable::maybe_scroll`)
    and the placement of the terminal cursor (`Scrollable::draw_cursor`). */
module Scrollable {
  import opened Text
  import opened EditorTypes

  /** The cursor lies on a visible row other than the last one of an area of
      `height` rows scrolled to `scrollRow`. Only then does `maybe_scroll` look at
      the columns. */
  predicate AboveLastRow(row: nat, height: nat, scrollRow: nat)
  {
    scrollRow <= row && row + 1 < scrollRow + height
  }

  predicate Visible(cursor: Cursor, width: nat, height: nat, scroll: Position)
  {
    scroll.row <= cursor.row < scroll.row + height && scroll.col <= cursor.col < scroll.col + width
  }

  /** The ranked four-rule match of `maybe_scroll`: scroll down, up, right, left,
      first match wins. Only the width and height of the area are read. */
  function NextScroll(cursor: Cursor, width: nat, height: nat, scroll: Position): (r: Position)
    ensures r.row == scroll.row || r.col == scroll.col
    ensures height > 0 ==> r.row <= cursor.row < r.row + height
    ensures height == 0 ==> r.row == cursor.row + 1
    ensures r.row != scroll.row ==> r.row == cursor.row || r.row + height == cursor.row + 1
    ensures !AboveLastRow(cursor.row, height, scroll.row) ==> r.col == scroll.col
    ensures AboveLastRow(cursor.row, height, scroll.row) ==>
      r.row == scroll.row &&
      (width > 0 ==> r.col <= cursor.col < r.col + width) &&
      (width == 0 ==> r.col == cursor.col + 1)
    ensures r.col != scroll.col ==> r.col == cursor.col || r.col + width == cursor.col + 1
    ensures Visible(cursor, width, height, scroll) ==> r == scroll
  {
    var x, y := cursor.col, cursor.row;
    if Sat(y + 1, scroll.row) >= height then scroll.(row := y + 1 - height)
    else if Sat(y + 1, scroll.row) == 0 then scroll.(row := scroll.row - (scroll.row - y))
    else if Sat(x, scroll.col) >= width then scroll.(col := x + 1 - width)
    else if Sat(x + 1, scroll.col) == 0 then scroll.(col := scroll.col - (scroll.col - x))
    else scroll
  }

  /** A cursor on the last visible row matches the scroll-down rule, which then
      changes nothing: the columns are not corrected even when the cursor is
      outside them. */
  lemma LastRowBlocksHorizontal(cursor: Cursor, width: nat, height: nat, scroll: Position)
    requires height > 0 && cursor.row == scroll.row + height - 1
    ensures NextScroll(cursor, width, height, scroll) == scroll
  {
  }

  /** `maybe_scroll` applied `n` times with the same cursor. */
  function Repeat(cursor: Cursor, width: nat, height: nat, scroll: Position, n: nat): Position
    decreases n
  {
    if n == 0 then scroll else Repeat(cursor, width, height, NextScroll(cursor, width, height, scroll), n - 1)
  }

  /** Repeating the call never helps a cursor on the last visible row. */
  lemma {:induction false} StuckOnLastRow(cursor: Cursor, width: nat, height: nat, scroll: Position, n: nat)
    requires height > 0 && cursor.row == scroll.row + height - 1
    ensures Repeat(cursor, width, height, scroll, n) == scroll
  {
    if n > 0 {
      LastRowBlocksHorizontal(cursor, width, height, scroll);
      StuckOnLastRow(cursor, width, height, scroll, n - 1);
    }
  }

  /** After scrolling down the cursor sits on the last visible row, so however often
      the call is repeated its column is never brought into view. */
  lemma ScrollDownThenStuck(cursor: Cursor, width: nat, height: nat, scroll: Position, n: nat)
    requires height > 0 && cursor.row + 1 >= scroll.row + height
    ensures var r := NextScroll(cursor, width, height, scroll);
      r.col == scroll.col && Repeat(cursor, width, height, r, n) == r
  {
    StuckOnLastRow(cursor, width, height, NextScroll(cursor, width, height, scroll), n);
  }

  /** A concrete instance: a cursor at line 10, column 100 of a 80x5 area
      scrolled to the origin scrolls down to row 6 and stays out of view. */
  lemma NoConvergenceExample(n: nat)
    ensures NextScroll(Cursor(10, 100, 0), 80, 5, Position(0, 0)) == Position(6, 0)
    ensures Repeat(Cursor(10, 100, 0), 80, 5, Position(6, 0), n) == Position(6, 0)
    ensures !Visible(Cursor(10, 100, 0), 80, 5, Position(6, 0))
  {
    StuckOnLastRow(Cursor(10, 100, 0), 80, 5, Position(6, 0), n);
  }

  /** When the first call leaves the cursor above the last visible row, a second
      call brings it fully into view. */
  lemma SecondCallShowsCursor(cursor: Cursor, width: nat, height: nat, scroll: Position)
    requires width > 0 && height > 0
    requires AboveLastRow(cursor.row, height, NextScroll(cursor, width, height, scroll).row)
    ensures Visible(cursor, width, height,
      NextScroll(cursor, width, height, NextScroll(cursor, width, height, scroll)))
  {
  }

  /** The column the terminal cursor is drawn at (`draw_cursor`): clamped to the
      line's length, one character shorter in Normal mode; 0 when the marker has
      no line `row + 1`. */
  function CursorColumn(mode: Mode, mark: Option<Mark>, col: nat): (c: nat)
    ensures c <= col
    ensures mark.None? ==> c == 0
    ensures mark.Some? ==> c <= Sat(mark.value.size, if mode == Normal then 2 else 1)
    ensures mark.Some? && col <= Sat(mark.value.size, if mode == Normal then 2 else 1) ==> c == col
    ensures mark.Some? && col > Sat(mark.value.size, if mode == Normal then 2 else 1) ==>
      c == Sat(mark.value.size, if mode == Normal then 2 else 1)
  {
    match mark
    case None => 0
    case Some(m) =>
      if mode == Normal then Min(col, Sat(m.size, 2)) else Min(col, Sat(m.size, 1))
  }

  /** `draw_cursor` adds the gutter offset to the relative column in `u16`;
      the addition must not overflow. */
  predicate ScreenFits(mode: Mode, mark: Option<Mark>, cursor: Cursor, scroll: Position, offset: nat)
  {
    Trunc16(Sat(CursorColumn(mode, mark, cursor.col), scroll.col)) + Trunc16(offset) < 0x1_0000
  }

  /** The screen position of `draw_cursor`'s `MoveTo`: each coordinate relative
      to the scroll origin, saturating at 0, truncated to `u16`, the column moved
      right by the gutter offset. The `u16` addition must not overflow. */
  function CursorScreenPosition(mode: Mode, mark: Option<Mark>, cursor: Cursor, scroll: Position, offset: nat): (p: (nat, nat))
    requires ScreenFits(mode, mark, cursor, scroll, offset)
    ensures p.0 < 0x1_0000 && p.1 < 0x1_0000
    ensures cursor.col < 0x1_0000 && offset < 0x1_0000 ==> offset <= p.0 <= Sat(cursor.col, scroll.col) + offset
    ensures cursor.col < 0x1_0000 && offset < 0x1_0000 ==> p.0 == Sat(CursorColumn(mode, mark, cursor.col), scroll.col) + offset
    ensures cursor.row < 0x1_0000 ==> p.1 == Sat(cursor.row, scroll.row)
  {
    (Trunc16(Sat(CursorColumn(mode, mark, cursor.col), scroll.col)) + Trunc16(offset),
     Trunc16(Sat(cursor.row, scroll.row)))
  }
}

=== FILE: statusline.dfy ===
/** The status line of the terminal front end (`TuiStatusline`): one row showing
    the mode, the file name, the position in the file and the cursor position,
    redrawn in full on every update. */
module Statusline {
  import opened Text
  import opened EditorTypes
  import Config
  import V = Viewport

  /** What the editor reports to the status line. The number of lines is the
      marker's length; the file name is the buffer's. */
  datatype Update = Update(mode: Mode, cursorPos: Position, lineCount: nat, fileName: string)

  /** `"{row}:{col} "`. */
  function CursorSegment(row: nat, col: nat): (s: string)
    ensures IsAscii(s) && |s| >= 4 && s[|s| - 1] == ' '
  {
    DecimalAscii(row);
    DecimalAscii(col);
    Decimal(row) + ":" + Decimal(col) + " "
  }

  /** The cursor segment reads back as the row, a colon, the column and a space. */
  lemma CursorSegmentReadsBack(row: nat, col: nat)
    ensures var s := CursorSegment(row, col); var k := |Decimal(row)|;
      s[k] == ':' && AllDigits(s[..k]) && DecimalValue(s[..k]) == row &&
      AllDigits(s[k + 1 .. |s| - 1]) && DecimalValue(s[k + 1 .. |s| - 1]) == col
  {
    var s := CursorSegment(row, col);
    var k := |Decimal(row)|;
    assert s[..k] == Decimal(row);
    assert s[k + 1 .. |s| - 1] == Decimal(col);
    DecimalRoundTrip(row);
    DecimalRoundTrip(col);
  }

  /** The position in the file: `"TOP "` on the first line (even when it is also
      the last), `"BOT "` on the last line, otherwise the percentage followed by
      `"% "`. The percentage itself is computed in floating point by the caller's
      side and is given here as `percent`. */
  function PercentSegment(row: nat, lines: nat, percent: nat): (s: string)
    ensures IsAscii(s) && |s| >= 3 && s[|s| - 1] == ' '
    ensures row == 1 ==> s == "TOP "
    ensures row != 1 && row == lines ==> s == "BOT "
    ensures row != 1 && row != lines ==>
      s[|s| - 2] == '%' && AllDigits(s[..|s| - 2]) && DecimalValue(s[..|s| - 2]) == percent
  {
    if row == 1 then "TOP "
    else if row == lines then "BOT "
    else
      DecimalAscii(percent);
      DecimalRoundTrip(percent);
      assert (Decimal(percent) + "% ")[..|Decimal(percent)|] == Decimal(percent);
      Decimal(percent) + "% "
  }

  /** `" "` and the file name's last `/`-separated component. */
  function FileSegment(name: string): (s: string)
    ensures |s| >= 1 && s[0] == ' ' && s[1..] == LastComponent(name)
    ensures forall i :: 1 <= i < |s| ==> s[i] != '/'
    ensures IsAscii(name) ==> IsAscii(s)
  {
    " " + LastComponent(name)
  }

  /** `" "` and the mode's display name. */
  function ModeSegment(mode: Mode): (s: string)
    ensures IsAscii(s) && 7 <= |s| <= 8
    ensures s[0] == ' ' && s[1..] == Display(mode)
  {
    " " + Display(mode)
  }

  /** The four segments of an update, in drawing order. */
  datatype Segments = Segments(mode: string, file: string, cursor: string, pct: string)

  function SegmentsOf(u: Update, percent: nat): (s: Segments)
    ensures IsAscii(s.mode) && IsAscii(s.cursor) && IsAscii(s.pct) && |s.pct| >= 3
    ensures IsAscii(u.fileName) ==> IsAscii(s.file)
  {
    Segments(ModeSegment(u.mode), FileSegment(u.fileName),
             CursorSegment(u.cursorPos.row, u.cursorPos.col),
             PercentSegment(u.cursorPos.row, u.lineCount, percent))
  }

  /** Neither the padding `width - |mode| - |file| - |cursor| - |percentage|` nor
      the column `width - 1 - |cursor|` underflows (lengths in bytes). */
  predicate Fits(s: Segments, width: nat)
  {
    ByteLen(s.mode) + ByteLen(s.file) + ByteLen(s.cursor) + ByteLen(s.pct) <= width &&
    ByteLen(s.cursor) < width
  }

  /** The six `set_text` calls of `draw`, in order, for segments of lengths
      `m`, `f`, `c` and `p`. */
  function LayoutRuns(s: Segments, m: nat, f: nat, c: nat, p: nat, width: nat): seq<V.TextRun>
    requires m + f + c + p <= width && c < width
  {
    [V.TextRun(0, s.mode),
     V.TextRun(m, s.file),
     V.TextRun(m + f, Spaces(width - m - f - c - p)),
     V.TextRun(width - 1 - c, s.cursor),
     V.TextRun(width - c, s.cursor),
     V.TextRun(width - c - p, s.pct)]
  }

  /** `draw`'s writes: the columns are computed from the segments' byte lengths. */
  function DrawWrites(s: Segments, width: nat, style: Style): seq<V.CellWrite>
    requires Fits(s, width)
  {
    V.RunWrites(LayoutRuns(s, ByteLen(s.mode), ByteLen(s.file), ByteLen(s.cursor), ByteLen(s.pct), width), 0, style)
  }

  /** The row the status line is meant to show: mode, file name, padding,
      position in the file, cursor position. */
  function Line(s: Segments, width: nat): string
    requires Fits(s, width)
  {
    s.mode + s.file + Spaces(width - ByteLen(s.mode) - ByteLen(s.file) - ByteLen(s.cursor) - ByteLen(s.pct))
      + s.pct + s.cursor
  }

  /** The character `Line` holds at column `x`, region by region. */
  lemma LineAt(s: Segments, width: nat, x: nat)
    requires Fits(s, width) && IsAscii(s.mode) && IsAscii(s.file) && IsAscii(s.cursor) && IsAscii(s.pct)
    ensures |Line(s, width)| == width
    ensures x < width ==> (Line(s, width)[x] ==
      var m, f, c, p := |s.mode|, |s.file|, |s.cursor|, |s.pct|;
      if x < m then s.mode[x]
      else if x < m + f then s.file[x - m]
      else if x < width - c - p then ' '
      else if x < width - c then s.pct[x - (width - c - p)]
      else s.cursor[x - (width - c)])
  {
    AsciiByteLen(s.mode);
    AsciiByteLen(s.file);
    AsciiByteLen(s.cursor);
    AsciiByteLen(s.pct);
    var m, f, c, p := |s.mode|, |s.file|, |s.cursor|, |s.pct|;
    var pad := Spaces(width - m - f - c - p);
    var line := Line(s, width);
    assert line == s.mode + s.file + pad + s.pct + s.cursor;
  }

  /** Which run shows at each column of the row, region by region, when the
      lengths are the segments' lengths. */
  lemma LayoutTop(s: Segments, m: nat, f: nat, c: nat, p: nat, width: nat, x: nat)
    requires m == |s.mode| && f == |s.file| && c == |s.cursor| && p == |s.pct|
    requires m + f + c + p <= width && c < width && p >= 1 && x < width
    ensures V.TopRun(LayoutRuns(s, m, f, c, p, width), x) ==
      Some(if x < m then s.mode[x]
           else if x < m + f then s.file[x - m]
           else if x < width - c - p then ' '
           else if x < width - c then s.pct[x - (width - c - p)]
           else s.cursor[x - (width - c)])
  {
    var r0, r1, r2 := V.TextRun(0, s.mode), V.TextRun(m, s.file), V.TextRun(m + f, Spaces(width - m - f - c - p));
    var r3, r4, r5 := V.TextRun(width - 1 - c, s.cursor), V.TextRun(width - c, s.cursor), V.TextRun(width - c - p, s.pct);
    var runs := LayoutRuns(s, m, f, c, p, width);
    assert runs == [r0, r1, r2, r3, r4, r5];
    var q1, q2, q3, q4, q5 := [r0], [r0, r1], [r0, r1, r2], [r0, r1, r2, r3], [r0, r1, r2, r3, r4];
    assert q1[..0] == [] && q2[..1] == q1 && q3[..2] == q2 && q4[..3] == q3 && q5[..4] == q4 && runs[..5] == q5;
    assert V.TopRun(q1, x) == (if x < m then Some(s.mode[x]) else None);
    assert V.TopRun(q2, x) == (if m <= x < m + f then Some(s.file[x - m]) else V.TopRun(q1, x));
    assert V.TopRun(q3, x) == (if m + f <= x < width - c - p then Some(' ') else V.TopRun(q2, x));
    assert V.TopRun(q4, x) == (if width - 1 - c <= x < width - 1 then Some(s.cursor[x - (width - 1 - c)]) else V.TopRun(q3, x));
    assert V.TopRun(q5, x) == (if width - c <= x then Some(s.cursor[x - (width - c)]) else V.TopRun(q4, x));
  }

  /** The last write `draw` makes at each column of row 0, region by region. */
  lemma WritesAt(s: Segments, width: nat, style: Style, x: nat, r: nat)
    requires Fits(s, width) && IsAscii(s.mode) && IsAscii(s.file) && IsAscii(s.cursor) && IsAscii(s.pct)
    requires |s.pct| >= 1
    ensures r != 0 ==> V.LastWrite(DrawWrites(s, width, style), x, r) == None
    ensures r == 0 && x < width ==> (V.LastWrite(DrawWrites(s, width, style), x, r) ==
      var m, f, c, p := |s.mode|, |s.file|, |s.cursor|, |s.pct|;
      Some(Cell(
        if x < m then s.mode[x]
        else if x < m + f then s.file[x - m]
        else if x < width - c - p then ' '
        else if x < width - c then s.pct[x - (width - c - p)]
        else s.cursor[x - (width - c)], style)))
  {
    AsciiByteLen(s.mode);
    AsciiByteLen(s.file);
    AsciiByteLen(s.cursor);
    AsciiByteLen(s.pct);
    var m, f, c, p := |s.mode|, |s.file|, |s.cursor|, |s.pct|;
    var runs := LayoutRuns(s, m, f, c, p, width);
    assert DrawWrites(s, width, style) == V.RunWrites(runs, 0, style);
    V.RunWritesLastWrite(runs, 0, style, x, r);
    if x < width {
      LayoutTop(s, m, f, c, p, width, x);
    }
  }

  /** With ASCII segments the writes leave row 0 reading exactly `Line`, which
      fills the width: the first cursor write is entirely overwritten by the
      percentage and the second cursor write, and the cursor segment ends at the
      right edge. No other row is written. */
  lemma DrawLayout(s: Segments, width: nat, style: Style, x: nat, r: nat)
    requires Fits(s, width) && IsAscii(s.mode) && IsAscii(s.file) && IsAscii(s.cursor) && IsAscii(s.pct)
    requires |s.pct| >= 1
    ensures |Line(s, width)| == width
    ensures r == 0 && x < width ==>
      V.LastWrite(DrawWrites(s, width, style), x, r) == Some(Cell(Line(s, width)[x], style))
    ensures r != 0 ==> V.LastWrite(DrawWrites(s, width, style), x, r) == None
  {
    LineAt(s, width, x);
    WritesAt(s, width, style, x, r);
  }

  /** One cell of the grid as written by `render`: at its index as the column
      and the area's row, unset colours taken from the theme's default style. */
  function EmitCell(cell: Cell, x: nat, row: nat, default: Style): (w: TermWrite)
    requires default.fg.Some? && default.bg.Some?
    ensures w.c == cell.c && (w.fg, w.bg) == Resolve(cell.style, default)
    ensures x < 0x1_0000 ==> w.col == x
    ensures row < 0x1_0000 ==> w.row == row
  {
    var colors := Resolve(cell.style, default);
    TermWrite(Trunc16(x), Trunc16(row), cell.c, colors.0, colors.1)
  }

  function EmitAll(cells: seq<Cell>, row: nat, default: Style): (ws: seq<TermWrite>)
    requires default.fg.Some? && default.bg.Some?
    ensures |ws| == |cells|
  {
    seq(|cells|, x requires 0 <= x < |cells| => EmitCell(cells[x], x, row, default))
  }

  /** The loop of `render`: one terminal write per cell of the flat grid, in order. */
  method EmitCells(cells: seq<Cell>, row: nat, default: Style) returns (writes: seq<TermWrite>)
    requires default.fg.Some? && default.bg.Some?
    ensures writes == EmitAll(cells, row, default)
  {
    writes := [];
    for x := 0 to |cells|
      invariant |writes| == x
      invariant forall k :: 0 <= k < x ==> writes[k] == EmitCell(cells[k], k, row, default)
    {
      writes := writes + [EmitCell(cells[x], x, row, default)];
    }
  }

  /** Applying the first `k` runs is applying the first `k - 1` and then run `k - 1`. */
  lemma Step(v: V.Viewport, runs: seq<V.TextRun>, k: nat, style: Style)
    requires 1 <= k <= |runs|
    ensures V.Apply(v, V.RunWrites(runs[..k], 0, style)) ==
      V.SetText(V.Apply(v, V.RunWrites(runs[..k - 1], 0, style)), runs[k - 1].col, 0, runs[k - 1].text, style)
  {
    assert runs[..k] == runs[..k - 1] + [runs[k - 1]];
    V.RunWritesSnoc(runs[..k - 1], runs[k - 1], 0, style);
    V.ApplyAppend(v, V.RunWrites(runs[..k - 1], 0, style), V.TextWrites(runs[k - 1].col, 0, runs[k - 1].text, style));
  }

  class TuiStatusline {
    var area: Rect
    /** The grid the status line draws into; kept from one render to the next. */
    var view: V.Viewport
    const theme: Config.Theme

    /** `TuiStatusline::new`: a blank grid the size of the area. */
    constructor(area: Rect, theme: Config.Theme)
      ensures this.area == area && this.theme == theme
      ensures view == V.New(area.width, area.height)
    {
      this.area := area;
      this.theme := theme;
      view := V.New(area.width, area.height);
    }

    /** `draw`: the six text writes, in order, into the kept grid. */
    method Draw(u: Update, percent: nat)
      requires Fits(SegmentsOf(u, percent), area.width)
      modifies this`view
      ensures view == V.Apply(old(view), DrawWrites(SegmentsOf(u, percent), area.width, theme.statusline))
    {
      var segs := SegmentsOf(u, percent);
      DrawSegments(segs);
    }

    method DrawSegments(s: Segments)
      requires Fits(s, area.width)
      modifies this`view
      ensures view == V.Apply(old(view), DrawWrites(s, area.width, theme.statusline))
    {
      var m, f, c, p := ByteLen(s.mode), ByteLen(s.file), ByteLen(s.cursor), ByteLen(s.pct);
      var style := theme.statusline;
      var width := area.width;
      ghost var v0 := view;
      var runs := LayoutRuns(s, m, f, c, p, width);
      assert runs[..0] == [];
      for k := 0 to 6
        invariant view == V.Apply(v0, V.RunWrites(runs[..k], 0, style))
      {
        view := V.SetText(view, runs[k].col, 0, runs[k].text, style);
        Step(v0, runs, k + 1, style);
      }
      assert runs[..6] == runs;
    }

    /** `render`: draws, then writes every cell of the grid to the terminal
        (not a diff). */
    method Render(u: Update, percent: nat) returns (writes: seq<TermWrite>)
      requires Fits(SegmentsOf(u, percent), area.width)
      requires theme.style.fg.Some? && theme.style.bg.Some?
      modifies this`view
      ensures view == V.Apply(old(view), DrawWrites(SegmentsOf(u, percent), area.width, theme.statusline))
      ensures writes == EmitAll(V.RowMajor(view.rows), area.row, theme.style)
    {
      Draw(u, percent);
      writes := EmitCells(V.RowMajor(view.rows), area.row, theme.style);
    }
  }

  /** What a render shows: on a grid of the area's size and an ASCII file name,
      the first `width` terminal writes put `Line` on the area's row, one
      character per column, in the status line style. */
  lemma RenderShowsLine(view: V.Viewport, u: Update, percent: nat, area: Rect, theme: Config.Theme, x: nat)
    requires V.Valid(view) && view.width == area.width && view.height == area.height && area.height > 0
    requires Fits(SegmentsOf(u, percent), area.width) && IsAscii(u.fileName)
    requires theme.style.fg.Some? && theme.style.bg.Some?
    requires x < area.width && x < 0x1_0000 && area.row < 0x1_0000
    ensures var next := V.Apply(view, DrawWrites(SegmentsOf(u, percent), area.width, theme.statusline));
      var ws := EmitAll(V.RowMajor(next.rows), area.row, theme.style);
      |Line(SegmentsOf(u, percent), area.width)| == area.width &&
      x < |ws| && ws[x].col == x && ws[x].row == area.row && ws[x].c == Line(SegmentsOf(u, percent), area.width)[x] &&
      (ws[x].fg, ws[x].bg) == Resolve(theme.statusline, theme.style)
  {
    var segs := SegmentsOf(u, percent);
    var dw := DrawWrites(segs, area.width, theme.statusline);
    var next := V.Apply(view, dw);
    V.RowMajorLayout(next);
    V.ApplyAt(view, dw, x, 0);
    DrawLayout(segs, area.width, theme.statusline, x, 0);
    assert V.RowMajor(next.rows)[x] == next.rows[0][x];
  }
}

=== FILE: text.dfy ===
/** Text helpers shared by the model: Rust's `usize::to_string`, `" ".repeat(n)`,
    `char::len_utf8`/`str::len` (byte lengths) and saturating subtraction. */
module Text {

  /** `a.saturating_sub(b)` on unsigned integers. */
  function Sat(a: nat, b: nat): (r: nat)
    ensures a >= b ==> r + b == a
    ensures a <= b ==> r == 0
  {
    if a >= b then a - b else 0
  }

  function Min(a: nat, b: nat): (r: nat)
    ensures r <= a && r <= b && (r == a || r == b)
  {
    if a <= b then a else b
  }

  function AbsDiff(a: nat, b: nat): (r: nat)
    ensures r == 0 <==> a == b
    ensures a + r == b || b + r == a
  {
    if a >= b then a - b else b - a
  }

  /** Truncation performed by an `as u16` cast. */
  function Trunc16(x: nat): (r: nat)
    ensures r < 0x1_0000
    ensures x < 0x1_0000 ==> r == x
  {
    x % 0x1_0000
  }

  predicate IsDigit(c: char) { '0' <= c <= '9' }

  predicate AllDigits(s: string) { forall i :: 0 <= i < |s| ==> IsDigit(s[i]) }

  function Digit(d: nat): (c: char)
    requires d < 10
    ensures IsDigit(c) && c as int - '0' as int == d
  {
    (d + '0' as int) as char
  }

  /** The decimal rendering of `n`, as produced by `to_string`. */
  function Decimal(n: nat): (s: string)
    ensures |s| >= 1
    decreases n
  {
    if n < 10 then [Digit(n)] else Decimal(n / 10) + [Digit(n % 10)]
  }

  /** Value of a string of decimal digits (the inverse of Decimal). */
  function DecimalValue(s: string): nat
    requires AllDigits(s)
  {
    if s == [] then 0
    else 10 * DecimalValue(s[..|s| - 1]) + DigitValue(s[|s| - 1])
  }

  function DigitValue(c: char): nat
    requires IsDigit(c)
  {
    c as int - '0' as int
  }

  /** Decimal renders digits only. */
  lemma {:induction false} DecimalDigits(n: nat)
    ensures AllDigits(Decimal(n))
    decreases n
  {
    if n >= 10 {
      DecimalDigits(n / 10);
    }
  }

  /** Decimal is a faithful rendering: reading the digits back gives the number. */
  lemma {:induction false} DecimalRoundTrip(n: nat)
    ensures AllDigits(Decimal(n)) && DecimalValue(Decimal(n)) == n
    decreases n
  {
    DecimalDigits(n);
    if n >= 10 {
      DecimalRoundTrip(n / 10);
      var s := Decimal(n);
      assert s[..|s| - 1] == Decimal(n / 10);
    }
  }

  /** Larger numbers never print with fewer digits. */
  lemma {:induction false} DecimalLengthMonotone(a: nat, b: nat)
    requires a <= b
    ensures |Decimal(a)| <= |Decimal(b)|
    decreases b
  {
    if a >= 10 {
      DecimalLengthMonotone(a / 10, b / 10);
    }
  }

  /** `" ".repeat(n)`. */
  function Spaces(n: nat): (s: string)
    ensures |s| == n
    ensures forall i :: 0 <= i < n ==> s[i] == ' '
  {
    seq(n, _ => ' ')
  }

  /** `char::len_utf8`: bytes taken by one Unicode scalar value in UTF-8. */
  function Utf8Len(c: char): (n: nat)
    ensures 1 <= n <= 4
    ensures n == 1 <==> c as int < 0x80
  {
    if c as int < 0x80 then 1
    else if c as int < 0x800 then 2
    else if c as int < 0x1_0000 then 3
    else 4
  }

  /** `str::len`: the UTF-8 byte length of a string. */
  function ByteLen(s: string): (n: nat)
    ensures n >= |s|
  {
    if s == [] then 0 else ByteLen(s[..|s| - 1]) + Utf8Len(s[|s| - 1])
  }

  predicate IsAscii(s: string)
  {
    forall i :: 0 <= i < |s| ==> s[i] as int < 0x80
  }

  /** For text made of ASCII characters, byte length and character count agree. */
  lemma {:induction false} AsciiByteLen(s: string)
    requires IsAscii(s)
    ensures ByteLen(s) == |s|
  {
    if s != [] {
      AsciiByteLen(s[..|s| - 1]);
    }
  }

  /** Byte length is additive over concatenation. */
  lemma {:induction false} ByteLenAppend(a: string, b: string)
    ensures ByteLen(a + b) == ByteLen(a) + ByteLen(b)
    decreases |b|
  {
    if b != [] {
      assert (a + b)[..|a + b| - 1] == a + b[..|b| - 1];
      assert (a + b)[|a + b| - 1] == b[|b| - 1];
      ByteLenAppend(a, b[..|b| - 1]);
    } else {
      assert a + b == a;
    }
  }

  lemma DecimalAscii(n: nat)
    ensures IsAscii(Decimal(n))
  {
    DecimalDigits(n);
  }

  /** Text after the last '/' of `name`, or all of `name` when it has none
      (`name.split('/').rev().nth(0)`). */
  function LastComponent(name: string): (r: string)
    ensures |r| <= |name| && r == name[|name| - |r|..]
    ensures forall i :: 0 <= i < |r| ==> r[i] != '/'
    ensures |r| < |name| ==> name[|name| - |r| - 1] == '/'
  {
    if name == [] then []
    else if name[|name| - 1] == '/' then []
    else LastComponent(name[..|name| - 1]) + [name[|name| - 1]]
  }
}

=== FILE: tui_editor.dfy ===
/** The editor of the terminal front end (`TuiEditor`): its mode, terminal size,
    the area of its active window, and what it asks of the window and the language
    server. */
module TuiEditor {
  import opened EditorTypes
  import opened Dispatch

  class TuiEditor {
    var mode: Mode
    var size: Size
    var windowArea: Rect
    var effects: seq<Effect>

    function State(): EditorState
      reads this
    {
      EditorState(mode, size, windowArea, effects)
    }

    /** `new`: Normal mode, the terminal's size, and a window two rows shorter
        than the terminal (room for the status and command lines). */
    constructor(cols: u16, rows: u16)
      requires rows >= 2
      ensures mode == Normal && size == SizeFrom(cols, rows) && effects == []
      ensures windowArea == WindowArea(size)
    {
      var terminalSize := SizeFrom(cols, rows);
      mode := Normal;
      size := terminalSize;
      var windowSize := RectFromSize(terminalSize);
      windowSize := windowSize.(height := windowSize.height - 2);
      windowArea := windowSize;
      effects := [];
    }

    /** One iteration of `handle_action`'s loop: a window action is forwarded
        with the current mode; otherwise the action's own case runs. */
    method ApplyAction(a: Action)
      requires ResizeFits(a)
      modifies this
      ensures State() == Step(old(State()), a)
    {
      if IsWindowAction(a) {
        effects := effects + [WindowAction(a, mode)];
      } else {
        match a {
          case EnterMode(Insert) => mode := Insert;
          case EnterMode(Normal) => mode := Normal;
          case EnterMode(Command) => mode := Command;
          case Hover => effects := effects + [HoverRequest];
          case Resize(cols, rows) =>
            size := SizeFrom(cols, rows);
            windowArea := Rect(0, 0, size.height - 2, size.width);
          case _ =>
        }
      }
    }

    /** `handle_action`: flatten, then run each action in order. */
    method HandleAction(action: KeyAction)
      requires AllResizesFit(Flatten(action))
      modifies this
      ensures State() == ApplyBatch(old(State()), Flatten(action))
    {
      var actions := FlattenActions([], action);
      assert actions == Flatten(action);
      for i := 0 to |actions|
        invariant AllResizesFit(actions[..i])
        invariant State() == ApplyBatch(old(State()), actions[..i])
      {
        ApplyBatchPrefix(old(State()), actions, i);
        ApplyAction(actions[i]);
      }
      assert actions[..|actions|] == actions;
    }

    /** One event delivered by the loop in `start`: a top-level `Simple(Quit)`
        ends the session; any other result is handled; nothing polled, nothing done. */
    method OnPolled(polled: Option<KeyAction>) returns (quit: bool)
      requires polled.Some? ==> AllResizesFit(Flatten(polled.value))
      modifies this
      ensures quit == LoopQuits(polled)
      ensures quit || polled.None? ==> State() == old(State())
      ensures !quit && polled.Some? ==> State() == ApplyBatch(old(State()), Flatten(polled.value))
    {
      quit := false;
      if polled.Some? {
        match polled.value {
          case Simple(Quit) =>
            quit := true;
          case _ =>
            HandleAction(polled.value);
        }
      }
    }
  }
}

=== FILE: view.dfy ===
/** The terminal view of a window (`TuiView`): it lays the highlighted cells of
    the visible text out on a fresh grid, puts the gutter labels over them,
    writes to the terminal only the cells that differ from the previous frame,
    and places the cursor. */
module View {
  import opened Text
  import opened EditorTypes
  import Config
  import V = Viewport
  import G = Gutter
  import S = Scrollable

  /** The gutter `TuiView::new` builds from the configuration. */
  function SelectGutter(config: Config.Config): (g: G.Gutter)
    ensures g.AbsoluteLineGutter? <==> config.lineNumbers == Config.Absolute
    ensures g.RelativeLineGutter? <==> config.lineNumbers == Config.Relative || config.lineNumbers == Config.RelativeNumbered
    ensures g.NoopLineGutter? <==> config.lineNumbers == Config.None
    ensures !g.NoopLineGutter? ==> g.emptyLineChar == config.emptyLineChar && g.offset == config.gutterWidth
    ensures g.RelativeLineGutter? ==> g.lineNumbers == config.lineNumbers
  {
    match config.lineNumbers
    case Absolute => G.AbsoluteLineGutter(config.emptyLineChar, config.gutterWidth)
    case Relative => G.RelativeLineGutter(config.emptyLineChar, config.gutterWidth, config.lineNumbers)
    case RelativeNumbered => G.RelativeLineGutter(config.emptyLineChar, config.gutterWidth, config.lineNumbers)
    case None => G.NoopLineGutter
  }

  /** Whatever the configuration, every label of the selected gutter is exactly
      `gutter_width` wide; the absolute gutter labels every row of the area, the
      relative one at most that many, and `None` draws no label at all. */
  lemma SelectedGutterLabels(config: Config.Config, totalLines: nat, line: nat, scroll: nat, height: nat)
    requires G.Fits(SelectGutter(config), totalLines, line, scroll, height)
    ensures var ls := G.Lines(SelectGutter(config), totalLines, line, scroll, height);
      (forall i :: 0 <= i < |ls| ==> |ls[i]| == config.gutterWidth) &&
      (config.lineNumbers == Config.Absolute ==> |ls| == height) &&
      (config.lineNumbers != Config.None ==> |ls| <= height) &&
      (config.lineNumbers == Config.None ==> ls == [])
  {
    var g := SelectGutter(config);
    var ls := G.Lines(g, totalLines, line, scroll, height);
    forall i | 0 <= i < |ls| ensures |ls[i]| == config.gutterWidth {
      match g
      case AbsoluteLineGutter(c, offset) =>
        G.AbsoluteRowShows(offset, c, totalLines, scroll, height, i);
      case RelativeLineGutter(c, offset, ln) =>
        G.RelativeLabelWidth(offset, c, ln, totalLines, line, scroll, height, i);
    }
  }

  // ---------------------------------------------------------------------------
  // `draw`: laying the cells out

  /** Where `draw` will put the next cell: a row and an unscrolled column. */
  datatype Pen = Pen(row: nat, col: nat)

  /** The unscrolled column `col` lies in the area's columns. */
  predicate InView(col: nat, scrollCol: nat, width: nat)
  {
    col >= scrollCol && col - scrollCol < width
  }

  /** The cell written for `c`: a newline is drawn as a space in its own style,
      so that its background shows. */
  function Drawn(c: Cell): (d: Cell)
    ensures d.c != '\n' && d.style == c.style
    ensures c.c != '\n' ==> d == c
  {
    if c.c == '\n' then Cell(' ', c.style) else c
  }

  /** The pen after `draw` has gone through `cells`: a cell in view moves the
      column on by one, a cell out of view leaves it, and a newline starts the
      next row at the gutter width. */
  function PenAfter(gutterWidth: nat, scrollCol: nat, width: nat, cells: seq<Cell>): Pen
    decreases |cells|
  {
    if cells == [] then Pen(0, gutterWidth)
    else
      var p := PenAfter(gutterWidth, scrollCol, width, cells[..|cells| - 1]);
      if cells[|cells| - 1].c == '\n' then Pen(p.row + 1, gutterWidth)
      else if InView(p.col, scrollCol, width) then Pen(p.row, p.col + 1)
      else p
  }

  /** The `set_cell` calls `draw` makes for `cells`, in order. */
  function DrawWrites(gutterWidth: nat, scrollCol: nat, width: nat, cells: seq<Cell>): seq<V.CellWrite>
    decreases |cells|
  {
    if cells == [] then []
    else
      var p := PenAfter(gutterWidth, scrollCol, width, cells[..|cells| - 1]);
      DrawWrites(gutterWidth, scrollCol, width, cells[..|cells| - 1]) +
        (if InView(p.col, scrollCol, width) then [V.CellWrite(p.col - scrollCol, p.row, Drawn(cells[|cells| - 1]))] else [])
  }

  /** Drawing cell `i`: the pen moves as `draw` moves it, and the cell is set
      at the pen when the pen is in view. */
  lemma DrawStep(gutterWidth: nat, scrollCol: nat, width: nat, view: V.Viewport, cells: seq<Cell>, i: nat)
    requires i < |cells|
    ensures var p := PenAfter(gutterWidth, scrollCol, width, cells[..i]);
      PenAfter(gutterWidth, scrollCol, width, cells[..i + 1]) ==
        (if cells[i].c == '\n' then Pen(p.row + 1, gutterWidth)
         else if InView(p.col, scrollCol, width) then Pen(p.row, p.col + 1) else p)
    ensures var p := PenAfter(gutterWidth, scrollCol, width, cells[..i]);
      var before := V.Apply(view, DrawWrites(gutterWidth, scrollCol, width, cells[..i]));
      V.Apply(view, DrawWrites(gutterWidth, scrollCol, width, cells[..i + 1])) ==
        (if InView(p.col, scrollCol, width) then V.SetCell(before, V.CellWrite(p.col - scrollCol, p.row, Drawn(cells[i])))
         else before)
  {
    assert cells[..i + 1][..i] == cells[..i];
    var ws := DrawWrites(gutterWidth, scrollCol, width, cells[..i]);
    var p := PenAfter(gutterWidth, scrollCol, width, cells[..i]);
    if InView(p.col, scrollCol, width) {
      var w := V.CellWrite(p.col - scrollCol, p.row, Drawn(cells[i]));
      assert (ws + [w])[..|ws|] == ws;
    } else {
      assert ws + [] == ws;
    }
  }

  /** The number of newlines in `cells`: the row the next cell goes to. */
  function Newlines(cells: seq<Cell>): nat
  {
    if cells == [] then 0
    else Newlines(cells[..|cells| - 1]) + (if cells[|cells| - 1].c == '\n' then 1 else 0)
  }

  /** The number of cells after the last newline: the next cell's offset in its line. */
  function LineOffset(cells: seq<Cell>): nat
  {
    if cells == [] then 0
    else if cells[|cells| - 1].c == '\n' then 0
    else LineOffset(cells[..|cells| - 1]) + 1
  }

  /** While the scroll column does not pass the gutter width, the pen sits on the
      row of the next line and at its offset in the line, except that it stops
      at the right edge of the area. */
  lemma {:induction false} PenClosedForm(gutterWidth: nat, scrollCol: nat, width: nat, cells: seq<Cell>)
    requires scrollCol <= gutterWidth
    ensures PenAfter(gutterWidth, scrollCol, width, cells) ==
      Pen(Newlines(cells), gutterWidth + Min(LineOffset(cells), Sat(scrollCol + width, gutterWidth)))
    decreases |cells|
  {
    if cells != [] {
      PenClosedForm(gutterWidth, scrollCol, width, cells[..|cells| - 1]);
    }
  }

  /** Drawing one more cell: it is written exactly when its offset in its line
      still fits in the area, at column `gutter_width + offset - scroll.col` of the
      row given by the newlines before it. */
  lemma DrawNext(gutterWidth: nat, scrollCol: nat, width: nat, cells: seq<Cell>, c: Cell)
    requires scrollCol <= gutterWidth
    ensures DrawWrites(gutterWidth, scrollCol, width, cells + [c]) ==
      DrawWrites(gutterWidth, scrollCol, width, cells) +
      (if gutterWidth + LineOffset(cells) < scrollCol + width
       then [V.CellWrite(gutterWidth + LineOffset(cells) - scrollCol, Newlines(cells), Drawn(c))]
       else [])
  {
    assert (cells + [c])[..|cells|] == cells;
    PenClosedForm(gutterWidth, scrollCol, width, cells);
  }

  /** When the view is scrolled right past the gutter, the pen never moves right
      and no content cell is ever written. */
  lemma {:induction false} ScrolledPastGutterDrawsNothing(gutterWidth: nat, scrollCol: nat, width: nat, cells: seq<Cell>)
    requires scrollCol > gutterWidth
    ensures PenAfter(gutterWidth, scrollCol, width, cells).col == gutterWidth
    ensures DrawWrites(gutterWidth, scrollCol, width, cells) == []
    decreases |cells|
  {
    if cells != [] {
      ScrolledPastGutterDrawsNothing(gutterWidth, scrollCol, width, cells[..|cells| - 1]);
    }
  }

  /** Every write lands in the area's columns, on a row no later than the
      number of newlines, and never writes a newline character. */
  lemma {:induction false} DrawWritesInArea(gutterWidth: nat, scrollCol: nat, width: nat, cells: seq<Cell>)
    ensures PenAfter(gutterWidth, scrollCol, width, cells).row == Newlines(cells)
    ensures forall w <- DrawWrites(gutterWidth, scrollCol, width, cells) ::
      w.col < width && w.row <= Newlines(cells) && w.cell.c != '\n'
    decreases |cells|
  {
    if cells != [] {
      var prefix := cells[..|cells| - 1];
      DrawWritesInArea(gutterWidth, scrollCol, width, prefix);
      var a := DrawWrites(gutterWidth, scrollCol, width, prefix);
      var ws := DrawWrites(gutterWidth, scrollCol, width, cells);
      assert Newlines(prefix) <= Newlines(cells);
      forall w <- ws ensures w.col < width && w.row <= Newlines(cells) && w.cell.c != '\n' {
        if w !in a {
          var p := PenAfter(gutterWidth, scrollCol, width, prefix);
          assert w == V.CellWrite(p.col - scrollCol, p.row, Drawn(cells[|cells| - 1]));
        }
      }
    }
  }

  // ---------------------------------------------------------------------------
  // `draw_sidebar`: the gutter labels

  /** The `set_text` calls of `draw_sidebar`: label `i` at column 0 of row `i`. */
  function SidebarWrites(labels: seq<string>, style: Style): seq<V.CellWrite>
    decreases |labels|
  {
    if labels == [] then []
    else SidebarWrites(labels[..|labels| - 1], style) + V.TextWrites(0, |labels| - 1, labels[|labels| - 1], style)
  }

  /** The sidebar writes exactly the cells the labels cover, with the labels' characters. */
  lemma {:induction false} SidebarLastWrite(labels: seq<string>, style: Style, c: nat, r: nat)
    ensures V.LastWrite(SidebarWrites(labels, style), c, r) ==
      (if r < |labels| && c < |labels[r]| then Some(Cell(labels[r][c], style)) else None)
    decreases |labels|
  {
    if labels != [] {
      var n := |labels| - 1;
      V.LastWriteAppend(SidebarWrites(labels[..n], style), V.TextWrites(0, n, labels[n], style), c, r);
      V.LastWriteText(0, n, labels[n], style, c, r);
      SidebarLastWrite(labels[..n], style, c, r);
    }
  }

  // ---------------------------------------------------------------------------
  // `render`: the frame and what reaches the terminal

  /** The frame `render` builds: a blank grid of the area's size, the content
      drawn first and the gutter labels drawn over it. */
  function Frame(width: nat, height: nat, gutterWidth: nat, scrollCol: nat,
                 cells: seq<Cell>, labels: seq<string>, gutterStyle: Style): V.Viewport
  {
    V.Apply(V.New(width, height), DrawWrites(gutterWidth, scrollCol, width, cells) + SidebarWrites(labels, gutterStyle))
  }

  /** A cell of the frame shows the gutter label covering it if there is one,
      otherwise the last content cell drawn there, otherwise a blank. */
  lemma FrameCell(width: nat, height: nat, gutterWidth: nat, scrollCol: nat,
                  cells: seq<Cell>, labels: seq<string>, gutterStyle: Style, r: nat, c: nat)
    requires r < height && c < width
    ensures var f := Frame(width, height, gutterWidth, scrollCol, cells, labels, gutterStyle);
      var drawn := V.LastWrite(DrawWrites(gutterWidth, scrollCol, width, cells), c, r);
      V.Valid(f) && f.width == width && f.height == height &&
      f.rows[r][c] ==
        if r < |labels| && c < |labels[r]| then Cell(labels[r][c], gutterStyle)
        else if drawn.Some? then drawn.value
        else V.BlankCell()
  {
    var dw := DrawWrites(gutterWidth, scrollCol, width, cells);
    var sw := SidebarWrites(labels, gutterStyle);
    V.ApplyAt(V.New(width, height), dw + sw, c, r);
    V.LastWriteAppend(dw, sw, c, r);
    SidebarLastWrite(labels, gutterStyle, c, r);
  }

  /** One changed cell as written to the terminal: moved by the area's origin,
      truncated to `u16`, unset colours taken from the theme's default style. */
  function EmitOne(change: V.ChangedCell, area: Rect, default: Style): (w: TermWrite)
    requires default.fg.Some? && default.bg.Some?
    ensures w.c == change.cell.c
    ensures area.col + change.col < 0x1_0000 ==> w.col == area.col + change.col
    ensures area.row + change.row < 0x1_0000 ==> w.row == area.row + change.row
    ensures (w.fg, w.bg) == Resolve(change.cell.style, default)
  {
    var colors := Resolve(change.cell.style, default);
    TermWrite(Trunc16(area.col + change.col), Trunc16(area.row + change.row), change.cell.c, colors.0, colors.1)
  }

  function Emit(changes: seq<V.ChangedCell>, area: Rect, default: Style): (ws: seq<TermWrite>)
    requires default.fg.Some? && default.bg.Some?
    ensures |ws| == |changes|
  {
    seq(|changes|, i requires 0 <= i < |changes| => EmitOne(changes[i], area, default))
  }

  /** Redrawing a frame identical to the previous one writes nothing. */
  lemma UnchangedFrameEmitsNothing(f: V.Viewport, area: Rect, default: Style)
    requires V.Valid(f) && default.fg.Some? && default.bg.Some?
    ensures Emit(V.Diff(f, f), area, default) == []
  {
    V.DiffSelfEmpty(f);
  }

  /** Every cell where the new frame differs from the previous one reaches the
      terminal, at its place in the area, with its character and resolved colours;
      and every write is such a cell. */
  lemma EmitExactlyChanges(next: V.Viewport, prev: V.Viewport, area: Rect, default: Style, r: nat, c: nat)
    requires V.Valid(next) && default.fg.Some? && default.bg.Some?
    requires area.col + next.width <= 0x1_0000 && area.row + next.height <= 0x1_0000
    ensures var ws := Emit(V.Diff(next, prev), area, default);
      forall i :: 0 <= i < |ws| ==>
        area.col <= ws[i].col && area.row <= ws[i].row &&
        V.InBounds(next, ws[i].col - area.col, ws[i].row - area.row) &&
        V.Differs(next, prev, ws[i].col - area.col, ws[i].row - area.row) &&
        ws[i].c == next.rows[ws[i].row - area.row][ws[i].col - area.col].c
    ensures r < next.height && c < next.width && V.Differs(next, prev, c, r) ==>
      var ws := Emit(V.Diff(next, prev), area, default);
      exists i :: 0 <= i < |ws| && ws[i].col == area.col + c && ws[i].row == area.row + r &&
        ws[i].c == next.rows[r][c].c && (ws[i].fg, ws[i].bg) == Resolve(next.rows[r][c].style, default)
  {
    var d := V.Diff(next, prev);
    var ws := Emit(d, area, default);
    forall i | 0 <= i < |ws|
      ensures area.col <= ws[i].col && area.row <= ws[i].row &&
        V.InBounds(next, ws[i].col - area.col, ws[i].row - area.row) &&
        V.Differs(next, prev, ws[i].col - area.col, ws[i].row - area.row) &&
        ws[i].c == next.rows[ws[i].row - area.row][ws[i].col - area.col].c
    {
      assert ws[i] == EmitOne(d[i], area, default);
    }
    if r < next.height && c < next.width && V.Differs(next, prev, c, r) {
      V.DiffCovers(next, prev, r, c);
      var i :| 0 <= i < |d| && d[i].col == c && d[i].row == r;
      assert ws[i] == EmitOne(d[i], area, default);
    }
  }

  /** The terminal view of one window. */
  class TuiView {
    var area: Rect
    var scroll: Position
    /** The frame written by the previous `render`. */
    var frame: V.Viewport
    const config: Config.Config
    const theme: Config.Theme
    const gutter: G.Gutter

    /** `TuiView::new`: scrolled to the origin, with an empty previous frame. */
    constructor(area: Rect, config: Config.Config, theme: Config.Theme)
      ensures this.area == area && this.config == config && this.theme == theme
      ensures scroll == Position(0, 0) && frame == V.Default()
      ensures gutter == SelectGutter(config)
    {
      this.area := area;
      this.config := config;
      this.theme := theme;
      scroll := PositionDefault();
      frame := V.Default();
      gutter := SelectGutter(config);
    }

    /** `draw`: lays `cells` out on `view` from the gutter's right edge. */
    method Draw(view: V.Viewport, cells: seq<Cell>) returns (out: V.Viewport)
      ensures out == V.Apply(view, DrawWrites(config.gutterWidth, scroll.col, area.width, cells))
    {
      var row: nat, col: nat := 0, config.gutterWidth;
      out := view;
      for i := 0 to |cells|
        invariant Pen(row, col) == PenAfter(config.gutterWidth, scroll.col, area.width, cells[..i])
        invariant out == V.Apply(view, DrawWrites(config.gutterWidth, scroll.col, area.width, cells[..i]))
      {
        DrawStep(config.gutterWidth, scroll.col, area.width, view, cells, i);
        var cell := cells[i];
        if col >= scroll.col && col - scroll.col < area.width {
          if cell.c == '\n' {
            out := V.SetCell(out, V.CellWrite(col - scroll.col, row, Cell(' ', cell.style)));
          } else {
            out := V.SetCell(out, V.CellWrite(col - scroll.col, row, cell));
          }
          col := col + 1;
        }
        if cell.c == '\n' {
          row := row + 1;
          col := config.gutterWidth;
        }
      }
      assert cells[..|cells|] == cells;
    }

    /** `draw_sidebar`: writes the gutter's labels for the current scroll row,
      one per row from the top, in the theme's gutter style. */
    method DrawSidebar(buffer: Buffer, cursor: Cursor, view: V.Viewport) returns (out: V.Viewport)
      requires G.Fits(gutter, buffer.lineCount, cursor.row, scroll.row, area.height)
      ensures out == V.Apply(view, SidebarWrites(G.Lines(gutter, buffer.lineCount, cursor.row, scroll.row, area.height), theme.gutter))
    {
      var lines := G.GetLines(gutter, buffer.lineCount, cursor.row, scroll.row, area.height);
      out := view;
      for i := 0 to |lines|
        invariant out == V.Apply(view, SidebarWrites(lines[..i], theme.gutter))
      {
        assert lines[..i + 1][..i] == lines[..i];
        V.ApplyAppend(view, SidebarWrites(lines[..i], theme.gutter), V.TextWrites(0, i, lines[i], theme.gutter));
        out := V.SetText(out, 0, i, lines[i], theme.gutter);
      }
      assert lines[..|lines|] == lines;
    }

    /** `render`: builds the new frame, emits the cells that differ from the
        previous frame, places the cursor, and keeps the new frame for next time.
        Hiding and showing the terminal cursor around the writes is not modelled. */
    method Render(cells: seq<Cell>, buffer: Buffer, cursor: Cursor, mode: Mode)
      returns (writes: seq<TermWrite>, cursorAt: (nat, nat))
      requires theme.style.fg.Some? && theme.style.bg.Some?
      requires G.Fits(gutter, buffer.lineCount, cursor.row, scroll.row, area.height)
      requires S.ScreenFits(mode, buffer.getByLine(cursor.row + 1), cursor, scroll, config.gutterWidth)
      modifies this`frame
      ensures frame == Frame(area.width, area.height, config.gutterWidth, scroll.col, cells,
                             G.Lines(gutter, buffer.lineCount, cursor.row, scroll.row, area.height), theme.gutter)
      ensures writes == Emit(V.Diff(frame, old(frame)), area, theme.style)
      ensures cursorAt == S.CursorScreenPosition(mode, buffer.getByLine(cursor.row + 1), cursor, scroll, config.gutterWidth)
    {
      var lastFrame := frame;
      var next := V.New(area.width, area.height);
      var blank := next;
      next := Draw(next, cells);
      next := DrawSidebar(buffer, cursor, next);
      V.ApplyAppend(blank, DrawWrites(config.gutterWidth, scroll.col, area.width, cells),
                    SidebarWrites(G.Lines(gutter, buffer.lineCount, cursor.row, scroll.row, area.height), theme.gutter));
      var changes := V.Diff(next, lastFrame);
      writes := [];
      for i := 0 to |changes|
        invariant |writes| == i
        invariant forall k :: 0 <= k < i ==> writes[k] == EmitOne(changes[k], area, theme.style)
      {
        writes := writes + [EmitOne(changes[i], area, theme.style)];
      }
      cursorAt := S.CursorScreenPosition(mode, buffer.getByLine(cursor.row + 1), cursor, scroll, config.gutterWidth);
      frame := next;
    }

    /** `resize`: only the area changes. */
    method Resize(newArea: Rect)
      modifies this`area
      ensures area == newArea
    {
      area := newArea;
    }

    /** `Scrollable::maybe_scroll` on this view. */
    method MaybeScroll(cursor: Cursor)
      modifies this`scroll
      ensures scroll == S.NextScroll(cursor, area.width, area.height, old(scroll))
    {
      scroll := S.NextScroll(cursor, area.width, area.height, scroll);
    }
  }
}

=== FILE: viewport.dfy ===
/** The cell grid every layer draws into. Its implementation is not part of this
    model; these definitions are assumptions about it: a fresh grid holds
    blank cells, writes outside the grid are ignored, text is written one cell per
    character from left to right, and a diff lists, row by row, the coordinates
    whose cell differs from the previous frame. A coordinate the previous frame
    does not have counts as changed (the first frame is diffed against an empty
    grid). */
module Viewport {
  import opened EditorTypes

  datatype Viewport = Viewport(width: nat, height: nat, rows: seq<seq<Cell>>)

  predicate Valid(v: Viewport)
  {
    |v.rows| == v.height && forall r :: 0 <= r < |v.rows| ==> |v.rows[r]| == v.width
  }

  function BlankCell(): Cell { Cell(' ', Style(None, None)) }

  /** `Viewport::new(width, height)`. */
  function New(width: nat, height: nat): (v: Viewport)
    ensures Valid(v) && v.width == width && v.height == height
    ensures forall r, c :: 0 <= r < height && 0 <= c < width ==> v.rows[r][c] == BlankCell()
  {
    Viewport(width, height, seq(height, _ => seq(width, _ => BlankCell())))
  }

  /** `Viewport::default()`: the empty grid. */
  function Default(): Viewport { Viewport(0, 0, []) }

  predicate InBounds(v: Viewport, col: nat, row: nat)
  {
    row < |v.rows| && col < |v.rows[row]|
  }

  /** One `set_cell` call. */
  datatype CellWrite = CellWrite(col: nat, row: nat, cell: Cell)

  function SetCell(v: Viewport, w: CellWrite): (r: Viewport)
    ensures r.width == v.width && r.height == v.height && |r.rows| == |v.rows|
    ensures forall row :: 0 <= row < |v.rows| ==> |r.rows[row]| == |v.rows[row]|
  {
    if InBounds(v, w.col, w.row) then v.(rows := v.rows[w.row := v.rows[w.row][w.col := w.cell]])
    else v
  }

  /** The grid after a sequence of cell writes, in order. */
  function Apply(v: Viewport, ws: seq<CellWrite>): (r: Viewport)
    ensures r.width == v.width && r.height == v.height && |r.rows| == |v.rows|
    ensures forall row :: 0 <= row < |v.rows| ==> |r.rows[row]| == |v.rows[row]|
    ensures Valid(v) ==> Valid(r)
  {
    if ws == [] then v else SetCell(Apply(v, ws[..|ws| - 1]), ws[|ws| - 1])
  }

  /** Writing `a` and then `b` is writing `a + b`. */
  lemma {:induction false} ApplyAppend(v: Viewport, a: seq<CellWrite>, b: seq<CellWrite>)
    ensures Apply(v, a + b) == Apply(Apply(v, a), b)
    decreases |b|
  {
    if b == [] {
      assert a + b == a;
    } else {
      assert (a + b)[..|a + b| - 1] == a + b[..|b| - 1];
      ApplyAppend(v, a, b[..|b| - 1]);
    }
  }

  /** The cell most recently written at (col, row), if any. */
  function LastWrite(ws: seq<CellWrite>, col: nat, row: nat): (r: Option<Cell>)
    ensures r.None? <==> forall i :: 0 <= i < |ws| ==> !(ws[i].col == col && ws[i].row == row)
    ensures r.Some? ==> exists i :: 0 <= i < |ws| && ws[i] == CellWrite(col, row, r.value)
  {
    if ws == [] then None
    else if ws[|ws| - 1].col == col && ws[|ws| - 1].row == row then Some(ws[|ws| - 1].cell)
    else LastWrite(ws[..|ws| - 1], col, row)
  }

  /** Each cell of the grid holds the last write aimed at it, or its old content. */
  lemma {:induction false} ApplyAt(v: Viewport, ws: seq<CellWrite>, col: nat, row: nat)
    requires InBounds(v, col, row)
    ensures InBounds(Apply(v, ws), col, row)
    ensures Apply(v, ws).rows[row][col] ==
      (if LastWrite(ws, col, row).Some? then LastWrite(ws, col, row).value else v.rows[row][col])
  {
    if ws != [] {
      ApplyAt(v, ws[..|ws| - 1], col, row);
    }
  }

  /** Later writes win over earlier ones. */
  lemma {:induction false} LastWriteAppend(a: seq<CellWrite>, b: seq<CellWrite>, col: nat, row: nat)
    ensures LastWrite(a + b, col, row) ==
      (if LastWrite(b, col, row).Some? then LastWrite(b, col, row) else LastWrite(a, col, row))
    decreases |b|
  {
    if b == [] {
      assert a + b == a;
    } else {
      assert (a + b)[..|a + b| - 1] == a + b[..|b| - 1];
      LastWriteAppend(a, b[..|b| - 1], col, row);
    }
  }

  /** The writes of one `set_text(col, row, text, style)` call. */
  function TextWrites(col: nat, row: nat, text: string, style: Style): (ws: seq<CellWrite>)
    ensures |ws| == |text|
  {
    seq(|text|, k requires 0 <= k < |text| => CellWrite(col + k, row, Cell(text[k], style)))
  }

  /** A text write covers exactly the cells `col .. col + |text|` of its row. */
  lemma LastWriteText(col: nat, row: nat, text: string, style: Style, c: nat, r: nat)
    ensures LastWrite(TextWrites(col, row, text, style), c, r) ==
      (if r == row && col <= c < col + |text| then Some(Cell(text[c - col], style)) else None)
  {
    var ws := TextWrites(col, row, text, style);
    if r == row && col <= c < col + |text| {
      var w := LastWrite(ws, c, r);
      assert ws[c - col].col == c && ws[c - col].row == r;
      assert w.Some?;
      var i :| 0 <= i < |ws| && ws[i] == CellWrite(c, r, w.value);
      assert i == c - col;
    }
  }

  /** After a text write, the cells it covers hold the text and every other
      cell keeps its earlier last write. */
  lemma LastWriteThenText(a: seq<CellWrite>, col: nat, row: nat, text: string, style: Style, c: nat, r: nat)
    ensures LastWrite(a + TextWrites(col, row, text, style), c, r) ==
      (if r == row && col <= c < col + |text| then Some(Cell(text[c - col], style)) else LastWrite(a, c, r))
  {
    LastWriteAppend(a, TextWrites(col, row, text, style), c, r);
    LastWriteText(col, row, text, style, c, r);
  }

  /** One `set_text` call on a row fixed by the caller: a start column and a text. */
  datatype TextRun = TextRun(col: nat, text: string)

  /** The writes of several `set_text` calls on one row, in order. */
  function RunWrites(runs: seq<TextRun>, row: nat, style: Style): seq<CellWrite>
  {
    if runs == [] then []
    else RunWrites(runs[..|runs| - 1], row, style) + TextWrites(runs[|runs| - 1].col, row, runs[|runs| - 1].text, style)
  }

  /** The character the last run covering column `c` puts there, if any. */
  function TopRun(runs: seq<TextRun>, c: nat): Option<char>
  {
    if runs == [] then None
    else
      var last := runs[|runs| - 1];
      if last.col <= c < last.col + |last.text| then Some(last.text[c - last.col])
      else TopRun(runs[..|runs| - 1], c)
  }

  /** Each cell of the row shows the last run covering it; other rows are not written. */
  lemma {:induction false} RunWritesLastWrite(runs: seq<TextRun>, row: nat, style: Style, c: nat, r: nat)
    ensures LastWrite(RunWrites(runs, row, style), c, r) ==
      (if r == row && TopRun(runs, c).Some? then Some(Cell(TopRun(runs, c).value, style)) else None)
    decreases |runs|
  {
    if runs != [] {
      var n := |runs| - 1;
      LastWriteThenText(RunWrites(runs[..n], row, style), runs[n].col, row, runs[n].text, style, c, r);
      RunWritesLastWrite(runs[..n], row, style, c, r);
    }
  }

  /** Applying the runs one `set_text` at a time. */
  lemma RunWritesSnoc(runs: seq<TextRun>, run: TextRun, row: nat, style: Style)
    ensures RunWrites(runs + [run], row, style) == RunWrites(runs, row, style) + TextWrites(run.col, row, run.text, style)
  {
    assert (runs + [run])[..|runs|] == runs;
  }

  function SetText(v: Viewport, col: nat, row: nat, text: string, style: Style): Viewport
  {
    Apply(v, TextWrites(col, row, text, style))
  }

  /** The cells of a grid in row-major order (the grid's flat cell vector). */
  function RowMajor(rows: seq<seq<Cell>>): seq<Cell>
  {
    if rows == [] then [] else rows[0] + RowMajor(rows[1..])
  }

  /** A valid grid has `width * height` cells in row-major order, and its
      first row comes first. */
  lemma {:induction false} RowMajorLayout(v: Viewport)
    requires Valid(v)
    ensures |RowMajor(v.rows)| == v.width * v.height
    ensures v.height > 0 ==> RowMajor(v.rows)[..v.width] == v.rows[0]
    decreases v.height
  {
    if v.height > 0 {
      RowMajorLayout(Viewport(v.width, v.height - 1, v.rows[1..]));
    }
  }

  /** One entry of a diff: where the new frame differs, and its new cell. */
  datatype ChangedCell = ChangedCell(row: nat, col: nat, cell: Cell)

  predicate Differs(next: Viewport, prev: Viewport, col: nat, row: nat)
    requires InBounds(next, col, row)
  {
    !InBounds(prev, col, row) || prev.rows[row][col] != next.rows[row][col]
  }

  function DiffRow(next: Viewport, prev: Viewport, row: nat, col: nat): (d: seq<ChangedCell>)
    requires Valid(next) && row < next.height && col <= next.width
    ensures forall i :: 0 <= i < |d| ==>
      d[i].row == row && col <= d[i].col < next.width &&
      Differs(next, prev, d[i].col, row) && d[i].cell == next.rows[row][d[i].col]
    decreases next.width - col
  {
    if col == next.width then []
    else if Differs(next, prev, col, row) then
      [ChangedCell(row, col, next.rows[row][col])] + DiffRow(next, prev, row, col + 1)
    else DiffRow(next, prev, row, col + 1)
  }

  function DiffRows(next: Viewport, prev: Viewport, row: nat): (d: seq<ChangedCell>)
    requires Valid(next) && row <= next.height
    ensures forall i :: 0 <= i < |d| ==>
      row <= d[i].row < next.height && d[i].col < next.width &&
      Differs(next, prev, d[i].col, d[i].row) && d[i].cell == next.rows[d[i].row][d[i].col]
    decreases next.height - row
  {
    if row == next.height then []
    else DiffRow(next, prev, row, 0) + DiffRows(next, prev, row + 1)
  }

  /** `diff`: the changed cells of `next` against `prev`, in row-major order; every
      entry is a cell of `next` that differs from `prev`, carrying its new content. */
  function Diff(next: Viewport, prev: Viewport): (d: seq<ChangedCell>)
    requires Valid(next)
    ensures forall i :: 0 <= i < |d| ==>
      InBounds(next, d[i].col, d[i].row) && Differs(next, prev, d[i].col, d[i].row) &&
      d[i].cell == next.rows[d[i].row][d[i].col]
  {
    DiffRows(next, prev, 0)
  }

  /** Some entry of `d` is at (c, r). */
  predicate HasChange(d: seq<ChangedCell>, c: nat, r: nat)
  {
    exists i :: 0 <= i < |d| && d[i].col == c && d[i].row == r
  }

  lemma HasChangeAppend(a: seq<ChangedCell>, b: seq<ChangedCell>, c: nat, r: nat)
    requires HasChange(a, c, r) || HasChange(b, c, r)
    ensures HasChange(a + b, c, r)
  {
    if HasChange(a, c, r) {
      var i :| 0 <= i < |a| && a[i].col == c && a[i].row == r;
      assert (a + b)[i] == a[i];
    } else {
      var i :| 0 <= i < |b| && b[i].col == c && b[i].row == r;
      assert (a + b)[|a| + i] == b[i];
    }
  }

  lemma {:induction false} DiffRowComplete(next: Viewport, prev: Viewport, row: nat, col: nat, c: nat)
    requires Valid(next) && row < next.height && col <= c < next.width
    requires Differs(next, prev, c, row)
    ensures HasChange(DiffRow(next, prev, row, col), c, row)
    decreases next.width - col
  {
    if c == col {
      assert DiffRow(next, prev, row, col)[0].col == c;
    } else {
      DiffRowComplete(next, prev, row, col + 1, c);
      if Differs(next, prev, col, row) {
        HasChangeAppend([ChangedCell(row, col, next.rows[row][col])], DiffRow(next, prev, row, col + 1), c, row);
      }
    }
  }

  lemma {:induction false} DiffRowsComplete(next: Viewport, prev: Viewport, row: nat, r: nat, c: nat)
    requires Valid(next) && row <= r < next.height && c < next.width
    requires Differs(next, prev, c, r)
    ensures HasChange(DiffRows(next, prev, row), c, r)
    decreases next.height - row
  {
    if r == row {
      DiffRowComplete(next, prev, row, 0, c);
    } else {
      DiffRowsComplete(next, prev, row + 1, r, c);
    }
    HasChangeAppend(DiffRow(next, prev, row, 0), DiffRows(next, prev, row + 1), c, r);
  }

  /** Every cell of `next` that differs from `prev` appears in the diff. */
  lemma DiffCovers(next: Viewport, prev: Viewport, r: nat, c: nat)
    requires Valid(next) && r < next.height && c < next.width
    requires Differs(next, prev, c, r)
    ensures HasChange(Diff(next, prev), c, r)
  {
    DiffRowsComplete(next, prev, 0, r, c);
  }

  lemma {:induction false} DiffRowSelf(v: Viewport, row: nat, col: nat)
    requires Valid(v) && row < v.height && col <= v.width
    ensures DiffRow(v, v, row, col) == []
    decreases v.width - col
  {
    if col < v.width {
      DiffRowSelf(v, row, col + 1);
    }
  }

  lemma {:induction false} DiffRowsSelf(v: Viewport, row: nat)
    requires Valid(v) && row <= v.height
    ensures DiffRows(v, v, row) == []
    decreases v.height - row
  {
    if row < v.height {
      DiffRowSelf(v, row, 0);
      DiffRowsSelf(v, row + 1);
    }
  }

  /** Diffing a frame against itself reports nothing. */
  lemma DiffSelfEmpty(v: Viewport)
    requires Valid(v)
    ensures Diff(v, v) == []
  {
    DiffRowsSelf(v, 0);
  }

  function ChangeWrites(d: seq<ChangedCell>): (ws: seq<CellWrite>)
    ensures |ws| == |d|
    ensures forall i :: 0 <= i < |d| ==> ws[i] == CellWrite(d[i].col, d[i].row, d[i].cell)
  {
    seq(|d|, i requires 0 <= i < |d| => CellWrite(d[i].col, d[i].row, d[i].cell))
  }

  /** Replaying a diff onto the previous frame sets each cell to the new frame's. */
  lemma DiffCompleteAt(next: Viewport, prev: Viewport, col: nat, row: nat)
    requires Valid(next) && Valid(prev)
    requires next.width == prev.width && next.height == prev.height
    requires row < next.height && col < next.width
    ensures InBounds(Apply(prev, ChangeWrites(Diff(next, prev))), col, row)
    ensures Apply(prev, ChangeWrites(Diff(next, prev))).rows[row][col] == next.rows[row][col]
  {
    var d := Diff(next, prev);
    var ws := ChangeWrites(d);
    ApplyAt(prev, ws, col, row);
    var lw := LastWrite(ws, col, row);
    if lw.Some? {
      var i :| 0 <= i < |ws| && ws[i] == CellWrite(col, row, lw.value);
      assert d[i].col == col && d[i].row == row;
    } else if Differs(next, prev, col, row) {
      DiffCovers(next, prev, row, col);
      assert false;
    }
  }

  /** Replaying the diff of `next` against `prev` onto `prev` rebuilds `next`: emitting
      only the changed cells leaves the screen showing the new frame. */
  lemma DiffComplete(next: Viewport, prev: Viewport)
    requires Valid(next) && Valid(prev)
    requires next.width == prev.width && next.height == prev.height
    ensures Apply(prev, ChangeWrites(Diff(next, prev))) == next
  {
    var r := Apply(prev, ChangeWrites(Diff(next, prev)));
    forall row | 0 <= row < next.height ensures r.rows[row] == next.rows[row] {
      forall col | 0 <= col < next.width ensures r.rows[row][col] == next.rows[row][col] {
        DiffCompleteAt(next, prev, col, row);
      }
    }
    assert r.rows == next.rows;
  }
}

=== FILE: window.dfy ===
/** A window of the newer core (`glyph_core::window::Window`): it owns the cursor,
    colours the visible slice of its buffer and hands the cells to its view. */
module Window {
  import opened Text
  import opened EditorTypes
  import Config
  import V = Viewport
  import G = Gutter
  import S = Scrollable
  import View

  /** The token covers the byte at index `b`. */
  predicate Covers(t: Token, b: nat)
  {
    t.start <= b < t.end
  }

  /** The first token, in list order, covering byte `b` (`Iterator::find`). */
  function FirstToken(tokens: seq<Token>, b: nat): (r: Option<Token>)
    ensures r.None? <==> forall i :: 0 <= i < |tokens| ==> !Covers(tokens[i], b)
    ensures r.Some? ==> exists i :: (0 <= i < |tokens| && tokens[i] == r.value && Covers(r.value, b) &&
      forall j :: 0 <= j < i ==> !Covers(tokens[j], b))
  {
    if tokens == [] then None
    else if Covers(tokens[0], b) then Some(tokens[0])
    else
      var r := FirstToken(tokens[1..], b);
      assert r.Some? ==> exists i :: (0 <= i < |tokens| && tokens[i] == r.value && Covers(r.value, b) &&
        forall j :: 0 <= j < i ==> !Covers(tokens[j], b)) by {
        if r.Some? {
          var i :| 0 <= i < |tokens[1..]| && tokens[1..][i] == r.value && Covers(r.value, b) &&
            forall j :: 0 <= j < i ==> !Covers(tokens[1..][j], b);
          assert tokens[i + 1] == r.value;
          forall j | 0 <= j < i + 1 ensures !Covers(tokens[j], b) {
            if j > 0 { assert tokens[j] == tokens[1..][j - 1]; }
          }
        }
      }
      r
  }

  /** The style of the byte at index `b`: the first covering token's, else the
      theme's default. */
  function StyleAt(tokens: seq<Token>, b: nat, default: Style): Style
  {
    match FirstToken(tokens, b)
    case Some(t) => t.style
    case None => default
  }

  /** An earlier token shadows every later one on the bytes it covers. */
  lemma EarlierTokenWins(tokens: seq<Token>, b: nat, i: nat, default: Style)
    requires i < |tokens| && Covers(tokens[i], b)
    requires forall j :: 0 <= j < i ==> !Covers(tokens[j], b)
    ensures StyleAt(tokens, b, default) == tokens[i].style
  {
    var r := FirstToken(tokens, b);
    var k :| 0 <= k < |tokens| && tokens[k] == r.value && Covers(r.value, b) &&
      forall j :: 0 <= j < k ==> !Covers(tokens[j], b);
    assert k == i;
  }

  /** The cells of `get_highlight` for `text`: one per character, in order, each
      styled by the byte offset at which its character starts. */
  function Highlighted(text: string, tokens: seq<Token>, default: Style): (cells: seq<Cell>)
    ensures |cells| == |text|
  {
    seq(|text|, k requires 0 <= k < |text| => Cell(text[k], StyleAt(tokens, ByteLen(text[..k]), default)))
  }

  /** The highlighting keeps the text: reading the characters of the cells back
      gives the slice they were made from. */
  lemma HighlightedKeepsText(text: string, tokens: seq<Token>, default: Style)
    ensures var cells := Highlighted(text, tokens, default);
      seq(|cells|, k requires 0 <= k < |cells| => cells[k].c) == text
  {
  }

  /** A character's byte offset is at least its index, and equals it exactly
      when everything before it is ASCII: spans are byte spans, so a multi-byte
      character shifts the style of everything after it. */
  lemma {:induction false} ByteOffsetVsIndex(text: string, k: nat)
    requires k <= |text|
    ensures ByteLen(text[..k]) >= k
    ensures ByteLen(text[..k]) == k <==> IsAscii(text[..k])
    decreases k
  {
    if k > 0 {
      ByteOffsetVsIndex(text, k - 1);
      assert text[..k][..k - 1] == text[..k - 1];
      assert text[..k] == text[..k - 1] + [text[k - 1]];
    }
  }

  /** On ASCII text the style of cell `k` is the style of byte `k`. */
  lemma HighlightedAscii(text: string, tokens: seq<Token>, default: Style, k: nat)
    requires IsAscii(text) && k < |text|
    ensures Highlighted(text, tokens, default)[k].style == StyleAt(tokens, k, default)
  {
    assert IsAscii(text[..k]);
    ByteOffsetVsIndex(text, k);
  }

  /** `get_highlight`'s loop over the characters of the visible slice. */
  method HighlightText(text: string, tokens: seq<Token>, default: Style) returns (cells: seq<Cell>)
    ensures cells == Highlighted(text, tokens, default)
  {
    cells := [];
    var currentByteIndex := 0;
    for i := 0 to |text|
      invariant currentByteIndex == ByteLen(text[..i])
      invariant cells == Highlighted(text[..i], tokens, default)
    {
      var c := text[i];
      var style := match FirstToken(tokens, currentByteIndex)
        case Some(token) => token.style
        case None => default;
      assert text[..i + 1][..i] == text[..i];
      assert forall k :: 0 <= k < i ==> text[..i + 1][..k] == text[..i][..k];
      cells := cells + [Cell(c, style)];
      currentByteIndex := currentByteIndex + Utf8Len(c);
    }
    assert text[..|text|] == text;
  }

  /** Whether the cursor of a window is fixed up after `action`: a
      `DeletePreviousChar` at column 0 of any line but the first, judged by the
      cursor before the edit. */
  predicate JoinsLines(action: Action, col: nat, row: nat)
  {
    action == DeletePreviousChar && col == 0 && row >= 1
  }

  /** The cursor after `handle_action`: the cursor as moved by the cursor logic,
      except after joining a line to the previous one, where the column and the
      absolute position are placed from the mark found at the cursor before the
      edit; the row is the moved cursor's. */
  function FixUp(action: Action, col: nat, row: nat, mark: Mark, moved: Cursor): (c: Cursor)
    ensures c.row == moved.row
    ensures !JoinsLines(action, col, row) ==> c == moved
    ensures JoinsLines(action, col, row) ==>
      c.col == Sat(mark.size, 1) && c.absolutePosition == mark.start + c.col
  {
    if JoinsLines(action, col, row) then
      moved.(col := Sat(mark.size, 1), absolutePosition := mark.start + Sat(mark.size, 1))
    else moved
  }

  /** Whether `render` completes for a view in `area` scrolled to `scroll`: the
      theme's default style sets both colours, the gutter's numbers fit, and the
      cursor column fits in `u16`. */
  predicate RenderFits(view: View.TuiView, area: Rect, scroll: Position, cursor: Cursor, buffer: Buffer, mode: Mode)
    reads view
  {
    var s := S.NextScroll(cursor, area.width, area.height, scroll);
    view.theme.style.fg.Some? && view.theme.style.bg.Some? &&
    G.Fits(view.gutter, buffer.lineCount, cursor.row, s.row, area.height) &&
    S.ScreenFits(mode, buffer.getByLine(cursor.row + 1), cursor, s, view.config.gutterWidth)
  }

  class Window {
    const id: nat
    var cursor: Cursor
    var buffer: Buffer
    var size: Rect
    const view: View.TuiView
    const theme: Config.Theme
    /** The highlighter: the tokens of a piece of text. */
    const colorize: string -> seq<Token>

    /** `Window::new`: the cursor at the start of the buffer. */
    constructor(id: nat, buffer: Buffer, theme: Config.Theme, size: Rect, view: View.TuiView, colorize: string -> seq<Token>)
      ensures this.id == id && this.buffer == buffer && this.theme == theme && this.size == size
      ensures this.view == view && this.colorize == colorize
      ensures cursor == Cursor(0, 0, 0)
    {
      this.id := id;
      this.buffer := buffer;
      this.theme := theme;
      this.size := size;
      this.view := view;
      this.colorize := colorize;
      cursor := Cursor(0, 0, 0);
    }

    /** The visible slice of the buffer: `size.height` lines from the view's
        scroll row. */
    function Slice(): string
      reads this, view
    {
      buffer.contentFrom(view.scroll.row, size.height)
    }

    /** The cells `get_highlight` produces for the current scroll position. */
    function Cells(): seq<Cell>
      reads this, view
    {
      Highlighted(Slice(), colorize(Slice()), theme.style)
    }

    /** `get_highlight`. */
    method GetHighlight() returns (cells: seq<Cell>)
      ensures cells == Cells()
      ensures |cells| == |Slice()|
      ensures forall k :: 0 <= k < |cells| ==> cells[k].c == Slice()[k]
    {
      var text := buffer.contentFrom(view.scroll.row, size.height);
      cells := HighlightText(text, colorize(text), theme.style);
    }

    /** The frame the view holds after a render of this window. */
    function Frame(): V.Viewport
      requires G.Fits(view.gutter, buffer.lineCount, cursor.row, view.scroll.row, view.area.height)
      reads this, view
    {
      View.Frame(view.area.width, view.area.height, view.config.gutterWidth, view.scroll.col, Cells(),
                 G.Lines(view.gutter, buffer.lineCount, cursor.row, view.scroll.row, view.area.height), view.theme.gutter)
    }

    /** `render`: scrolls the view to the cursor first, then colours the slice
        from the new scroll row and renders it. */
    method Render(mode: Mode) returns (writes: seq<TermWrite>, cursorAt: (nat, nat))
      requires RenderFits(view, view.area, view.scroll, cursor, buffer, mode)
      modifies view`scroll, view`frame
      ensures view.scroll == S.NextScroll(cursor, view.area.width, view.area.height, old(view.scroll))
      ensures G.Fits(view.gutter, buffer.lineCount, cursor.row, view.scroll.row, view.area.height)
      ensures view.frame == Frame()
      ensures writes == View.Emit(V.Diff(view.frame, old(view.frame)), view.area, view.theme.style)
      ensures cursorAt == S.CursorScreenPosition(mode, buffer.getByLine(cursor.row + 1), cursor, view.scroll, view.config.gutterWidth)
    {
      view.MaybeScroll(cursor);
      var cells := GetHighlight();
      writes, cursorAt := view.Render(cells, buffer, cursor, mode);
    }

    /** `resize`: the window and its view take the new area, then re-render. */
    method Resize(newSize: Rect, mode: Mode) returns (writes: seq<TermWrite>, cursorAt: (nat, nat))
      requires RenderFits(view, newSize, view.scroll, cursor, buffer, mode)
      modifies this`size, view`area, view`scroll, view`frame
      ensures size == newSize && view.area == newSize
      ensures view.scroll == S.NextScroll(cursor, newSize.width, newSize.height, old(view.scroll))
      ensures G.Fits(view.gutter, buffer.lineCount, cursor.row, view.scroll.row, view.area.height)
      ensures view.frame == Frame()
      ensures writes == View.Emit(V.Diff(view.frame, old(view.frame)), view.area, view.theme.style)
      ensures S.ScreenFits(mode, buffer.getByLine(cursor.row + 1), cursor, view.scroll, view.config.gutterWidth)
      ensures cursorAt == S.CursorScreenPosition(mode, buffer.getByLine(cursor.row + 1), cursor, view.scroll, view.config.gutterWidth)
    {
      size := newSize;
      view.Resize(newSize);
      writes, cursorAt := Render(mode);
    }

    /** `handle_action`: the buffer applies the edit and the cursor logic moves
        the cursor (both outside this model: `edited` and `moved` are their
        results), the line-join fix-up is applied, and the window re-renders.
        The mark at the cursor must exist (`unwrap`). */
    method HandleAction(action: Action, mode: Mode, edited: Buffer, moved: Cursor)
      returns (writes: seq<TermWrite>, cursorAt: (nat, nat))
      requires buffer.getByCursor(cursor.absolutePosition).Some?
      requires RenderFits(view, view.area, view.scroll,
                          FixUp(action, cursor.col, cursor.row, buffer.getByCursor(cursor.absolutePosition).value, moved),
                          edited, mode)
      modifies this`cursor, this`buffer, view`scroll, view`frame
      ensures buffer == edited
      ensures cursor == FixUp(action, old(cursor.col), old(cursor.row),
                              old(buffer.getByCursor(cursor.absolutePosition)).value, moved)
      ensures view.scroll == S.NextScroll(cursor, view.area.width, view.area.height, old(view.scroll))
      ensures G.Fits(view.gutter, buffer.lineCount, cursor.row, view.scroll.row, view.area.height)
      ensures view.frame == Frame()
      ensures writes == View.Emit(V.Diff(view.frame, old(view.frame)), view.area, view.theme.style)
      ensures S.ScreenFits(mode, buffer.getByLine(cursor.row + 1), cursor, view.scroll, view.config.gutterWidth)
      ensures cursorAt == S.CursorScreenPosition(mode, buffer.getByLine(cursor.row + 1), cursor, view.scroll, view.config.gutterWidth)
    {
      var col := cursor.col;
      var row := cursor.row;
      var mark := buffer.getByCursor(cursor.absolutePosition).value;
      buffer := edited;
      cursor := moved;
      if action == DeletePreviousChar {
        if col == 0 && row >= 1 {
          cursor := cursor.(col := Sat(mark.size, 1), absolutePosition := mark.start + Sat(mark.size, 1));
        }
      }
      writes, cursorAt := Render(mode);
    }
  }
}
